=== FILE: README.md ===
# Patch-emu: the DMX patch allocation engine in Dafny

Patch-emu is a lighting-console patch emulator. A *patch* is a list of
fixture instances. Each instance has an id, a FID (the fixture number the
operator types on the console), a name, a fixture type, a universe and a
start address. A fixture type fixes the *footprint*: how many consecutive
DMX addresses of the 512 in a universe the fixture uses. This project
models the engine that decides where fixtures go and whether a command may
change the patch:

- the occupancy index of every universe (`universeData`);
- the collision/range validator (`checkCollision`) and the first-fit
  free-run finder (`findNextFreeAddress`), with the "next free" suggestion
  of the add/edit form;
- batch creation with consecutive FIDs, generated names and a cursor that
  rolls to the next universe (`handleManualSubmit`,
  `getNextSequenceNumber`);
- editing one fixture, deleting one fixture or the whole selection;
- bulk edit and bulk re-patch of the selection in the list's visual order
  (`handleBulkEditSubmit`);
- merging an imported fixture-type library;
- the fixture list's search filter and column sort, the hand-over of the
  visual order to the bulk edit, the multi-selection, and the PDF report's
  row order.

Every command is a pure function that returns either the new patch or the
error that stopped it. A failure carries no list, so a refused command
leaves the patch as it was, which matches the source's early `return`s.
The invariant a committed patch is meant to keep is `Patch.WellFormed`:
- every footprint lies in 1..512 of a universe between 1 and the ceiling;
- no two footprints overlap;
- ids and FIDs are unique.

The proofs show that creation, edit and delete keep it under the
constraints the forms enforce. Bulk edit keeps it under one more
condition that no form enforces: no selected fixture may be hidden by the
search filter (see below).

Modules, one per file: `Wrappers`, `Text` (trim, lower-casing, `includes`,
number rendering, the string comparison), `Seqs`, `Patch` (records and
invariants), `Occupancy`, `FreeRun`, `Collision`, `Cursor`, `Numbering`,
`Errors`, `Create`, `Edit`, `BulkEdit`, `Selection`, `Library`, `Sorting`,
`Ordering` and `FixtureList`.

Behaviour of the code that the model reproduces, and which a reader might
not expect:

- **The cursor rolls over late.** The creation loop and the bulk re-patch
  advance the address by the footprint. They roll over to address 1 of the
  next universe only when the advanced address is already past 512. A
  footprint that straddles 512 is therefore not moved to the next universe;
  the validator refuses it instead.
  - For three 200-channel fixtures from 1.1, one might expect the third
    to wrap to 2.1.
  - The code places it at 1.401 and refuses the whole batch with
    "address 513 out of range" (`Cursor.ThreeWideFixturesDoNotRoll`,
    `Create.StraddlingBatchRefused`).
- **The bulk-edit handler can break the invariant in two ways.** Both are
  stated as concrete lemmas, and the preservation proof assumes neither
  happens:
  - *A selected fixture hidden by the search filter is excluded from the
    collision test but not moved.* A re-patched fixture can land on it
    (`BulkEdit.HiddenSelectionOverlaps`). Users can reach this through
    the dialog.
  - *A type change without re-patch is never collision-checked.* A fixture
    can grow onto its neighbour (`BulkEdit.TypeChangeWithoutRepatchOverlaps`).
    This path is dead in the application. The dialog offers no type or
    fixed-flag toggle; both start off and are reset to off whenever the
    dialog opens. The model keeps the two toggles because the handler
    reads them.
- **Addresses below 1 are indexed too.** The index skips only array
  positions from 512 on, so a fixture patched below address 1 writes
  negative keys, and the validator reads them back. A footprint there
  collides with it like anywhere else (`Collision.BelowOneCollides`).
- **The empty id reads as free.** An occupied slot holding the empty id
  counts as free, because the empty string is falsy.
- **A failed type lookup aborts.** The edit and the bulk re-patch
  dereference the type lookup with `!`; a type that does not resolve makes
  the handler throw before the patch is written. The model reports this as
  `UnknownType`, with the patch unchanged. Creation (`handleManualSubmit`)
  instead returns silently on an unknown type, after clearing the message;
  there `UnknownType` is only the model's label for that early return.
- **A single delete leaves the selection stale.** Deleting one fixture does
  not remove its id from the selection, so the selection can name fixtures
  that no longer exist (`Edit.DeleteLeavesStaleSelection`).

## Model

| member | source | states |
|---|---|---|
| Text.ParseNatToString | App.tsx:231-233 | parsing the decimal digits a generated name ends with gives back the number that was written |
| Text.NatToStringInjective | App.tsx:559 | different sequence numbers give different name suffixes |
| Text.ContainsAt | components/FixtureList.tsx:64-69 | `includes` is true whenever the search text occurs at some position of the field |
| Text.StrCompareAntisymmetric | components/FixtureList.tsx:82 | the comparison that stands in for `localeCompare` changes sign when its arguments are swapped |
| Text.StrCompareZeroIffEqual | components/FixtureList.tsx:82 | the comparison is zero exactly for equal strings |
| Text.StrCompareTransitive | components/FixtureList.tsx:82 | the comparison is transitive, so sorting by it is well defined |
| Patch.Quantity | App.tsx:548 | `parseInt(quantity) \|\| 1` is never zero and keeps every non-zero quantity unchanged |
| Patch.FindType | App.tsx:550 | the type lookup fails exactly when no type has the id; a found type is in the library and has the id |
| Patch.FindTypeFirst | App.tsx:550 | the type found is the first one in the library with that id |
| Patch.FindFixture | App.tsx:335 | the fixture lookup fails exactly when no fixture has the id; a found fixture is in the patch and has the id |
| Occupancy.MarkRow | App.tsx:255-262 | indexing one fixture paints its footprint into its own universe's row when its type resolves (array slots up to 512, and negative keys for addresses below 1), and changes no other row |
| Occupancy.UniverseIndex | App.tsx:252-264 | `universeData`: the index built by marking the fixtures in list order; every row it holds has 512 slots |
| Occupancy.LastMarked | App.tsx:259-261 | any address up to 512, including those below 1, reads as the last fixture's id if that fixture covers it, and otherwise as what the shorter list put there |
| Occupancy.CellContents | App.tsx:253-265 | an address up to 512 (below 1 included) reads as empty exactly when no fixture covers it; otherwise it holds the id of the last fixture in list order that covers it |
| Occupancy.IndexEntries | App.tsx:255-258 | a universe gets a row exactly when some fixture whose type resolves is patched in it |
| Occupancy.SoleOccupant | App.tsx:253-265 | in a patch without overlaps, every address up to 512 that a fixture covers, below 1 included, reads as that fixture's id |
| FreeRun.Scan | App.tsx:279-287 | the scan from any point returns a run of free slots of the needed length with no such run before it, and returns nothing exactly when no run exists |
| FreeRun.FindNextFree | App.tsx:275-288 | the finder returns the lowest start of a free run of the needed length in 1..512, and nothing exactly when none exists |
| FreeRun.FindNextFreeAddress | App.tsx:275-288 | the same first-fit result on a universe's occupancy, with a missing universe read as empty and excluded ids read as free |
| FreeRun.EmptyUniverseFromOne | App.tsx:276 | in a universe no resolved fixture uses, the finder answers 1 when the run fits in 512 addresses, and nothing otherwise |
| FreeRun.OwnFootprintIsFree | App.tsx:310 | while a fixture is edited with its own id excluded, the finder answers an address at or before the fixture's current one |
| FreeRun.NextFree | App.tsx:304-321 | the effect acts exactly when it is on, the universe parses and the type resolves; it suggests the first run for the whole batch; failing that, the first run for one footprint, with the batch warning exactly when a multi-fixture add was asked for; failing both, it reports the universe full, and it does so only when neither run exists |
| FreeRun.EditExcludes | App.tsx:310 | `editingFixtureId \|\| undefined` excludes at most the edited id and never the empty id |
| FreeRun.EditingNeverFallsBack | App.tsx:309-316 | when editing, the effect never falls back to a one-footprint run with a warning |
| Collision.CheckFrom | App.tsx:330-338 | the validator loop passes exactly when every remaining address of the footprint is at most 512 and free, addresses below 1 read from the keys written there |
| Collision.CheckFromFailure | App.tsx:330-338 | a refusal names the first failing address, with the range test before the occupancy test |
| Collision.CheckCollision | App.tsx:328-340 | the validator accepts exactly when every address of the footprint is at most 512 and free of fixtures outside the exclusion set, addresses below 1 included |
| Collision.CheckCollisionFirstFailure | App.tsx:328-340 | a refusal reports the first address of the footprint that fails, and every address before it passes |
| Collision.CheckCollisionIff | App.tsx:328-340 | in a patch without overlaps, acceptance means the footprint ends by address 512 and overlaps no fixture outside the exclusion set, on any address up to 512 including those below 1 |
| Collision.AcceptedIsDisjoint | App.tsx:328-340 | an accepted footprint is disjoint from every fixture of a well-formed patch that is not excluded |
| Collision.OverhangRefused | App.tsx:332 | a footprint that runs past address 512 is always refused |
| Collision.BelowOneCollides | App.tsx:258-261 | a fixture patched at address -2 with four channels is reported as the occupant of addresses 1 and 0 |
| Cursor.Advance | App.tsx:561-562 | the cursor moves on by the footprint; it rolls to address 1 of the next universe exactly when the advanced address passes 512, and aborts exactly when that next universe is above the ceiling |
| Cursor.WalkStep | App.tsx:554-563 | the cursor positions of a batch start at the start placement, and each follows from the previous one by one step |
| Cursor.WalkNonOverlapping | App.tsx:561-562 | with positive footprints, each cursor position ends before the next one starts, so no two items of one walk overlap |
| Cursor.WalkFromAtOrAfter | App.tsx:561-562 | no cursor position lies before the start placement |
| Cursor.WalkInBounds | App.tsx:562 | if no step aborts, every cursor position has an address of at least 1 and a universe between 1 and the ceiling |
| Cursor.ThreeWideFixturesDoNotRoll | App.tsx:561-562 | three 200-channel footprints from 1.1 are placed at 1.1, 1.201 and 1.401 |
| Cursor.FullLastUniverseAborts | App.tsx:562 | a full-universe footprint in the last universe aborts the walk |
| Numbering.SuffixOfNumberedName | App.tsx:228-233 | the name pattern reads the number back from a generated name `<base> <n>` |
| Numbering.MaxSuffix | App.tsx:227-236 | the maximum bounds every matching name's number and, when positive, is reached by one of them |
| Numbering.CountOfType | App.tsx:225-226 | the count of fixtures of a type is zero exactly when the patch has none of them |
| Numbering.NextSequenceNumber | App.tsx:224-238 | the next number is at least 1 and above every number already used; it is 1 for a new type; it is one past the largest number when one is positive; otherwise it is the count of that type plus one |
| Numbering.NumberingContinues | App.tsx:224-238 | after a batch named from the next number on, the next number has grown by exactly the batch size |
| Numbering.MaxFid | App.tsx:608 | the maximum FID bounds every FID and is itself a FID of the patch |
| Numbering.DefaultNextFid | App.tsx:608 | the default FID offered is above every FID in use; it is one past a FID in use, or 1 for an empty patch |
| Selection.Toggle | App.tsx:290-297 | toggling flips the membership of that id and of no other |
| Selection.ToggleTwice | App.tsx:290-297 | toggling the same id twice restores the selection |
| Selection.ToggleAll | App.tsx:299-302 | when the counts are equal, select-all clears the selection; otherwise it selects exactly the patch's ids |
| Selection.AllSelected | components/FixtureList.tsx:106 | the header checkbox: a non-empty list whose length the selection's size matches |
| Selection.IdsCount | App.tsx:300-301 | with unique ids the patch has as many ids as fixtures, so comparing counts compares sets |
| Selection.AllSelectedIff | components/FixtureList.tsx:106 | for a selection of the patch's ids, "all selected" holds exactly when the patch is non-empty and every id is selected |
| Selection.ToggleAllFlips | App.tsx:299-302 | select-all clears a full selection and fills any other; pressed twice from an empty selection of a non-empty list, the selection ends empty |
| Library.MatchIndex | App.tsx:404 | the match lookup finds the first type with the same id, or the same manufacturer, name and mode, and fails exactly when none matches |
| Library.MergeOne | App.tsx:403-406 | an incomplete entry changes nothing; a matching entry overwrites the first match's fields in place and leaves every other type alone; any other entry is appended with its own id, or a fresh one when its id is missing or empty |
| Library.MergeLibrary | App.tsx:400-409 | the library import: every entry merged into the previous library in order |
| Library.MergeFromGrows | App.tsx:400-408 | the import never shrinks the library, adds at most one type per entry, and changes nothing when no entry is importable |
| Library.MergeFromKeepsUsable | App.tsx:403-406 | a library of named, manufactured, non-zero-channel types stays so after the import |
| Library.MergeFromKeepsIds | App.tsx:405 | entries without an id never change the id of an existing type |
| Library.MergeOneIdempotent | App.tsx:402-406 | importing the same entry twice gives the same library as importing it once, unless the entry's id is the empty string |
| Library.MatchIndexFirst | App.tsx:404 | the lookup answers the first matching position |
| Library.MatchByModelRenames | App.tsx:404-405 | an entry that matches by model but carries another id renames the existing type, so fixtures that used the old id lose their type |
| Sorting.Insert | components/FixtureList.tsx:75 | inserting adds exactly one element and keeps all others |
| Sorting.Sort | components/FixtureList.tsx:75 | the sort returns a permutation of its input |
| Sorting.InsertSorted | components/FixtureList.tsx:75-101 | inserting into a sorted list under a total, transitive comparator keeps it sorted |
| Sorting.SortSorted | components/FixtureList.tsx:75-101 | under a total, transitive comparator the result is sorted |
| Ordering.ListCompareMeaning | components/FixtureList.tsx:77-100 | ascending puts `a` first exactly when `a` comes before `b` in the column's order (FID; name; type name; location; universe, then address), and descending exactly when `b` comes before `a` |
| Ordering.ListCompare | components/FixtureList.tsx:77-98 | the list's comparator: the chosen column's comparison, negated for a descending sort |
| Ordering.ListCompareAntisymmetric | components/FixtureList.tsx:75-101 | the list comparator changes sign when its arguments are swapped, and ties a fixture with itself |
| Ordering.KeyCompareTransitive | components/FixtureList.tsx:77-99 | every column comparison is transitive |
| Ordering.ListCompareTransitive | components/FixtureList.tsx:75-101 | the list comparator is transitive in both directions |
| Ordering.ListOrderIsPreorder | components/FixtureList.tsx:75-101 | the list comparator is total and transitive on any list |
| Ordering.SortList | components/FixtureList.tsx:75-101 | the sorted list is a permutation of the input, ordered by the chosen column and direction |
| Ordering.DescendingIsReversedAscending | components/FixtureList.tsx:100 | a list is in descending order exactly when its reverse is in ascending order |
| Ordering.PdfCompareLexicographic | App.tsx:439-451 | the report puts `a` first exactly when its primary key is lower, or the primary keys tie and its secondary key is lower; the two tie exactly when both keys tie |
| Ordering.PdfCompare | App.tsx:434-455 | the report's comparator for each of the six modes, a primary key with a secondary key on ties |
| Ordering.PatchKeyOrder | App.tsx:436-437 | for addresses below 1000, `universe * 1000 + address` orders by universe, then address, and ties exactly on equal placements |
| Ordering.PdfCompareAntisymmetric | App.tsx:433-455 | the report comparator changes sign when its arguments are swapped |
| Ordering.PdfCompareTransitive | App.tsx:433-455 | the report comparator is transitive |
| Ordering.PdfOrderIsPreorder | App.tsx:433-455 | the report comparator is total and transitive on any list |
| Ordering.ReportRows | App.tsx:425-426 | with fixed fixtures included the rows are the whole patch; otherwise they are exactly the non-fixed fixtures, each as often as in the patch, in patch order |
| Ordering.ReportOrder | App.tsx:425-455 | the report rows are a permutation of the chosen rows, so each included fixture appears exactly as often as in the patch and each dropped one not at all, sorted by the chosen mode |
| FixtureList.FilterList | components/FixtureList.tsx:59-72 | a blank search box shows the whole list; otherwise the list shows exactly the fixtures whose searched fields contain the lower-cased text, each as often as in the patch, in list order |
| FixtureList.MatchesSearch | components/FixtureList.tsx:63-71 | the search test: the text occurs in the lower-cased name, the FID, the lower-cased location, the type's lower-cased manufacturer or name, or the `universe.address` label |
| FixtureList.LowerKeepsBlank | components/FixtureList.tsx:59-60 | lower-casing neither makes a text blank nor removes its blankness |
| FixtureList.FilterIgnoresCase | components/FixtureList.tsx:59-60 | typing the search text in any letter case gives the same list |
| FixtureList.FidSearchFinds | components/FixtureList.tsx:65 | searching for a fixture's FID keeps that fixture |
| FixtureList.PatchSearchFinds | components/FixtureList.tsx:69 | searching for a fixture's `universe.address` label keeps that fixture |
| FixtureList.HandleSort | components/FixtureList.tsx:46-53 | clicking the current column flips its direction; clicking another column selects it ascending |
| FixtureList.HeaderClickReverses | components/FixtureList.tsx:46-53 | clicking the current column reverses the comparator, and a second click restores the sort state |
| FixtureList.VisualOrder | components/FixtureList.tsx:55-104 | the visual order is a permutation of the filtered list, sorted by the chosen column and direction |
| FixtureList.OpenBulkEdit | App.tsx:493-496 | the dialog opens exactly when some shown fixture is selected; its list is then the selected shown fixtures, each as often as shown, in visual order, and no other fixture |
| FixtureList.BulkEditTargetsFromList | components/FixtureList.tsx:138 | the list handed to the bulk edit comes from the patch, is selected and repeats no id; with a blank search box it holds every selected fixture |
| Edit.EditFixture | App.tsx:567-576 | the single edit fails for no target, then for a FID held by another fixture, then for an unresolved type, then for a refused placement with the fixture itself excluded; on success it writes every form field (FID, name, type, placement, colour, location, fixed flag) into the edited fixture only, keeping its id and position |
| Edit.FormOf | App.tsx:484-491 | the form opens exactly when the fixture's type resolves; written back, it gives the same record except that the colour is the one computed for the type and an empty location becomes the first location of the list |
| Edit.UnchangedEditAccepted | App.tsx:567-576 | opening a fixture of a well-formed patch and submitting the form unchanged is accepted; the patch comes back with only that fixture's colour and (if it was empty) location replaced |
| Edit.EditPreservesWellFormed | App.tsx:567-576 | an accepted edit keeps the patch well-formed |
| Edit.DeleteOne | App.tsx:1120 | deleting a fixture removes every fixture with that id and keeps the rest, each as often as before, in order |
| Edit.DeleteSelected | App.tsx:539-540 | the bulk delete removes exactly the selected fixtures and keeps the rest, each as often as before, in order; with nothing selected it keeps the patch |
| Edit.DropFocus | App.tsx:542 | the focused fixture is kept exactly when it was not deleted |
| Edit.DeleteOneIsDeleteSelected | App.tsx:1120 | deleting one fixture is the bulk delete of a one-id selection |
| Edit.DeletePreservesWellFormed | App.tsx:539-543 | deleting any selection keeps the patch well-formed |
| Edit.DeleteOneIds | App.tsx:1120 | the single delete removes exactly the one id from the patch's ids |
| Edit.DeleteOneUnique | App.tsx:1120 | the single delete keeps ids unique |
| Edit.DeleteLeavesStaleSelection | App.tsx:1120 | the single delete does not touch the selection: if all fixtures but one were selected and a selected one is deleted, the header checkbox reads "all selected" while a remaining fixture is unselected, and select-all then clears |
| BulkEdit.Overlay | App.tsx:534 | merging the new values keeps the id and every field group that is not given |
| BulkEdit.ChangesFor | App.tsx:517-533 | each field group is written exactly when its toggle is on; item `i` gets FID `fid + i` and the cursor placement; the color changes exactly when the new type resolves |
| BulkEdit.FidClash | App.tsx:511-514 | the FID pre-check finds the first FID of the run that a fixture outside the selection holds, and finds none exactly when the whole run is free |
| BulkEdit.FirstIndex | App.tsx:516 | the index lookup finds the first fixture with the id, and fails exactly when none has it |
| BulkEdit.WriteFirst | App.tsx:516-534 | writing one item keeps the patch's length and every id in place |
| BulkEdit.BulkStep | App.tsx:527-533 | without re-patch the cursor stays put; with re-patch, a passing item's type resolves and the cursor advances by its footprint |
| BulkEdit.BulkFrom | App.tsx:515-535 | the loop either fails for an unresolved type, a refused placement or the universe limit, or keeps every id in place |
| BulkEdit.BulkEditFixtures | App.tsx:506-537 | a FID clash outside the selection is reported at its first FID; only that pre-check reports a duplicate FID; success keeps the patch's length and ids in place |
| BulkEdit.BulkWalkStart | App.tsx:509 | the re-patch cursor starts at the form's universe and address |
| BulkEdit.BulkFromSucceedsIff | App.tsx:515-535 | the loop succeeds exactly when every remaining item passes its step at its cursor position |
| BulkEdit.BulkFromRevised | App.tsx:515-535 | a successful loop returns the patch with every item of the visual order rewritten |
| BulkEdit.BulkEditSucceedsIff | App.tsx:506-537 | the bulk edit succeeds exactly when the FID run is free outside the selection (if FIDs are written) and every item passes its step |
| BulkEdit.BulkEditResult | App.tsx:506-537 | a successful bulk edit returns the patch with each item of the visual order rewritten by its own changes, and no other fixture touched |
| BulkEdit.RevisedAt | App.tsx:515-534 | in the rewritten patch, a fixture in the visual order carries the changes for its position and any other fixture is unchanged |
| BulkEdit.RevisedPlaced | App.tsx:527-533 | every rewritten fixture still lies within 1..512 of a universe below the ceiling |
| BulkEdit.RevisedPairCompatible | App.tsx:506-537 | when nothing is hidden and types change only with a re-patch, any two rewritten fixtures keep different ids, different FIDs and disjoint footprints |
| BulkEdit.BulkEditPreservesWellFormed | App.tsx:506-537 | under the same two conditions an accepted bulk edit keeps the patch well-formed |
| BulkEdit.BulkEditOnlyToggled | App.tsx:517-534 | a bulk edit changes only fixtures of the visual order, and only in the field groups whose toggle is on |
| BulkEdit.BulkEditItemValues | App.tsx:518-531 | item `i` gets the name (with ` i+1` under the pattern), FID `fid + i`, type, location, fixed flag and cursor placement the form asks for |
| BulkEdit.TypeChangeWithoutRepatchOverlaps | App.tsx:520-527 | the handler accepts a type change without re-patch even when the wider footprint overlaps the next fixture (the dialog never turns the type toggle on) |
| BulkEdit.HiddenSelectionOverlaps | App.tsx:508-529 | a re-patch is accepted onto a selected fixture that the search filter hid, leaving two fixtures on the same addresses |
| Create.Synthesize | App.tsx:555-563 | the creation loop fails only for a used FID, a refused placement or the universe limit; on success it yields one fixture per remaining iteration |
| Create.SynthesizeValue | App.tsx:555-563 | a successful loop yields item `i` built from id `i`, FID `fid + i`, name number `nextSeq + i` and the cursor position of step `i` |
| Create.SynthesizeSucceedsIff | App.tsx:555-563 | the loop succeeds exactly when every item passes the FID test, the validator and the cursor advance |
| Create.SynthesizePlanned | App.tsx:553-563 | a successful loop yields exactly the planned batch |
| Create.SynthesizeFirstError | App.tsx:555-562 | a failed loop reports the error of the first failing item, and every earlier item passes |
| Create.SynthesizeDuplicateFid | App.tsx:556 | a duplicate-FID failure names a FID of the patch within the batch's FID range |
| Create.Create | App.tsx:545-565 | creation fails for a blank name, then for a FID below 1, then for an unresolved type; on success the batch is appended after the unchanged patch |
| Create.CreateSucceedsIff | App.tsx:545-565 | creation succeeds exactly when the name is not blank, the FID is at least 1, the type resolves and every item of the batch passes |
| Create.CreateDuplicateFid | App.tsx:556 | a duplicate-FID refusal names a FID of the patch within the batch's FID range |
| Create.PlannedItemName | App.tsx:559-560 | item `j` has the chosen type and is named `<name> <nextSeq + j>` |
| Create.PlannedItem | App.tsx:560-561 | item `j` has the type's footprint, the cursor position of step `j`, FID `fid + j` and the `j`-th fresh id |
| Create.BatchPassed | App.tsx:555-562 | a batch that passes passes each item at its cursor position |
| Create.BatchPlaced | App.tsx:555-562 | every item of an accepted batch lies within 1..512 of a universe below the ceiling |
| Create.BatchCompatible | App.tsx:559-561 | the items of one batch have different ids, different FIDs and disjoint footprints |
| Create.PlannedFitsPatch | App.tsx:556-558 | an item that passes its checks is compatible with every fixture already in the patch |
| Create.BatchFitsPatch | App.tsx:555-563 | every item of an accepted batch is compatible with every fixture already in the patch |
| Create.CreatePreservesWellFormed | App.tsx:545-565 | an accepted creation keeps the patch well-formed |
| Create.EmptyPatchAccepts | App.tsx:330-338 | in an empty patch the validator accepts any footprint that ends by 512, wherever it starts, and refuses one that straddles 512 at address 513 |
| Create.StraddlingBatchRefused | App.tsx:555-562 | three 200-channel fixtures from 1.1 into an empty patch are refused at address 513 of universe 1 |
| Create.CreateContinuesNumbering | App.tsx:552-559 | after an accepted creation, the next sequence number for the same type and name has grown by the batch size |

## Left out

- Rendering: the React components, the DMX grid, modals, theming,
  `handleCellClick` and the sidebar are not modelled. Neither are the form
  fields beyond their parsed values and the rules that the form inputs
  enforce (`min`/`max` on FID, universe, address, quantity and the
  universe ceiling). Those rules appear as preconditions of the
  invariant-preservation lemmas only, never of the commands.
- Persistence and files: `localStorage`, patch and library JSON import and
  export, and `FileReader` are left out as I/O. The merge step of the
  library import is modelled; JSON decoding is not.
- The PDF document itself (jsPDF layout, the date, the parameter total) is
  output formatting. Only the row filter and the row order are modelled.
- The AI assistant service is a network call and is not part of this model.
- `getManufacturerColor` is passed in as the `color` of a form. The model
  does not compute the color.
- Fresh ids (`Date.now()`, `Math.random()`) are inputs: a sequence of ids
  for creation, and one per imported entry for the library.
- `stats` and its occupancy percentage are display-only arithmetic.
- `parseInt` of form text is not modelled. Forms carry integers, and an
  unparsable universe is given as 0. `parseInt(quantity) || 1` is modelled
  by `Patch.Quantity`.
- `localeCompare` is replaced by a character-code comparison
  (`Text.StrCompare`), proved to be a total order. `toLowerCase` lower-cases
  ASCII letters only. `trim` removes a fixed set of whitespace characters.
- `Array.prototype.sort` is modelled by an insertion sort. Results are stated
  up to the comparator, a permutation plus sortedness. The exact order
  among fixtures that compare equal (stability) is not stated.
- The PDF comparator's `default` branch cannot be reached, because the sort
  mode is one of six values.
- Clearing the selection after a bulk edit or bulk delete is not a separate
  member: the new selection is the empty set. The single delete does not
  touch the selection.
- An imported library entry that lacks an `id` key and one whose id is the
  empty string are told apart by `Option`. The source treats both as
  falsy when appending, and `Library.MergeOne` follows it.
- `handleEditInitiate`'s choice of form fields is modelled only as far as
  `Edit.FormOf`; the manufacturer/model pickers are not. The first entry of
  the location list lives in a constants file that is not part of this
  model, so it is a parameter.
- Selection.AllSelectedIff: assumes the selection holds only ids of the
  patch. The single delete breaks that, and the header checkbox can then
  read "all selected" while a fixture is unselected
  (`Edit.DeleteLeavesStaleSelection`).
- Selection.ToggleAllFlips: assumes the same, so after a single delete of a
  selected fixture select-all can clear a selection that misses a fixture.
- BulkEdit.BulkEditPreservesWellFormed: proved only when every selected
  fixture is in the visual order and a type change comes with a re-patch.
  The handler accepts both other cases and can then produce overlaps (see
  `BulkEdit.HiddenSelectionOverlaps` and
  `BulkEdit.TypeChangeWithoutRepatchOverlaps`). Only the hidden selection
  is reachable from the dialog: the type-change condition covers handler
  inputs the dialog never produces, since it has no type toggle.
- BulkEdit.RevisedPairCompatible: proved under the same two conditions as
  the preservation lemma, for the same reason.

=== FILE: bulk_edit.dfy ===
/**
 * Bulk edit and bulk re-patch (`handleBulkEditSubmit`): the fixtures of
 * the visual order are walked in turn, each toggled field is overwritten,
 * and with "re-patch" on each fixture is placed at a running cursor; the
 * first failure abandons the whole edit.
 */
module BulkEdit {
  import opened Wrappers
  import opened Seqs
  import opened Text
  import opened Patch
  import opened Occupancy
  import opened Collision
  import opened Cursor
  import opened Errors

  /**
   * The bulk-edit form: one toggle per field group, and the values. The
   * handler reads the type and fixed-flag toggles, but the dialog offers
   * no control for them and resets both to off when it opens.
   */
  datatype BulkForm = BulkForm(
    updateName: bool, useNamePattern: bool, name: string,
    updateFid: bool, fid: int,
    updateType: bool, typeId: Id,
    updateLocation: bool, location: string,
    updateIsFixed: bool, isFixed: bool,
    updatePatch: bool, universe: int, address: int)

  /** `newValues`: the fields one fixture gets; `None` leaves the field alone. */
  datatype Changes = Changes(
    name: Option<string>, fid: Option<int>, typeId: Option<Id>, color: Option<string>,
    location: Option<string>, isFixed: Option<bool>, at: Option<Placement>)

  /** `{ ...f, ...newValues }`. */
  function Overlay(f: Fixture, c: Changes): (g: Fixture)
    ensures g.id == f.id
    ensures c.name.None? ==> g.name == f.name
    ensures c.fid.None? ==> g.fid == f.fid
    ensures c.typeId.None? ==> g.typeId == f.typeId
    ensures c.color.None? ==> g.color == f.color
    ensures c.location.None? ==> g.location == f.location
    ensures c.isFixed.None? ==> g.isFixed == f.isFixed
    ensures c.at.None? ==> g.universe == f.universe && g.address == f.address
  {
    Fixture(f.id, c.fid.GetOr(f.fid), c.name.GetOr(f.name), c.typeId.GetOr(f.typeId),
            if c.at.Some? then c.at.value.universe else f.universe,
            if c.at.Some? then c.at.value.address else f.address,
            c.color.GetOr(f.color), c.location.GetOr(f.location), c.isFixed.GetOr(f.isFixed))
  }

  /**
   * The changes for item `i` of the visual order with the cursor at `at`.
   * `color` is what `getManufacturerColor` gives for the chosen type; it is
   * only written when that type exists.
   */
  function ChangesFor(form: BulkForm, types: seq<FixtureType>, color: string, i: nat, at: Placement): (c: Changes)
    ensures c.name.Some? <==> form.updateName
    ensures c.fid.Some? <==> form.updateFid
    ensures c.fid.Some? ==> c.fid.value == form.fid + i
    ensures c.typeId.Some? <==> form.updateType
    ensures c.color.Some? <==> form.updateType && FindType(types, form.typeId).Some?
    ensures c.location.Some? <==> form.updateLocation
    ensures c.isFixed.Some? <==> form.updateIsFixed
    ensures c.at.Some? <==> form.updatePatch
    ensures c.at.Some? ==> c.at.value == at
  {
    Changes(
      if form.updateName then Some(if form.useNamePattern then form.name + " " + NatToString(i + 1) else form.name) else None,
      if form.updateFid then Some(form.fid + i) else None,
      if form.updateType then Some(form.typeId) else None,
      if form.updateType && FindType(types, form.typeId).Some? then Some(color) else None,
      if form.updateLocation then Some(form.location) else None,
      if form.updateIsFixed then Some(form.isFixed) else None,
      if form.updatePatch then Some(at) else None)
  }

  /** `newValues.typeId || f.typeId`: the type whose footprint the re-patch uses. */
  function ChannelTypeId(form: BulkForm, f: Fixture): Id {
    if form.updateType && form.typeId != "" then form.typeId else f.typeId
  }

  /** The footprint each item of the visual order is re-patched with (0 when the type is missing). */
  function Footprints(form: BulkForm, types: seq<FixtureType>, targets: seq<Fixture>): (chs: seq<int>)
    ensures |chs| == |targets|
  {
    seq(|targets|, i requires 0 <= i < |targets| =>
      match FindType(types, ChannelTypeId(form, targets[i])) case Some(t) => t.channels case None => 0)
  }

  /** The FIDs of the fixtures outside the selection. */
  function OtherFids(fs: seq<Fixture>, selected: set<Id>): set<int> {
    set f | f in fs && f.id !in selected :: f.fid
  }

  /** The FID pre-check from offset `i` on: the first offset whose FID is taken outside the selection. */
  function FidClash(fs: seq<Fixture>, selected: set<Id>, fid: int, n: nat, i: nat): (r: Option<nat>)
    ensures r.None? <==> forall x | fid + i <= x < fid + n :: x !in OtherFids(fs, selected)
    ensures r.Some? ==> (i <= r.value < n && fid + r.value in OtherFids(fs, selected)
      && forall x | fid + i <= x < fid + r.value :: x !in OtherFids(fs, selected))
    decreases n - i
  {
    if i >= n then None
    else if fid + i in OtherFids(fs, selected) then Some(i)
    else FidClash(fs, selected, fid, n, i + 1)
  }

  /** `findIndex(uf => uf.id === id)`. */
  function FirstIndex(xs: seq<Fixture>, id: Id): (r: Option<nat>)
    ensures r.None? <==> forall k | 0 <= k < |xs| :: xs[k].id != id
    ensures r.Some? ==> (r.value < |xs| && xs[r.value].id == id
      && forall k | 0 <= k < r.value :: xs[k].id != id)
  {
    if |xs| == 0 then None
    else if xs[0].id == id then Some(0)
    else match FirstIndex(xs[1..], id)
      case None => None
      case Some(k) => Some(k + 1)
  }

  /**
   * `updatedFixtures[idx] = { ...updatedFixtures[idx], ...newValues }`: the
   * first record carrying `id` is overlaid; with no such record (index -1)
   * the list is left as it is.
   */
  function WriteFirst(xs: seq<Fixture>, id: Id, c: Changes): (r: seq<Fixture>)
    ensures |r| == |xs|
    ensures forall k | 0 <= k < |xs| :: r[k].id == xs[k].id
  {
    match FirstIndex(xs, id)
    case None => xs
    case Some(k) => xs[k := Overlay(xs[k], c)]
  }

  /**
   * The re-patch part of one iteration: resolve the footprint, validate it
   * against the pre-edit occupancy ignoring every selected id, and advance
   * the cursor. Without re-patch the cursor stays put.
   */
  function BulkStep(fs: seq<Fixture>, types: seq<FixtureType>, maxUniverses: int, selected: set<Id>,
                    form: BulkForm, f: Fixture, at: Placement): (r: Result<Placement, PatchError>)
    ensures !form.updatePatch ==> r == Success(at)
    ensures form.updatePatch && r.Success? ==>
      FindType(types, ChannelTypeId(form, f)).Some?
      && r.value == Step(at, FindType(types, ChannelTypeId(form, f)).value.channels)
  {
    if !form.updatePatch then Success(at)
    else match FindType(types, ChannelTypeId(form, f))
      case None => Failure(UnknownType)
      case Some(t) =>
        match CheckCollision(fs, types, at.universe, at.address, t.channels, selected)
        case Some(e) => Failure(Rejected(e))
        case None =>
          match Advance(at, t.channels, maxUniverses)
          case None => Failure(UniverseLimit)
          case Some(next) => Success(next)
  }

  /** The loop from item `i` on, with the cursor at `at` and the list built so far `acc`. */
  function BulkFrom(fs: seq<Fixture>, types: seq<FixtureType>, maxUniverses: int, targets: seq<Fixture>,
                    selected: set<Id>, form: BulkForm, color: string, i: nat, at: Placement,
                    acc: seq<Fixture>): (r: Result<seq<Fixture>, PatchError>)
    ensures r.Success? ==> |r.value| == |acc| && forall k | 0 <= k < |acc| :: r.value[k].id == acc[k].id
    ensures r.Failure? ==> r.error == UnknownType || r.error.Rejected? || r.error == UniverseLimit
    decreases |targets| - i
  {
    if i >= |targets| then Success(acc)
    else match BulkStep(fs, types, maxUniverses, selected, form, targets[i], at)
      case Failure(e) => Failure(e)
      case Success(next) =>
        BulkFrom(fs, types, maxUniverses, targets, selected, form, color, i + 1, next,
                 WriteFirst(acc, targets[i].id, ChangesFor(form, types, color, i, at)))
  }

  /**
   * `handleBulkEditSubmit`: `targets` is the visual order captured when the
   * dialog opened, `selected` the whole selection. With "FID" on, the FIDs
   * handed out are checked first against every fixture outside the
   * selection; then the loop runs on a copy of the list.
   */
  function BulkEditFixtures(fs: seq<Fixture>, types: seq<FixtureType>, maxUniverses: int, targets: seq<Fixture>,
                            selected: set<Id>, form: BulkForm, color: string): (r: Result<seq<Fixture>, PatchError>)
    ensures form.updateFid && FidClash(fs, selected, form.fid, |targets|, 0).Some? ==>
      r == Failure(DuplicateFid(form.fid + FidClash(fs, selected, form.fid, |targets|, 0).value))
    ensures r.Failure? && r.error.DuplicateFid? ==>
      form.updateFid && r.error.fid in OtherFids(fs, selected)
    ensures r.Success? ==> |r.value| == |fs| && forall k | 0 <= k < |fs| :: r.value[k].id == fs[k].id
  {
    if form.updateFid && FidClash(fs, selected, form.fid, |targets|, 0).Some? then
      Failure(DuplicateFid(form.fid + FidClash(fs, selected, form.fid, |targets|, 0).value))
    else
      BulkFrom(fs, types, maxUniverses, targets, selected, form, color, 0, Placement(form.universe, form.address), fs)
  }

  /** The cursor positions a re-patch hands out, item by item. */
  function BulkWalk(form: BulkForm, types: seq<FixtureType>, targets: seq<Fixture>): (w: seq<Placement>)
    ensures |w| == |targets|
  {
    Walk(Placement(form.universe, form.address), Footprints(form, types, targets))
  }

  /** The position among the first `n` items of the visual order that carries `id`. */
  function TargetIndex(targets: seq<Fixture>, id: Id, n: nat): (r: Option<nat>)
    requires n <= |targets|
    ensures r.None? <==> forall i | 0 <= i < n :: targets[i].id != id
    ensures r.Some? ==> r.value < n && targets[r.value].id == id
    decreases n
  {
    if n == 0 then None
    else if targets[n - 1].id == id then Some(n - 1)
    else TargetIndex(targets, id, n - 1)
  }

  /** With ids distinct, the position carrying `id` is the one `TargetIndex` finds. */
  lemma TargetIndexUnique(targets: seq<Fixture>, id: Id, i: nat)
    requires UniqueIds(targets) && i < |targets| && targets[i].id == id
    ensures TargetIndex(targets, id, |targets|) == Some(i)
  {
  }

  /**
   * Reference result after the first `n` items: every fixture that is one
   * of them is overlaid with that item's changes, the rest are as before.
   */
  function Revised(fs: seq<Fixture>, types: seq<FixtureType>, targets: seq<Fixture>, form: BulkForm,
                   color: string, n: nat): (r: seq<Fixture>)
    requires n <= |targets|
    ensures |r| == |fs|
  {
    var w := BulkWalk(form, types, targets);
    seq(|fs|, k requires 0 <= k < |fs| =>
      match TargetIndex(targets, fs[k].id, n)
      case Some(i) => Overlay(fs[k], ChangesFor(form, types, color, i, w[i]))
      case None => fs[k])
  }

  /** Item `n` changes the reference only at the fixture carrying its id, which item `n` overlays. */
  lemma RevisedStepAt(fs: seq<Fixture>, types: seq<FixtureType>, targets: seq<Fixture>, form: BulkForm,
                      color: string, n: nat, k: nat)
    requires UniqueIds(targets) && n < |targets| && k < |fs|
    ensures fs[k].id != targets[n].id ==>
      Revised(fs, types, targets, form, color, n + 1)[k] == Revised(fs, types, targets, form, color, n)[k]
    ensures fs[k].id == targets[n].id ==>
      && Revised(fs, types, targets, form, color, n)[k] == fs[k]
      && Revised(fs, types, targets, form, color, n + 1)[k]
         == Overlay(fs[k], ChangesFor(form, types, color, n, BulkWalk(form, types, targets)[n]))
  {
    if fs[k].id == targets[n].id {
      assert TargetIndex(targets, fs[k].id, n).None?;
    }
  }

  /** Overlaying item `n` onto the reference after `n` items gives the reference after `n + 1`. */
  lemma WriteRevised(fs: seq<Fixture>, types: seq<FixtureType>, targets: seq<Fixture>, form: BulkForm,
                     color: string, n: nat)
    requires UniqueIds(fs) && UniqueIds(targets) && n < |targets|
    ensures WriteFirst(Revised(fs, types, targets, form, color, n), targets[n].id,
                       ChangesFor(form, types, color, n, BulkWalk(form, types, targets)[n]))
      == Revised(fs, types, targets, form, color, n + 1)
  {
    var before := Revised(fs, types, targets, form, color, n);
    var after := Revised(fs, types, targets, form, color, n + 1);
    var id := targets[n].id;
    var c := ChangesFor(form, types, color, n, BulkWalk(form, types, targets)[n]);
    match FirstIndex(before, id)
    case None =>
      forall k | 0 <= k < |fs|
        ensures after[k] == before[k]
      {
        RevisedStepAt(fs, types, targets, form, color, n, k);
      }
    case Some(j) =>
      forall k | 0 <= k < |fs|
        ensures after[k] == before[j := Overlay(before[j], c)][k]
      {
        RevisedStepAt(fs, types, targets, form, color, n, k);
      }
  }

  /** With no item applied the reference is the list itself. */
  lemma RevisedNone(fs: seq<Fixture>, types: seq<FixtureType>, targets: seq<Fixture>, form: BulkForm, color: string)
    ensures Revised(fs, types, targets, form, color, 0) == fs
  {
  }

  /** One iteration, with the cursor where the walk puts it, moves the reference on by one item. */
  lemma NextRevised(fs: seq<Fixture>, types: seq<FixtureType>, targets: seq<Fixture>, form: BulkForm,
                    color: string, i: nat, at: Placement)
    requires UniqueIds(fs) && UniqueIds(targets) && i < |targets|
    requires form.updatePatch ==> at == BulkWalk(form, types, targets)[i]
    ensures WriteFirst(Revised(fs, types, targets, form, color, i), targets[i].id, ChangesFor(form, types, color, i, at))
      == Revised(fs, types, targets, form, color, i + 1)
  {
    assert ChangesFor(form, types, color, i, at) == ChangesFor(form, types, color, i, BulkWalk(form, types, targets)[i]);
    WriteRevised(fs, types, targets, form, color, i);
  }

  /**
   * One successful iteration from the reference after `i` items, with the
   * cursor where the walk puts it, leaves the reference after `i + 1` items
   * and the cursor at the walk's next position.
   */
  lemma StepForward(fs: seq<Fixture>, types: seq<FixtureType>, maxUniverses: int,
                    targets: seq<Fixture>, selected: set<Id>, form: BulkForm,
                    color: string, i: nat, at: Placement, acc: seq<Fixture>)
    requires UniqueIds(fs) && UniqueIds(targets) && i < |targets|
    requires form.updatePatch ==> at == BulkWalk(form, types, targets)[i]
    requires acc == Revised(fs, types, targets, form, color, i)
    requires BulkStep(fs, types, maxUniverses, selected, form, targets[i], at).Success?
    ensures var next := BulkStep(fs, types, maxUniverses, selected, form, targets[i], at).value;
      form.updatePatch && i + 1 < |targets| ==> next == BulkWalk(form, types, targets)[i + 1]
    ensures WriteFirst(acc, targets[i].id, ChangesFor(form, types, color, i, at))
      == Revised(fs, types, targets, form, color, i + 1)
  {
    StepAtCursor(fs, types, maxUniverses, targets, selected, form, i, at);
    NextRevised(fs, types, targets, form, color, i, at);
  }

  /** The loop, started on the reference after `i` items, ends on the reference after all of them. */
  lemma {:induction false} BulkFromRevised(fs: seq<Fixture>, types: seq<FixtureType>, maxUniverses: int,
                                           targets: seq<Fixture>, selected: set<Id>, form: BulkForm,
                                           color: string, i: nat, at: Placement, acc: seq<Fixture>)
    requires UniqueIds(fs) && UniqueIds(targets) && i <= |targets|
    requires form.updatePatch && i < |targets| ==> at == BulkWalk(form, types, targets)[i]
    requires acc == Revised(fs, types, targets, form, color, i)
    ensures var r := BulkFrom(fs, types, maxUniverses, targets, selected, form, color, i, at, acc);
      r.Success? ==> r.value == Revised(fs, types, targets, form, color, |targets|)
    decreases |targets| - i
  {
    if i < |targets| {
      var r := BulkStep(fs, types, maxUniverses, selected, form, targets[i], at);
      if r.Success? {
        StepForward(fs, types, maxUniverses, targets, selected, form, color, i, at, acc);
        BulkFromRevised(fs, types, maxUniverses, targets, selected, form, color, i + 1, r.value,
                        WriteFirst(acc, targets[i].id, ChangesFor(form, types, color, i, at)));
      }
    }
  }

  /** Every item from `i` on passes its re-patch step at its cursor position. */
  ghost predicate StepsPass(fs: seq<Fixture>, types: seq<FixtureType>, maxUniverses: int,
                            targets: seq<Fixture>, selected: set<Id>, form: BulkForm, i: nat)
  {
    var w := BulkWalk(form, types, targets);
    forall k | i <= k < |targets| :: BulkStep(fs, types, maxUniverses, selected, form, targets[k], w[k]).Success?
  }

  /** The item at the cursor passes the same step as at its walk position. */
  lemma StepAtCursor(fs: seq<Fixture>, types: seq<FixtureType>, maxUniverses: int,
                     targets: seq<Fixture>, selected: set<Id>, form: BulkForm, i: nat, at: Placement)
    requires i < |targets|
    requires form.updatePatch ==> at == BulkWalk(form, types, targets)[i]
    ensures BulkStep(fs, types, maxUniverses, selected, form, targets[i], at).Success?
      <==> BulkStep(fs, types, maxUniverses, selected, form, targets[i], BulkWalk(form, types, targets)[i]).Success?
    ensures var r := BulkStep(fs, types, maxUniverses, selected, form, targets[i], at);
      form.updatePatch && r.Success? && i + 1 < |targets| ==> r.value == BulkWalk(form, types, targets)[i + 1]
  {
    var r := BulkStep(fs, types, maxUniverses, selected, form, targets[i], at);
    if form.updatePatch && r.Success? && i + 1 < |targets| {
      WalkStep(Placement(form.universe, form.address), Footprints(form, types, targets), i);
    }
  }

  /** The loop from item `i` completes exactly when every remaining item's re-patch step passes. */
  lemma {:induction false} BulkFromSucceedsIff(fs: seq<Fixture>, types: seq<FixtureType>, maxUniverses: int,
                                               targets: seq<Fixture>, selected: set<Id>, form: BulkForm,
                                               color: string, i: nat, at: Placement, acc: seq<Fixture>)
    requires i <= |targets|
    requires form.updatePatch && i < |targets| ==> at == BulkWalk(form, types, targets)[i]
    ensures BulkFrom(fs, types, maxUniverses, targets, selected, form, color, i, at, acc).Success? <==>
      StepsPass(fs, types, maxUniverses, targets, selected, form, i)
    decreases |targets| - i
  {
    if i < |targets| {
      StepAtCursor(fs, types, maxUniverses, targets, selected, form, i, at);
      var r := BulkStep(fs, types, maxUniverses, selected, form, targets[i], at);
      if r.Success? {
        BulkFromSucceedsIff(fs, types, maxUniverses, targets, selected, form, color, i + 1, r.value,
                            WriteFirst(acc, targets[i].id, ChangesFor(form, types, color, i, at)));
      }
    }
  }

  /** The walk starts where the form's universe and address put the cursor. */
  lemma BulkWalkStart(form: BulkForm, types: seq<FixtureType>, targets: seq<Fixture>)
    requires |targets| > 0
    ensures BulkWalk(form, types, targets)[0] == Placement(form.universe, form.address)
  {
    WalkStep(Placement(form.universe, form.address), Footprints(form, types, targets), 0);
  }

  /**
   * The bulk edit completes exactly when no FID it hands out is held outside
   * the selection (with "FID" on) and every item passes its re-patch step at
   * its place in the walk.
   */
  lemma BulkEditSucceedsIff(fs: seq<Fixture>, types: seq<FixtureType>, maxUniverses: int, targets: seq<Fixture>,
                            selected: set<Id>, form: BulkForm, color: string)
    ensures BulkEditFixtures(fs, types, maxUniverses, targets, selected, form, color).Success? <==>
      && (form.updateFid ==> forall x | form.fid <= x < form.fid + |targets| :: x !in OtherFids(fs, selected))
      && StepsPass(fs, types, maxUniverses, targets, selected, form, 0)
  {
    if |targets| > 0 {
      BulkWalkStart(form, types, targets);
    }
    BulkFromSucceedsIff(fs, types, maxUniverses, targets, selected, form, color, 0, Placement(form.universe, form.address), fs);
  }

  /**
   * On success, with ids unique in the patch and in the visual order, the
   * list is the reference: item `i` of the visual order receives the changes
   * for position `i` of the walk, and every other fixture is left alone.
   */
  lemma BulkEditResult(fs: seq<Fixture>, types: seq<FixtureType>, maxUniverses: int, targets: seq<Fixture>,
                       selected: set<Id>, form: BulkForm, color: string)
    requires UniqueIds(fs) && UniqueIds(targets)
    ensures var r := BulkEditFixtures(fs, types, maxUniverses, targets, selected, form, color);
      r.Success? ==> r.value == Revised(fs, types, targets, form, color, |targets|)
  {
    if |targets| > 0 {
      BulkWalkStart(form, types, targets);
    }
    RevisedNone(fs, types, targets, form, color);
    BulkFromRevised(fs, types, maxUniverses, targets, selected, form, color, 0, Placement(form.universe, form.address), fs);
  }

  /**
   * What a bulk edit must satisfy to keep the patch well formed: the
   * visual order lists fixtures of the patch without repeats, no selected
   * fixture is missing from it, a type change always comes with a re-patch
   * to a real type of at least one channel, and the starting FID, universe
   * and address are in the form's ranges. The dialog never switches the
   * type toggle on, so the type-change condition only restricts inputs of
   * the handler that the dialog does not produce. Nothing in the dialog
   * keeps a selected fixture from being hidden by the search filter.
   */
  ghost predicate BulkAdmissible(fs: seq<Fixture>, types: seq<FixtureType>, maxUniverses: int,
                                 targets: seq<Fixture>, selected: set<Id>, form: BulkForm)
  {
    && WellFormed(fs, types, maxUniverses)
    && UniqueIds(targets)
    && (forall i | 0 <= i < |targets| :: targets[i] in fs)
    && (forall f | f in fs && f.id in selected :: f.id in Ids(targets))
    && (form.updateType ==> form.updatePatch && form.typeId != "")
    && (form.updateType ==> forall t | t in types && t.id == form.typeId :: t.channels >= 1)
    && (form.updatePatch ==> 1 <= form.universe <= maxUniverses && 1 <= form.address)
    && (form.updateFid ==> form.fid >= 1)
  }

  /** What a passing re-patch step establishes about its footprint. */
  lemma StepFacts(fs: seq<Fixture>, types: seq<FixtureType>, maxUniverses: int, selected: set<Id>,
                  form: BulkForm, f: Fixture, at: Placement)
    requires form.updatePatch && BulkStep(fs, types, maxUniverses, selected, form, f, at).Success?
    ensures FindType(types, ChannelTypeId(form, f)).Some?
    ensures var ch := FindType(types, ChannelTypeId(form, f)).value.channels;
      && CheckCollision(fs, types, at.universe, at.address, ch, selected).None?
      && Advance(at, ch, maxUniverses).Some?
  {
  }

  /** Every item's footprint is at least one channel; with re-patch on, it passed its step at its walk position. */
  lemma FootprintFacts(fs: seq<Fixture>, types: seq<FixtureType>, maxUniverses: int, targets: seq<Fixture>,
                       selected: set<Id>, form: BulkForm, i: nat)
    requires BulkAdmissible(fs, types, maxUniverses, targets, selected, form)
    requires StepsPass(fs, types, maxUniverses, targets, selected, form, 0)
    requires i < |targets|
    ensures Footprints(form, types, targets)[i] >= 1
    ensures form.updatePatch ==>
      var at := BulkWalk(form, types, targets)[i];
      var ch := Footprints(form, types, targets)[i];
      && FindType(types, ChannelTypeId(form, targets[i])).Some?
      && CheckCollision(fs, types, at.universe, at.address, ch, selected).None?
      && Advance(at, ch, maxUniverses).Some?
  {
    var f := targets[i];
    var id := ChannelTypeId(form, f);
    if form.updatePatch {
      StepFacts(fs, types, maxUniverses, selected, form, f, BulkWalk(form, types, targets)[i]);
    }
    if form.updateType {
      assert FindType(types, id).value in types;
    } else {
      assert f in fs && Placed(f, types, maxUniverses);
    }
  }

  /** With re-patch on, every walk position is inside the patch and its footprint ends by address 512. */
  lemma WalkFacts(fs: seq<Fixture>, types: seq<FixtureType>, maxUniverses: int, targets: seq<Fixture>,
                  selected: set<Id>, form: BulkForm)
    requires BulkAdmissible(fs, types, maxUniverses, targets, selected, form)
    requires StepsPass(fs, types, maxUniverses, targets, selected, form, 0)
    requires form.updatePatch
    ensures forall i | 0 <= i < |targets| ::
      var at := BulkWalk(form, types, targets)[i];
      && 1 <= at.address && at.address + Footprints(form, types, targets)[i] - 1 <= UniverseSize
      && 1 <= at.universe <= maxUniverses
    ensures forall i, j | 0 <= i < j < |targets| ::
      EndsBefore(BulkWalk(form, types, targets)[i], Footprints(form, types, targets)[i], BulkWalk(form, types, targets)[j])
  {
    var p := Placement(form.universe, form.address);
    var chs := Footprints(form, types, targets);
    var w := BulkWalk(form, types, targets);
    forall i | 0 <= i < |targets|
      ensures chs[i] >= 1 && Advance(w[i], chs[i], maxUniverses).Some?
      ensures w[i].address + chs[i] - 1 <= UniverseSize
    {
      FootprintFacts(fs, types, maxUniverses, targets, selected, form, i);
      if w[i].address + chs[i] - 1 > UniverseSize {
        OverhangRefused(fs, types, w[i].universe, w[i].address, chs[i], selected);
      }
    }
    WalkInBounds(p, chs, maxUniverses);
    WalkNonOverlapping(p, chs);
  }

  /** A fixture that is not an item of the visual order is outside the selection. */
  lemma UntargetedUnselected(fs: seq<Fixture>, types: seq<FixtureType>, maxUniverses: int, targets: seq<Fixture>,
                             selected: set<Id>, form: BulkForm, k: nat)
    requires BulkAdmissible(fs, types, maxUniverses, targets, selected, form)
    requires k < |fs| && TargetIndex(targets, fs[k].id, |targets|).None?
    ensures fs[k].id !in selected
    ensures fs[k].fid in OtherFids(fs, selected)
  {
    assert fs[k] in fs;
  }

  /**
   * The record item `i` leaves at position `k` of the patch: the same id,
   * the FID the item hands out, its own invariants, and either the walk
   * position with the item's footprint or the old placement and footprint.
   */
  lemma TargetRecord(fs: seq<Fixture>, types: seq<FixtureType>, maxUniverses: int, targets: seq<Fixture>,
                     selected: set<Id>, form: BulkForm, color: string, k: nat, i: nat)
    requires BulkAdmissible(fs, types, maxUniverses, targets, selected, form)
    requires StepsPass(fs, types, maxUniverses, targets, selected, form, 0)
    requires k < |fs| && i < |targets| && targets[i].id == fs[k].id
    ensures var g := Overlay(fs[k], ChangesFor(form, types, color, i, BulkWalk(form, types, targets)[i]));
      && g.id == fs[k].id
      && g.fid == (if form.updateFid then form.fid + i else fs[k].fid)
      && Placed(g, types, maxUniverses)
      && (form.updatePatch ==>
            g.universe == BulkWalk(form, types, targets)[i].universe
            && g.address == BulkWalk(form, types, targets)[i].address
            && Channels(g, types) == Footprints(form, types, targets)[i])
      && (!form.updatePatch ==>
            g.universe == fs[k].universe && g.address == fs[k].address
            && Channels(g, types) == Channels(fs[k], types))
  {
    WellFormedNoOverlap(fs, types, maxUniverses);
    assert targets[i] in fs;
    var j :| 0 <= j < |fs| && fs[j] == targets[i];
    assert fs[k] == targets[i];
    assert fs[k] in fs;
    FootprintFacts(fs, types, maxUniverses, targets, selected, form, i);
    if form.updatePatch {
      WalkFacts(fs, types, maxUniverses, targets, selected, form);
    }
  }

  /** The FID pre-check passed: no FID handed out is held outside the selection. */
  predicate FidsFree(fs: seq<Fixture>, selected: set<Id>, form: BulkForm, n: nat) {
    form.updateFid ==> forall x | form.fid <= x < form.fid + n :: x !in OtherFids(fs, selected)
  }

  /** An item's new record and a fixture outside the visual order are compatible, either way round. */
  lemma TargetVersusOther(fs: seq<Fixture>, types: seq<FixtureType>, maxUniverses: int, targets: seq<Fixture>,
                          selected: set<Id>, form: BulkForm, color: string, k: nat, i: nat, m: nat)
    requires BulkAdmissible(fs, types, maxUniverses, targets, selected, form)
    requires StepsPass(fs, types, maxUniverses, targets, selected, form, 0)
    requires FidsFree(fs, selected, form, |targets|)
    requires k < |fs| && i < |targets| && targets[i].id == fs[k].id
    requires m < |fs| && m != k && TargetIndex(targets, fs[m].id, |targets|).None?
    ensures var g := Overlay(fs[k], ChangesFor(form, types, color, i, BulkWalk(form, types, targets)[i]));
      Compatible(types, g, fs[m]) && Compatible(types, fs[m], g)
  {
    var w := BulkWalk(form, types, targets);
    var chs := Footprints(form, types, targets);
    WellFormedNoOverlap(fs, types, maxUniverses);
    TargetRecord(fs, types, maxUniverses, targets, selected, form, color, k, i);
    UntargetedUnselected(fs, types, maxUniverses, targets, selected, form, m);
    assert Compatible(types, fs[k], fs[m]);
    if form.updatePatch {
      FootprintFacts(fs, types, maxUniverses, targets, selected, form, i);
      WalkFacts(fs, types, maxUniverses, targets, selected, form);
      assert fs[m] in fs;
      AcceptedIsDisjoint(fs, types, maxUniverses, w[i], chs[i], selected, fs[m]);
    }
  }

  /** The new records of two different items are compatible. */
  lemma TargetVersusTarget(fs: seq<Fixture>, types: seq<FixtureType>, maxUniverses: int, targets: seq<Fixture>,
                           selected: set<Id>, form: BulkForm, color: string, a: nat, i: nat, b: nat, j: nat)
    requires BulkAdmissible(fs, types, maxUniverses, targets, selected, form)
    requires StepsPass(fs, types, maxUniverses, targets, selected, form, 0)
    requires a < b < |fs| && i < |targets| && j < |targets|
    requires targets[i].id == fs[a].id && targets[j].id == fs[b].id
    ensures Compatible(types,
      Overlay(fs[a], ChangesFor(form, types, color, i, BulkWalk(form, types, targets)[i])),
      Overlay(fs[b], ChangesFor(form, types, color, j, BulkWalk(form, types, targets)[j])))
  {
    var w := BulkWalk(form, types, targets);
    var chs := Footprints(form, types, targets);
    var g := Overlay(fs[a], ChangesFor(form, types, color, i, w[i]));
    var h := Overlay(fs[b], ChangesFor(form, types, color, j, w[j]));
    WellFormedNoOverlap(fs, types, maxUniverses);
    assert fs[a].id != fs[b].id && fs[a].fid != fs[b].fid && Disjoint(fs[a], fs[b], types);
    assert i != j;
    TargetRecord(fs, types, maxUniverses, targets, selected, form, color, a, i);
    TargetRecord(fs, types, maxUniverses, targets, selected, form, color, b, j);
    assert g.id != h.id && g.fid != h.fid;
    if form.updatePatch {
      WalkFacts(fs, types, maxUniverses, targets, selected, form);
      if i < j {
        assert EndsBefore(w[i], chs[i], w[j]);
      } else {
        assert EndsBefore(w[j], chs[j], w[i]);
      }
    }
    assert Disjoint(g, h, types);
  }

  /** Position `k` of the reference after all items: the overlay of the item carrying its id, or the fixture itself. */
  lemma RevisedAt(fs: seq<Fixture>, types: seq<FixtureType>, targets: seq<Fixture>, form: BulkForm,
                  color: string, k: nat)
    requires k < |fs|
    ensures var r := Revised(fs, types, targets, form, color, |targets|);
      match TargetIndex(targets, fs[k].id, |targets|)
      case Some(i) => r[k] == Overlay(fs[k], ChangesFor(form, types, color, i, BulkWalk(form, types, targets)[i]))
      case None => r[k] == fs[k]
  {
  }

  /** Any two records of the reference result are compatible. */
  lemma RevisedPairCompatible(fs: seq<Fixture>, types: seq<FixtureType>, maxUniverses: int, targets: seq<Fixture>,
                              selected: set<Id>, form: BulkForm, color: string, a: nat, b: nat)
    requires BulkAdmissible(fs, types, maxUniverses, targets, selected, form)
    requires StepsPass(fs, types, maxUniverses, targets, selected, form, 0)
    requires FidsFree(fs, selected, form, |targets|)
    requires a < b < |fs|
    ensures var r := Revised(fs, types, targets, form, color, |targets|);
      Compatible(types, r[a], r[b])
  {
    var n := |targets|;
    var ia := TargetIndex(targets, fs[a].id, n);
    var ib := TargetIndex(targets, fs[b].id, n);
    RevisedAt(fs, types, targets, form, color, a);
    RevisedAt(fs, types, targets, form, color, b);
    if ia.Some? && ib.Some? {
      TargetVersusTarget(fs, types, maxUniverses, targets, selected, form, color, a, ia.value, b, ib.value);
    } else if ia.Some? {
      TargetVersusOther(fs, types, maxUniverses, targets, selected, form, color, a, ia.value, b);
    } else if ib.Some? {
      TargetVersusOther(fs, types, maxUniverses, targets, selected, form, color, b, ib.value, a);
    } else {
      WellFormedNoOverlap(fs, types, maxUniverses);
    }
  }

  /** Every record of the reference result keeps its own invariants. */
  lemma RevisedPlaced(fs: seq<Fixture>, types: seq<FixtureType>, maxUniverses: int, targets: seq<Fixture>,
                      selected: set<Id>, form: BulkForm, color: string, k: nat)
    requires BulkAdmissible(fs, types, maxUniverses, targets, selected, form)
    requires StepsPass(fs, types, maxUniverses, targets, selected, form, 0)
    requires k < |fs|
    ensures Placed(Revised(fs, types, targets, form, color, |targets|)[k], types, maxUniverses)
  {
    match TargetIndex(targets, fs[k].id, |targets|)
    case None =>
      assert fs[k] in fs;
    case Some(i) =>
      TargetRecord(fs, types, maxUniverses, targets, selected, form, color, k, i);
  }

  /**
   * A completed bulk edit the dialog allows keeps the patch well formed:
   * every record stays inside the universes, ids and FIDs stay unique, and
   * no two footprints overlap.
   */
  lemma BulkEditPreservesWellFormed(fs: seq<Fixture>, types: seq<FixtureType>, maxUniverses: int,
                                    targets: seq<Fixture>, selected: set<Id>, form: BulkForm, color: string)
    requires BulkAdmissible(fs, types, maxUniverses, targets, selected, form)
    requires BulkEditFixtures(fs, types, maxUniverses, targets, selected, form, color).Success?
    ensures WellFormed(BulkEditFixtures(fs, types, maxUniverses, targets, selected, form, color).value, types, maxUniverses)
  {
    WellFormedNoOverlap(fs, types, maxUniverses);
    BulkEditSucceedsIff(fs, types, maxUniverses, targets, selected, form, color);
    BulkEditResult(fs, types, maxUniverses, targets, selected, form, color);
    var r := Revised(fs, types, targets, form, color, |targets|);
    forall a, b | 0 <= a < b < |r|
      ensures Compatible(types, r[a], r[b])
    {
      RevisedPairCompatible(fs, types, maxUniverses, targets, selected, form, color, a, b);
    }
    forall g | g in r
      ensures Placed(g, types, maxUniverses)
    {
      var k :| 0 <= k < |r| && r[k] == g;
      RevisedPlaced(fs, types, maxUniverses, targets, selected, form, color, k);
    }
    assert Pairwise(r, (f, g) => Compatible(types, f, g));
  }

  /**
   * On success nothing else changes: every fixture keeps its id and its
   * place in the list, a fixture outside the visual order is untouched, and
   * a field whose toggle is off keeps its value on every fixture.
   */
  lemma BulkEditOnlyToggled(fs: seq<Fixture>, types: seq<FixtureType>, maxUniverses: int, targets: seq<Fixture>,
                            selected: set<Id>, form: BulkForm, color: string, k: nat)
    requires UniqueIds(fs) && UniqueIds(targets) && k < |fs|
    requires BulkEditFixtures(fs, types, maxUniverses, targets, selected, form, color).Success?
    ensures var r := BulkEditFixtures(fs, types, maxUniverses, targets, selected, form, color).value;
      && |r| == |fs| && r[k].id == fs[k].id
      && (fs[k].id !in Ids(targets) ==> r[k] == fs[k])
      && (!form.updateName ==> r[k].name == fs[k].name)
      && (!form.updateFid ==> r[k].fid == fs[k].fid)
      && (!form.updateType ==> r[k].typeId == fs[k].typeId && r[k].color == fs[k].color)
      && (!form.updateLocation ==> r[k].location == fs[k].location)
      && (!form.updateIsFixed ==> r[k].isFixed == fs[k].isFixed)
      && (!form.updatePatch ==> r[k].universe == fs[k].universe && r[k].address == fs[k].address)
  {
    BulkEditResult(fs, types, maxUniverses, targets, selected, form, color);
    RevisedAt(fs, types, targets, form, color, k);
    var t := TargetIndex(targets, fs[k].id, |targets|);
    if t.Some? {
      assert targets[t.value] in targets;
    }
  }

  /**
   * On success item `i` of the visual order carries what the dialog asked
   * for: the base name (or `<name> <i+1>` with the pattern), FID
   * `fid + i`, the chosen type, and the `i`-th cursor position.
   */
  lemma BulkEditItemValues(fs: seq<Fixture>, types: seq<FixtureType>, maxUniverses: int, targets: seq<Fixture>,
                           selected: set<Id>, form: BulkForm, color: string, k: nat, i: nat)
    requires UniqueIds(fs) && UniqueIds(targets) && k < |fs| && i < |targets| && targets[i].id == fs[k].id
    requires BulkEditFixtures(fs, types, maxUniverses, targets, selected, form, color).Success?
    ensures var r := BulkEditFixtures(fs, types, maxUniverses, targets, selected, form, color).value;
      && (form.updateName && form.useNamePattern ==> r[k].name == form.name + " " + NatToString(i + 1))
      && (form.updateName && !form.useNamePattern ==> r[k].name == form.name)
      && (form.updateFid ==> r[k].fid == form.fid + i)
      && (form.updateType ==> r[k].typeId == form.typeId)
      && (form.updateLocation ==> r[k].location == form.location)
      && (form.updateIsFixed ==> r[k].isFixed == form.isFixed)
      && (form.updatePatch ==> Placement(r[k].universe, r[k].address) == BulkWalk(form, types, targets)[i])
  {
    BulkEditResult(fs, types, maxUniverses, targets, selected, form, color);
    RevisedAt(fs, types, targets, form, color, k);
    TargetIndexUnique(targets, fs[k].id, i);
  }

  /** A two-type library: a one-channel and a four-channel mode. */
  function SampleTypes(): seq<FixtureType> {
    [FixtureType("t1", "Par", "Acme", "1ch", 1), FixtureType("t4", "Bar", "Acme", "4ch", 4)]
  }

  /** Two one-channel fixtures in universe 1, at `addressOfB` for the second. */
  function SamplePatch(addressOfB: int): seq<Fixture> {
    [Fixture("a", 1, "A", "t1", 1, 1, "", "", false), Fixture("b", 2, "B", "t1", 1, addressOfB, "", "", false)]
  }

  /** A bulk form with every toggle off, starting at 1.1. */
  function NoToggles(): BulkForm {
    BulkForm(false, false, "", false, 0, false, "", false, "", false, false, false, 1, 1)
  }

  lemma SamplePatchWellFormed(addressOfB: int)
    requires 2 <= addressOfB <= UniverseSize
    ensures WellFormed(SamplePatch(addressOfB), SampleTypes(), 1)
  {
    var fs := SamplePatch(addressOfB);
    var types := SampleTypes();
    assert FindType(types, "t1") == Some(types[0]);
    assert Compatible(types, fs[0], fs[1]);
  }

  /**
   * A type change without re-patch is never validated: switching fixture
   * `a` (at 1.1) to the four-channel mode succeeds and leaves it covering
   * 1.1-1.4, over fixture `b` at 1.2. Only the handler admits this; the
   * dialog never turns the type toggle on.
   */
  lemma TypeChangeWithoutRepatchOverlaps()
    ensures WellFormed(SamplePatch(2), SampleTypes(), 1)
    ensures var r := BulkEditFixtures(SamplePatch(2), SampleTypes(), 1, [SamplePatch(2)[0]], {"a"},
                                      NoToggles().(updateType := true, typeId := "t4"), "red");
      r.Success? && |r.value| == 2 && !Disjoint(r.value[0], r.value[1], SampleTypes())
  {
    SamplePatchWellFormed(2);
    var fs := SamplePatch(2);
    var types := SampleTypes();
    var form := NoToggles().(updateType := true, typeId := "t4");
    var targets := [fs[0]];
    var at := Placement(1, 1);
    assert FindType(types, "t4") == Some(types[1]);
    var c := ChangesFor(form, types, "red", 0, at);
    assert FirstIndex(fs, "a") == Some(0);
    var acc := WriteFirst(fs, "a", c);
    assert acc == [Overlay(fs[0], c), fs[1]];
    assert BulkFrom(fs, types, 1, targets, {"a"}, form, "red", 1, at, acc) == Success(acc);
    assert BulkFrom(fs, types, 1, targets, {"a"}, form, "red", 0, at, fs) == Success(acc);
    assert Channels(acc[0], types) == 4;
  }

  /**
   * A selected fixture hidden by the list filter is left out of the visual
   * order but still excluded from the collision test: re-patching only `a`
   * to 1.5 succeeds although the selected `b` sits there.
   */
  lemma HiddenSelectionOverlaps()
    ensures WellFormed(SamplePatch(5), SampleTypes(), 1)
    ensures var r := BulkEditFixtures(SamplePatch(5), SampleTypes(), 1, [SamplePatch(5)[0]], {"a", "b"},
                                      NoToggles().(updatePatch := true, universe := 1, address := 5), "red");
      r.Success? && |r.value| == 2 && !Disjoint(r.value[0], r.value[1], SampleTypes())
  {
    var fs := SamplePatch(5);
    var types := SampleTypes();
    var form := NoToggles().(updatePatch := true, universe := 1, address := 5);
    var targets := [fs[0]];
    var at := Placement(1, 5);
    SamplePatchWellFormed(5);
    WellFormedNoOverlap(fs, types, 1);
    assert FindType(types, "t1") == Some(types[0]);
    CheckCollisionIff(fs, types, 1, 5, 1, {"a", "b"});
    assert BulkStep(fs, types, 1, {"a", "b"}, form, fs[0], at) == Success(Placement(1, 6));
    var c := ChangesFor(form, types, "red", 0, at);
    assert FirstIndex(fs, "a") == Some(0);
    var acc := WriteFirst(fs, "a", c);
    assert acc == [Overlay(fs[0], c), fs[1]];
    assert BulkFrom(fs, types, 1, targets, {"a", "b"}, form, "red", 1, Placement(1, 6), acc) == Success(acc);
    assert BulkFrom(fs, types, 1, targets, {"a", "b"}, form, "red", 0, at, fs) == Success(acc);
  }
}

=== FILE: collision.dfy ===
/**
 * The collision/range validator (`checkCollision`): walks a proposed
 * footprint address by address and reports the first address that is past
 * slot 512 or held by a fixture outside the exclusion set.
 */
module Collision {
  import opened Wrappers
  import opened Patch
  import opened Occupancy
  import opened FreeRun

  datatype PlacementError =
    /** The footprint runs past address 512 of `universe`. */
    | OutOfRange(address: int, universe: int)
    /** `address` of `universe` is held by `occupant` (FID looked up by id, if it resolves). */
    | Collision(universe: int, address: int, occupant: Id, occupantFid: Option<int>)

  /** Address `a` passes both tests of the loop body. */
  predicate ClearAt(row: Row, excludes: set<Id>, a: int)
    requires |row.slots| == UniverseSize
  {
    a <= UniverseSize && SlotFree(Cell(row, a), excludes)
  }

  /** The error the loop body reports at address `a`: the range test comes first. */
  function FailureAt(fs: seq<Fixture>, row: Row, u: int, a: int): PlacementError
    requires |row.slots| == UniverseSize
  {
    if a > UniverseSize then OutOfRange(a, u)
    else
      var occupant := Cell(row, a).GetOr("");
      Collision(u, a, occupant, match FindFixture(fs, occupant) { case Some(g) => Some(g.fid) case None => None })
  }

  /** The validator's loop from offset `i` on. */
  function CheckFrom(fs: seq<Fixture>, row: Row, u: int, address: int, channels: int,
                     excludes: set<Id>, i: nat): (r: Option<PlacementError>)
    requires |row.slots| == UniverseSize
    requires forall a | address <= a < address + i :: ClearAt(row, excludes, a)
    ensures r.None? <==> forall a | address <= a < address + channels :: ClearAt(row, excludes, a)
    decreases channels - i
  {
    if i >= channels then None
    else
      var target := address + i;
      if !ClearAt(row, excludes, target) then Some(FailureAt(fs, row, u, target))
      else CheckFrom(fs, row, u, address, channels, excludes, i + 1)
  }

  /** A failing loop reports the first address of the footprint that does not pass. */
  lemma {:induction false} CheckFromFailure(fs: seq<Fixture>, row: Row, u: int, address: int, channels: int,
                                            excludes: set<Id>, i: nat) returns (a: int)
    requires |row.slots| == UniverseSize
    requires forall a | address <= a < address + i :: ClearAt(row, excludes, a)
    requires CheckFrom(fs, row, u, address, channels, excludes, i).Some?
    ensures address + i <= a < address + channels && !ClearAt(row, excludes, a)
    ensures forall b | address <= b < a :: ClearAt(row, excludes, b)
    ensures CheckFrom(fs, row, u, address, channels, excludes, i).value == FailureAt(fs, row, u, a)
    decreases channels - i
  {
    if ClearAt(row, excludes, address + i) {
      a := CheckFromFailure(fs, row, u, address, channels, excludes, i + 1);
    } else {
      a := address + i;
    }
  }

  /**
   * `checkCollision(u, address, channels, excludes)` against the occupancy of
   * `fs`: no error exactly when every address of the footprint is at most 512
   * and free; otherwise the error of the first address that is not.
   */
  function CheckCollision(fs: seq<Fixture>, types: seq<FixtureType>, u: int, address: int,
                          channels: int, excludes: set<Id>): (r: Option<PlacementError>)
    ensures r.None? <==> forall a | address <= a < address + channels ::
      ClearAt(UniverseRow(fs, types, u), excludes, a)
  {
    CheckFrom(fs, UniverseRow(fs, types, u), u, address, channels, excludes, 0)
  }

  /**
   * A refusal names the first address of the footprint that is past 512 or
   * taken: out of range when it is past 512, otherwise a collision with the
   * slot's occupant.
   */
  lemma CheckCollisionFirstFailure(fs: seq<Fixture>, types: seq<FixtureType>, u: int, address: int,
                                   channels: int, excludes: set<Id>) returns (a: int)
    requires CheckCollision(fs, types, u, address, channels, excludes).Some?
    ensures address <= a < address + channels && !ClearAt(UniverseRow(fs, types, u), excludes, a)
    ensures forall b | address <= b < a :: ClearAt(UniverseRow(fs, types, u), excludes, b)
    ensures CheckCollision(fs, types, u, address, channels, excludes).value
      == FailureAt(fs, UniverseRow(fs, types, u), u, a)
  {
    a := CheckFromFailure(fs, UniverseRow(fs, types, u), u, address, channels, excludes, 0);
  }

  /** Some fixture outside `excludes` (with a non-empty id) sits on an address of the footprint up to 512. */
  ghost predicate Conflicts(fs: seq<Fixture>, types: seq<FixtureType>, u: int, address: int,
                            channels: int, excludes: set<Id>)
  {
    exists j, a | 0 <= j < |fs| && address <= a < address + channels ::
      a <= UniverseSize && Occupies(fs[j], types, u, a) && fs[j].id != "" && fs[j].id !in excludes
  }

  /**
   * In a patch without overlaps the validator accepts a footprint exactly
   * when it ends by address 512 and touches no fixture outside `excludes`.
   */
  lemma CheckCollisionIff(fs: seq<Fixture>, types: seq<FixtureType>, u: int, address: int,
                          channels: int, excludes: set<Id>)
    requires NoOverlap(fs, types)
    ensures CheckCollision(fs, types, u, address, channels, excludes).None?
      <==> (channels <= 0 || address + channels - 1 <= UniverseSize)
           && !Conflicts(fs, types, u, address, channels, excludes)
  {
    var row := UniverseRow(fs, types, u);
    if Conflicts(fs, types, u, address, channels, excludes) {
      var j, a :| 0 <= j < |fs| && address <= a < address + channels
        && a <= UniverseSize && Occupies(fs[j], types, u, a) && fs[j].id != "" && fs[j].id !in excludes;
      SoleOccupant(fs, types, u, j, a);
      assert !ClearAt(row, excludes, a);
    } else if channels > 0 && address + channels - 1 <= UniverseSize {
      forall a | address <= a < address + channels
        ensures ClearAt(row, excludes, a)
      {
        CellContents(fs, types, u, a);
        if Cell(row, a).Some? {
          var j :| LastOccupant(fs, types, u, a, j) && fs[j].id == Cell(row, a).value;
        }
      }
    } else if channels > 0 {
      assert !ClearAt(row, excludes, address + channels - 1);
    }
  }

  /**
   * An accepted footprint shares no address with
   * any fixture outside `excludes` in a well-formed patch.
   */
  lemma AcceptedIsDisjoint(fs: seq<Fixture>, types: seq<FixtureType>, maxUniverses: int,
                           p: Placement, channels: int, excludes: set<Id>, g: Fixture)
    requires WellFormed(fs, types, maxUniverses)
    requires CheckCollision(fs, types, p.universe, p.address, channels, excludes).None?
    requires channels >= 1
    requires g in fs && g.id !in excludes
    ensures g.universe != p.universe || p.address + channels <= g.address
      || g.address + Channels(g, types) <= p.address
  {
    WellFormedNoOverlap(fs, types, maxUniverses);
    CheckCollisionIff(fs, types, p.universe, p.address, channels, excludes);
    assert Placed(g, types, maxUniverses);
    var j :| 0 <= j < |fs| && fs[j] == g;
    var a := if p.address < g.address then g.address else p.address;
    if g.universe == p.universe && p.address <= a < p.address + channels && Occupies(fs[j], types, p.universe, a) {
      assert Conflicts(fs, types, p.universe, p.address, channels, excludes) by {
        assert a <= UniverseSize;
      }
    }
  }

  /**
   * A fixture patched at address -2 with four channels leaves its last
   * channel on address 1, and the keys it wrote below address 1 are read
   * back too: a footprint at 0 collides with it as well.
   */
  lemma BelowOneCollides(t: FixtureType)
    requires t.channels == 4
    ensures CheckCollision([Fixture("a", 7, "A", t.id, 1, -2, "", "", false)], [t], 1, 1, 1, {})
      == Some(Collision(1, 1, "a", Some(7)))
    ensures CheckCollision([Fixture("a", 7, "A", t.id, 1, -2, "", "", false)], [t], 1, 0, 1, {})
      == Some(Collision(1, 0, "a", Some(7)))
  {
    var fs := [Fixture("a", 7, "A", t.id, 1, -2, "", "", false)];
    assert fs[..0] == [];
    assert FindType([t], t.id) == Some(t);
    assert UniverseIndex(fs[..0], [t]) == map[];
    assert UniverseIndex(fs, [t]) == Mark(map[], fs[0], [t]);
    assert Mark(map[], fs[0], [t]) == map[1 := PaintRow(EmptyRow(), "a", -2, 4)];
    var row := UniverseRow(fs, [t], 1);
    assert row == PaintRow(EmptyRow(), "a", -2, 4);
    assert Cell(row, 1) == Some("a");
    assert -1 in row.below;
    assert Cell(row, 0) == Some("a");
  }

  /** An overhanging footprint (one that would straddle address 512) is always refused. */
  lemma OverhangRefused(fs: seq<Fixture>, types: seq<FixtureType>, u: int, address: int,
                        channels: int, excludes: set<Id>)
    requires channels >= 1 && address + channels - 1 > UniverseSize
    ensures CheckCollision(fs, types, u, address, channels, excludes).Some?
  {
    assert !ClearAt(UniverseRow(fs, types, u), excludes, address + channels - 1);
  }
}

=== FILE: create.dfy ===
/**
 * Batch creation (`handleManualSubmit`): `quantity` fixtures of one type
 * with consecutive FIDs, numbered names and contiguous addresses, appended
 * all together or not at all.
 */
module Create {
  import opened Wrappers
  import opened Text
  import opened Seqs
  import opened Patch
  import opened Occupancy
  import opened Collision
  import opened Cursor
  import opened Numbering
  import opened Errors

  /**
   * The add form, already parsed. `color` is what `getManufacturerColor`
   * gives for the type's manufacturer.
   */
  datatype CreateForm = CreateForm(
    name: string, typeId: Id, fid: int, universe: int, address: int, quantity: int,
    color: string, location: string, isFixed: bool)

  /** How many times the loop body runs. */
  function BatchSize(form: CreateForm): nat {
    if Quantity(form.quantity) < 0 then 0 else Quantity(form.quantity)
  }

  function Repeat(x: int, n: nat): (r: seq<int>)
    ensures |r| == n && forall k | 0 <= k < n :: r[k] == x
  {
    seq(n, _ => x)
  }

  /** Item `i` of the batch as the loop builds it. */
  function NewFixture(form: CreateForm, id: Id, i: nat, nextSeq: nat, at: Placement): Fixture {
    Fixture(id, form.fid + i, NumberedName(form.name, nextSeq + i), form.typeId,
            at.universe, at.address, form.color, form.location, form.isFixed)
  }

  /** The walk over `n' + 1` equal footprints is its start followed by the walk over `n'` from the next cursor. */
  lemma RepeatWalkCons(at: Placement, channels: int, n: nat, n': nat)
    requires n == n' + 1
    ensures Walk(at, Repeat(channels, n)) == [at] + Walk(Step(at, channels), Repeat(channels, n'))
  {
    assert Repeat(channels, n)[1..] == Repeat(channels, n');
  }

  /**
   * The three tests one iteration makes, in order: FID already in the
   * patch, the validator at the cursor against the pre-batch occupancy, and
   * the ceiling test after advancing.
   */
  function ItemError(fs: seq<Fixture>, types: seq<FixtureType>, maxUniverses: int,
                     channels: int, fid: int, at: Placement): Option<PatchError>
  {
    if fid in Fids(fs) then Some(DuplicateFid(fid))
    else match CheckCollision(fs, types, at.universe, at.address, channels, {})
      case Some(e) => Some(Rejected(e))
      case None => if Advance(at, channels, maxUniverses).None? then Some(UniverseLimit) else None
  }

  /** The loop from iteration `i` on, with the cursor at `at`. */
  function Synthesize(fs: seq<Fixture>, types: seq<FixtureType>, maxUniverses: int, form: CreateForm,
                      channels: int, nextSeq: nat, ids: seq<Id>, i: nat, at: Placement)
    : (r: Result<seq<Fixture>, PatchError>)
    requires i <= BatchSize(form) <= |ids|
    ensures r.Failure? ==> r.error.DuplicateFid? || r.error.Rejected? || r.error == UniverseLimit
    ensures r.Success? ==> |r.value| == BatchSize(form) - i
    decreases BatchSize(form) - i
  {
    if i == BatchSize(form) then Success([])
    else
      match ItemError(fs, types, maxUniverses, channels, form.fid + i, at)
      case Some(e) => Failure(e)
      case None =>
        var f := NewFixture(form, ids[i], i, nextSeq, at);
        match Synthesize(fs, types, maxUniverses, form, channels, nextSeq, ids, i + 1, Step(at, channels))
        case Success(rest) => Success([f] + rest)
        case Failure(e) => Failure(e)
  }

  /** A completed loop from iteration `i` is item `i` followed by the completed loop from `i + 1`. */
  lemma SynthesizeCons(fs: seq<Fixture>, types: seq<FixtureType>, maxUniverses: int, form: CreateForm,
                       channels: int, nextSeq: nat, ids: seq<Id>, i: nat, at: Placement)
    requires i < BatchSize(form) <= |ids|
    requires Synthesize(fs, types, maxUniverses, form, channels, nextSeq, ids, i, at).Success?
    ensures var rest := Synthesize(fs, types, maxUniverses, form, channels, nextSeq, ids, i + 1, Step(at, channels));
      && rest.Success?
      && Synthesize(fs, types, maxUniverses, form, channels, nextSeq, ids, i, at).value
         == [NewFixture(form, ids[i], i, nextSeq, at)] + rest.value
  {
  }

  /** Items `i, i + 1, ..` of the batch, placed along `w`. */
  function BatchItems(form: CreateForm, nextSeq: nat, ids: seq<Id>, i: nat, w: seq<Placement>): (r: seq<Fixture>)
    requires i + |w| <= |ids|
    ensures |r| == |w|
    decreases |w|
  {
    if |w| == 0 then [] else [NewFixture(form, ids[i], i, nextSeq, w[0])] + BatchItems(form, nextSeq, ids, i + 1, w[1..])
  }

  /** Position `k` of the items along `w` is item `i + k` at `w[k]`. */
  lemma {:induction false} BatchItemsAt(form: CreateForm, nextSeq: nat, ids: seq<Id>, i: nat, w: seq<Placement>, k: nat)
    requires i + |w| <= |ids| && k < |w|
    ensures BatchItems(form, nextSeq, ids, i, w)[k] == NewFixture(form, ids[i + k], i + k, nextSeq, w[k])
    decreases |w|
  {
    if k > 0 {
      BatchItemsAt(form, nextSeq, ids, i + 1, w[1..], k - 1);
    }
  }

  /** A completed loop from iteration `i` yields the items from `i` along the walk from `at`. */
  lemma {:induction false} SynthesizeValue(fs: seq<Fixture>, types: seq<FixtureType>, maxUniverses: int, form: CreateForm,
                                           channels: int, nextSeq: nat, ids: seq<Id>, i: nat, at: Placement)
    requires i <= BatchSize(form) <= |ids|
    ensures var r := Synthesize(fs, types, maxUniverses, form, channels, nextSeq, ids, i, at);
      r.Success? ==> r.value == BatchItems(form, nextSeq, ids, i, Walk(at, Repeat(channels, BatchSize(form) - i)))
    decreases BatchSize(form) - i
  {
    if i < BatchSize(form) {
      var next := Step(at, channels);
      var tail := Walk(next, Repeat(channels, BatchSize(form) - (i + 1)));
      RepeatWalkCons(at, channels, BatchSize(form) - i, BatchSize(form) - (i + 1));
      SynthesizeValue(fs, types, maxUniverses, form, channels, nextSeq, ids, i + 1, next);
      if Synthesize(fs, types, maxUniverses, form, channels, nextSeq, ids, i, at).Success? {
        SynthesizeCons(fs, types, maxUniverses, form, channels, nextSeq, ids, i, at);
        assert ([at] + tail)[1..] == tail;
      }
    }
  }

  /** Item `k` of `w`, with FID `fid + k`, passes its three tests, item by item from the front. */
  ghost predicate ClearFrom(fs: seq<Fixture>, types: seq<FixtureType>, maxUniverses: int,
                            channels: int, fid: int, w: seq<Placement>)
    decreases |w|
  {
    |w| == 0
    || (ItemError(fs, types, maxUniverses, channels, fid, w[0]).None?
        && ClearFrom(fs, types, maxUniverses, channels, fid + 1, w[1..]))
  }

  /** `ClearFrom` holds exactly when every item passes. */
  lemma {:induction false} ClearFromAll(fs: seq<Fixture>, types: seq<FixtureType>, maxUniverses: int,
                                        channels: int, fid: int, w: seq<Placement>)
    ensures ClearFrom(fs, types, maxUniverses, channels, fid, w) <==>
      forall k | 0 <= k < |w| :: ItemError(fs, types, maxUniverses, channels, fid + k, w[k]).None?
    decreases |w|
  {
    if |w| > 0 {
      var tail := w[1..];
      ClearFromAll(fs, types, maxUniverses, channels, fid + 1, tail);
      if ClearFrom(fs, types, maxUniverses, channels, fid, w) {
        forall k | 0 <= k < |w|
          ensures ItemError(fs, types, maxUniverses, channels, fid + k, w[k]).None?
        {
          if k > 0 {
            assert w[k] == tail[k - 1] && fid + k == fid + 1 + (k - 1);
          }
        }
      }
      if forall k | 0 <= k < |w| :: ItemError(fs, types, maxUniverses, channels, fid + k, w[k]).None? {
        assert ItemError(fs, types, maxUniverses, channels, fid + 0, w[0]).None?;
        forall k | 0 <= k < |tail|
          ensures ItemError(fs, types, maxUniverses, channels, fid + 1 + k, tail[k]).None?
        {
          assert tail[k] == w[k + 1] && fid + 1 + k == fid + (k + 1);
        }
      }
    }
  }

  /** Every iteration from `i` on passes its three tests. */
  ghost predicate ItemsClear(fs: seq<Fixture>, types: seq<FixtureType>, maxUniverses: int, form: CreateForm,
                             channels: int, i: nat, at: Placement)
    requires i <= BatchSize(form)
  {
    ClearFrom(fs, types, maxUniverses, channels, form.fid + i, Walk(at, Repeat(channels, BatchSize(form) - i)))
  }

  /** Peeling the first iteration off `ItemsClear`. */
  lemma ItemsClearUnfold(fs: seq<Fixture>, types: seq<FixtureType>, maxUniverses: int, form: CreateForm,
                         channels: int, i: nat, at: Placement)
    requires i < BatchSize(form)
    ensures ItemsClear(fs, types, maxUniverses, form, channels, i, at) <==>
      ItemError(fs, types, maxUniverses, channels, form.fid + i, at).None? &&
      ItemsClear(fs, types, maxUniverses, form, channels, i + 1, Step(at, channels))
  {
    var tail := Walk(Step(at, channels), Repeat(channels, BatchSize(form) - (i + 1)));
    RepeatWalkCons(at, channels, BatchSize(form) - i, BatchSize(form) - (i + 1));
    assert ([at] + tail)[1..] == tail;
  }

  /** The loop completes exactly when no iteration fails. */
  lemma {:induction false} SynthesizeSucceedsIff(
    fs: seq<Fixture>, types: seq<FixtureType>, maxUniverses: int, form: CreateForm,
    channels: int, nextSeq: nat, ids: seq<Id>, i: nat, at: Placement)
    requires i <= BatchSize(form) <= |ids|
    ensures Synthesize(fs, types, maxUniverses, form, channels, nextSeq, ids, i, at).Success?
      <==> ItemsClear(fs, types, maxUniverses, form, channels, i, at)
    decreases BatchSize(form) - i
  {
    if i < BatchSize(form) {
      ItemsClearUnfold(fs, types, maxUniverses, form, channels, i, at);
      SynthesizeSucceedsIff(fs, types, maxUniverses, form, channels, nextSeq, ids, i + 1, Step(at, channels));
    }
  }

  /** The fixtures a successful batch appends, as a plain list. */
  function Planned(form: CreateForm, channels: int, nextSeq: nat, ids: seq<Id>): (r: seq<Fixture>)
    requires BatchSize(form) <= |ids|
    ensures |r| == BatchSize(form)
  {
    var w := Walk(Placement(form.universe, form.address), Repeat(channels, BatchSize(form)));
    seq(BatchSize(form), k requires 0 <= k < BatchSize(form) => NewFixture(form, ids[k], k, nextSeq, w[k]))
  }

  /** The items along the batch's walk are the plan. */
  lemma BatchItemsPlanned(form: CreateForm, channels: int, nextSeq: nat, ids: seq<Id>)
    requires BatchSize(form) <= |ids|
    ensures BatchItems(form, nextSeq, ids, 0, BatchWalk(form, channels)) == Planned(form, channels, nextSeq, ids)
  {
    var w := BatchWalk(form, channels);
    var items := BatchItems(form, nextSeq, ids, 0, w);
    var plan := Planned(form, channels, nextSeq, ids);
    forall k | 0 <= k < |plan|
      ensures items[k] == plan[k]
    {
      BatchItemsAt(form, nextSeq, ids, 0, w, k);
    }
  }

  /** A completed batch is the plan. */
  lemma SynthesizePlanned(fs: seq<Fixture>, types: seq<FixtureType>, maxUniverses: int, form: CreateForm,
                          channels: int, nextSeq: nat, ids: seq<Id>)
    requires BatchSize(form) <= |ids|
    ensures var r := Synthesize(fs, types, maxUniverses, form, channels, nextSeq, ids, 0, Placement(form.universe, form.address));
      r.Success? ==> r.value == Planned(form, channels, nextSeq, ids)
  {
    SynthesizeValue(fs, types, maxUniverses, form, channels, nextSeq, ids, 0, Placement(form.universe, form.address));
    assert BatchSize(form) - 0 == BatchSize(form);
    BatchItemsPlanned(form, channels, nextSeq, ids);
  }

  /**
   * `handleManualSubmit`: validate the name and starting FID, resolve the
   * type, then run the batch loop; on success append the new fixtures,
   * otherwise return the first error the loop met. `ids` are the fresh
   * instance ids, one per fixture.
   */
  function Create(fs: seq<Fixture>, types: seq<FixtureType>, maxUniverses: int,
                  form: CreateForm, ids: seq<Id>): (r: Result<seq<Fixture>, PatchError>)
    requires BatchSize(form) <= |ids|
    ensures r == Failure(BlankName) <==> IsBlank(form.name)
    ensures r == Failure(NonPositiveFid) <==> !IsBlank(form.name) && form.fid < 1
    ensures r == Failure(UnknownType) <==> !IsBlank(form.name) && form.fid >= 1 && FindType(types, form.typeId).None?
    ensures r.Success? ==> r.value == fs + Planned(form, FindType(types, form.typeId).value.channels,
                                                   NextSequenceNumber(fs, form.typeId, form.name), ids)
  {
    if IsBlank(form.name) then Failure(BlankName)
    else if form.fid < 1 then Failure(NonPositiveFid)
    else match FindType(types, form.typeId)
      case None => Failure(UnknownType)
      case Some(t) =>
        var nextSeq := NextSequenceNumber(fs, form.typeId, form.name);
        var start := Placement(form.universe, form.address);
        match Synthesize(fs, types, maxUniverses, form, t.channels, nextSeq, ids, 0, start)
        case Success(added) =>
          SynthesizePlanned(fs, types, maxUniverses, form, t.channels, nextSeq, ids);
          Success(fs + added)
        case Failure(e) => Failure(e)
  }

  /** The batch goes through exactly when the form is valid and no iteration fails. */
  lemma CreateSucceedsIff(fs: seq<Fixture>, types: seq<FixtureType>, maxUniverses: int,
                          form: CreateForm, ids: seq<Id>)
    requires BatchSize(form) <= |ids|
    ensures Create(fs, types, maxUniverses, form, ids).Success? <==>
      && !IsBlank(form.name) && form.fid >= 1
      && FindType(types, form.typeId).Some?
      && ItemsClear(fs, types, maxUniverses, form, FindType(types, form.typeId).value.channels,
                    0, Placement(form.universe, form.address))
  {
    if !IsBlank(form.name) && form.fid >= 1 && FindType(types, form.typeId).Some? {
      var t := FindType(types, form.typeId).value;
      SynthesizeSucceedsIff(fs, types, maxUniverses, form, t.channels,
                            NextSequenceNumber(fs, form.typeId, form.name), ids, 0,
                            Placement(form.universe, form.address));
    }
  }

  /**
   * A failed loop reports the error of its first failing iteration: there is
   * an iteration `k` whose tests give that error and every earlier one passed.
   */
  lemma {:induction false} SynthesizeFirstError(
    fs: seq<Fixture>, types: seq<FixtureType>, maxUniverses: int, form: CreateForm,
    channels: int, nextSeq: nat, ids: seq<Id>, i: nat, at: Placement) returns (k: nat)
    requires i <= BatchSize(form) <= |ids|
    requires Synthesize(fs, types, maxUniverses, form, channels, nextSeq, ids, i, at).Failure?
    ensures i + k < BatchSize(form)
    ensures var w := Walk(at, Repeat(channels, BatchSize(form) - i));
      && ItemError(fs, types, maxUniverses, channels, form.fid + i + k, w[k])
         == Some(Synthesize(fs, types, maxUniverses, form, channels, nextSeq, ids, i, at).error)
      && ClearFrom(fs, types, maxUniverses, channels, form.fid + i, w[..k])
    decreases BatchSize(form) - i
  {
    var w := Walk(at, Repeat(channels, BatchSize(form) - i));
    var next := Step(at, channels);
    var tail := Walk(next, Repeat(channels, BatchSize(form) - (i + 1)));
    RepeatWalkCons(at, channels, BatchSize(form) - i, BatchSize(form) - (i + 1));
    if ItemError(fs, types, maxUniverses, channels, form.fid + i, at).Some? {
      k := 0;
    } else {
      var k' := SynthesizeFirstError(fs, types, maxUniverses, form, channels, nextSeq, ids, i + 1, next);
      k := k' + 1;
      assert w[k] == tail[k'];
      assert w[..k][0] == at && w[..k][1..] == tail[..k'];
    }
  }

  /** An iteration reports a duplicate only for its own FID, and only when the patch holds it. */
  lemma ItemDuplicateFid(fs: seq<Fixture>, types: seq<FixtureType>, maxUniverses: int,
                         channels: int, fid: int, at: Placement)
    requires ItemError(fs, types, maxUniverses, channels, fid, at).Some?
    requires ItemError(fs, types, maxUniverses, channels, fid, at).value.DuplicateFid?
    ensures ItemError(fs, types, maxUniverses, channels, fid, at).value.fid == fid && fid in Fids(fs)
  {
  }

  /** A loop that stops on a duplicate names a FID of iterations `i ..` that the patch already uses. */
  lemma {:induction false} SynthesizeDuplicateFid(
    fs: seq<Fixture>, types: seq<FixtureType>, maxUniverses: int, form: CreateForm,
    channels: int, nextSeq: nat, ids: seq<Id>, i: nat, at: Placement)
    requires i <= BatchSize(form) <= |ids|
    ensures var r := Synthesize(fs, types, maxUniverses, form, channels, nextSeq, ids, i, at);
      r.Failure? && r.error.DuplicateFid? ==>
        r.error.fid in Fids(fs) && form.fid + i <= r.error.fid < form.fid + BatchSize(form)
    decreases BatchSize(form) - i
  {
    if i < BatchSize(form) {
      var e := ItemError(fs, types, maxUniverses, channels, form.fid + i, at);
      if e.Some? {
        if e.value.DuplicateFid? {
          ItemDuplicateFid(fs, types, maxUniverses, channels, form.fid + i, at);
        }
      } else {
        SynthesizeDuplicateFid(fs, types, maxUniverses, form, channels, nextSeq, ids, i + 1, Step(at, channels));
      }
    }
  }

  /**
   * A `DuplicateFid` rejection names a FID of the batch's range that the
   * patch already uses.
   */
  lemma CreateDuplicateFid(fs: seq<Fixture>, types: seq<FixtureType>, maxUniverses: int,
                           form: CreateForm, ids: seq<Id>)
    requires BatchSize(form) <= |ids|
    ensures var r := Create(fs, types, maxUniverses, form, ids);
      r.Failure? && r.error.DuplicateFid? ==>
        r.error.fid in Fids(fs) && form.fid <= r.error.fid < form.fid + BatchSize(form)
  {
    if !IsBlank(form.name) && form.fid >= 1 && FindType(types, form.typeId).Some? {
      var t := FindType(types, form.typeId).value;
      SynthesizeDuplicateFid(fs, types, maxUniverses, form, t.channels,
                             NextSequenceNumber(fs, form.typeId, form.name), ids, 0,
                             Placement(form.universe, form.address));
    }
  }

  /** What a passed iteration guarantees about its item. */
  predicate Passed(fs: seq<Fixture>, types: seq<FixtureType>, maxUniverses: int,
                   channels: int, fid: int, at: Placement)
  {
    && fid !in Fids(fs)
    && CheckCollision(fs, types, at.universe, at.address, channels, {}).None?
    && Advance(at, channels, maxUniverses).Some?
    && at.address + channels - 1 <= UniverseSize
  }

  /** A passed iteration never leaves its footprint hanging past address 512. */
  lemma PassedItem(fs: seq<Fixture>, types: seq<FixtureType>, maxUniverses: int,
                   channels: int, fid: int, at: Placement)
    requires ItemError(fs, types, maxUniverses, channels, fid, at).None?
    requires channels >= 1
    ensures Passed(fs, types, maxUniverses, channels, fid, at)
  {
    if at.address + channels - 1 > UniverseSize {
      OverhangRefused(fs, types, at.universe, at.address, channels, {});
    }
  }

  /** The walk a batch of `form` with footprint `channels` follows. */
  function BatchWalk(form: CreateForm, channels: int): (w: seq<Placement>)
    ensures |w| == BatchSize(form)
  {
    Walk(Placement(form.universe, form.address), Repeat(channels, BatchSize(form)))
  }

  /** Every iteration of a passed batch passed its three tests. */
  lemma BatchPassed(fs: seq<Fixture>, types: seq<FixtureType>, maxUniverses: int,
                    form: CreateForm, channels: int)
    requires channels >= 1
    requires ItemsClear(fs, types, maxUniverses, form, channels, 0, Placement(form.universe, form.address))
    ensures forall k | 0 <= k < BatchSize(form) ::
      Passed(fs, types, maxUniverses, channels, form.fid + k, BatchWalk(form, channels)[k])
  {
    var w := BatchWalk(form, channels);
    assert BatchSize(form) - 0 == BatchSize(form) && form.fid + 0 == form.fid;
    ClearFromAll(fs, types, maxUniverses, channels, form.fid, w);
    forall k | 0 <= k < BatchSize(form)
      ensures Passed(fs, types, maxUniverses, channels, form.fid + k, w[k])
    {
      assert ItemError(fs, types, maxUniverses, channels, form.fid + k, w[k]).None?;
      PassedItem(fs, types, maxUniverses, channels, form.fid + k, w[k]);
    }
  }

  /** Each item of a passed batch is placed inside the patch's bounds. */
  lemma BatchPlaced(fs: seq<Fixture>, types: seq<FixtureType>, maxUniverses: int,
                    form: CreateForm, nextSeq: nat, ids: seq<Id>)
    requires 1 <= form.universe <= maxUniverses && 1 <= form.address && form.fid >= 1
    requires FindType(types, form.typeId).Some? && FindType(types, form.typeId).value.channels >= 1
    requires BatchSize(form) <= |ids|
    requires forall k | 0 <= k < BatchSize(form) :: ids[k] != ""
    requires ItemsClear(fs, types, maxUniverses, form, FindType(types, form.typeId).value.channels,
                        0, Placement(form.universe, form.address))
    ensures var added := Planned(form, FindType(types, form.typeId).value.channels,
                                 nextSeq, ids);
      forall k | 0 <= k < BatchSize(form) :: Placed(added[k], types, maxUniverses)
  {
    var ch := FindType(types, form.typeId).value.channels;
    var w := BatchWalk(form, ch);
    var chs := Repeat(ch, BatchSize(form));
    var added := Planned(form, ch, nextSeq, ids);
    BatchPassed(fs, types, maxUniverses, form, ch);
    forall k | 0 <= k < BatchSize(form)
      ensures Advance(w[k], chs[k], maxUniverses).Some?
    {
      assert Passed(fs, types, maxUniverses, ch, form.fid + k, w[k]);
    }
    WalkInBounds(Placement(form.universe, form.address), chs, maxUniverses);
    forall k | 0 <= k < BatchSize(form)
      ensures Placed(added[k], types, maxUniverses)
    {
      assert added[k] == NewFixture(form, ids[k], k, nextSeq, w[k]);
      assert Channels(added[k], types) == ch;
      assert Passed(fs, types, maxUniverses, ch, form.fid + k, w[k]);
    }
  }

  /** Items of one batch are pairwise compatible. */
  lemma BatchCompatible(fs: seq<Fixture>, types: seq<FixtureType>, maxUniverses: int,
                        form: CreateForm, nextSeq: nat, ids: seq<Id>)
    requires FindType(types, form.typeId).Some? && FindType(types, form.typeId).value.channels >= 1
    requires BatchSize(form) <= |ids|
    requires forall j, k | 0 <= j < k < BatchSize(form) :: ids[j] != ids[k]
    ensures var added := Planned(form, FindType(types, form.typeId).value.channels,
                                 nextSeq, ids);
      Pairwise(added, (f, g) => Compatible(types, f, g))
  {
    var ch := FindType(types, form.typeId).value.channels;
    var n := BatchSize(form);
    var chs := Repeat(ch, n);
    var w := BatchWalk(form, ch);
    var added := Planned(form, ch, nextSeq, ids);
    WalkNonOverlapping(Placement(form.universe, form.address), chs);
    var rel := (f, g) => Compatible(types, f, g);
    forall i, j | 0 <= i < j < n
      ensures rel(added[i], added[j])
    {
      assert added[i] == NewFixture(form, ids[i], i, nextSeq, w[i]);
      assert added[j] == NewFixture(form, ids[j], j, nextSeq, w[j]);
      assert Channels(added[i], types) == ch && Channels(added[j], types) == ch;
      assert EndsBefore(w[i], chs[i], w[j]);
    }
  }

  /** Item `j` of the plan carries the form's type and the `j`-th numbered name. */
  lemma PlannedItemName(form: CreateForm, channels: int, nextSeq: nat, ids: seq<Id>, j: nat)
    requires j < BatchSize(form) <= |ids|
    ensures Planned(form, channels, nextSeq, ids)[j].typeId == form.typeId
    ensures Planned(form, channels, nextSeq, ids)[j].name == NumberedName(form.name, nextSeq + j)
  {
  }

  /** Item `j` of the plan, spelled out. */
  lemma PlannedItem(types: seq<FixtureType>, form: CreateForm, nextSeq: nat, ids: seq<Id>, j: nat)
    requires FindType(types, form.typeId).Some?
    requires j < BatchSize(form) <= |ids|
    ensures var ch := FindType(types, form.typeId).value.channels;
      var f := Planned(form, ch, nextSeq, ids)[j];
      && Channels(f, types) == ch
      && Placement(f.universe, f.address) == BatchWalk(form, ch)[j]
      && f.fid == form.fid + j && f.id == ids[j]
  {
  }

  /** Item `j` of the plan shares neither id nor FID with a fixture of the patch, when its id and FID are unused. */
  lemma PlannedFresh(fs: seq<Fixture>, form: CreateForm, channels: int, nextSeq: nat, ids: seq<Id>, j: nat, g: Fixture)
    requires j < BatchSize(form) <= |ids|
    requires form.fid + j !in Fids(fs) && ids[j] !in Ids(fs) && g in fs
    ensures g.id != Planned(form, channels, nextSeq, ids)[j].id
    ensures g.fid != Planned(form, channels, nextSeq, ids)[j].fid
  {
    assert g.id in Ids(fs) && g.fid in Fids(fs);
  }

  /** A fixture the validator accepted at its own placement is compatible with a patched one carrying another id and FID. */
  lemma AcceptedCompatible(fs: seq<Fixture>, types: seq<FixtureType>, maxUniverses: int,
                           f: Fixture, p: Placement, channels: int, g: Fixture)
    requires WellFormed(fs, types, maxUniverses)
    requires Channels(f, types) == channels >= 1 && p == Placement(f.universe, f.address) && 1 <= p.address
    requires CheckCollision(fs, types, p.universe, p.address, channels, {}).None?
    requires g in fs && g.id != f.id && g.fid != f.fid
    ensures Compatible(types, g, f)
  {
    AcceptedIsDisjoint(fs, types, maxUniverses, p, channels, {}, g);
  }

  /** Item `j` of a passed batch is compatible with a fixture already patched. */
  lemma PlannedFitsPatch(fs: seq<Fixture>, types: seq<FixtureType>, maxUniverses: int,
                         form: CreateForm, nextSeq: nat, ids: seq<Id>, j: nat, g: Fixture)
    requires WellFormed(fs, types, maxUniverses)
    requires FindType(types, form.typeId).Some? && FindType(types, form.typeId).value.channels >= 1
    requires j < BatchSize(form) <= |ids| && ids[j] !in Ids(fs)
    requires var ch := FindType(types, form.typeId).value.channels;
      && Passed(fs, types, maxUniverses, ch, form.fid + j, BatchWalk(form, ch)[j])
      && 1 <= BatchWalk(form, ch)[j].address
    requires g in fs
    ensures Compatible(types, g, Planned(form, FindType(types, form.typeId).value.channels,
                                         nextSeq, ids)[j])
  {
    var ch := FindType(types, form.typeId).value.channels;
    var f := Planned(form, ch, nextSeq, ids)[j];
    var p := BatchWalk(form, ch)[j];
    assert form.fid + j !in Fids(fs);
    PlannedFresh(fs, form, ch, nextSeq, ids, j, g);
    PlannedItem(types, form, nextSeq, ids, j);
    AcceptedCompatible(fs, types, maxUniverses, f, p, ch, g);
  }

  /** Items of a passed batch are compatible with every fixture already patched. */
  lemma BatchFitsPatch(fs: seq<Fixture>, types: seq<FixtureType>, maxUniverses: int,
                       form: CreateForm, nextSeq: nat, ids: seq<Id>)
    requires WellFormed(fs, types, maxUniverses)
    requires 1 <= form.universe <= maxUniverses && 1 <= form.address && form.fid >= 1
    requires FindType(types, form.typeId).Some? && FindType(types, form.typeId).value.channels >= 1
    requires BatchSize(form) <= |ids|
    requires forall k | 0 <= k < BatchSize(form) :: ids[k] != "" && ids[k] !in Ids(fs)
    requires ItemsClear(fs, types, maxUniverses, form, FindType(types, form.typeId).value.channels,
                        0, Placement(form.universe, form.address))
    ensures var added := Planned(form, FindType(types, form.typeId).value.channels,
                                 nextSeq, ids);
      forall i, j | 0 <= i < |fs| && 0 <= j < |added| :: Compatible(types, fs[i], added[j])
  {
    var ch := FindType(types, form.typeId).value.channels;
    var added := Planned(form, ch, nextSeq, ids);
    BatchPassed(fs, types, maxUniverses, form, ch);
    BatchPlaced(fs, types, maxUniverses, form, nextSeq, ids);
    forall i, j | 0 <= i < |fs| && 0 <= j < |added|
      ensures Compatible(types, fs[i], added[j])
    {
      PlannedItem(types, form, nextSeq, ids, j);
      assert Placed(added[j], types, maxUniverses);
      PlannedFitsPatch(fs, types, maxUniverses, form, nextSeq, ids, j, fs[i]);
    }
  }

  /**
   * A committed batch keeps the patch's invariants: given a well-formed
   * patch, a start inside the form's bounds (universe 1..maxUniverses,
   * address at least 1), a type with a positive footprint and fresh,
   * distinct, non-empty ids, the new patch is well-formed too.
   */
  lemma CreatePreservesWellFormed(fs: seq<Fixture>, types: seq<FixtureType>, maxUniverses: int,
                                  form: CreateForm, ids: seq<Id>)
    requires WellFormed(fs, types, maxUniverses)
    requires 1 <= form.universe <= maxUniverses && 1 <= form.address
    requires FindType(types, form.typeId).Some? ==> FindType(types, form.typeId).value.channels >= 1
    requires BatchSize(form) <= |ids|
    requires forall k | 0 <= k < BatchSize(form) :: ids[k] != "" && ids[k] !in Ids(fs)
    requires forall j, k | 0 <= j < k < BatchSize(form) :: ids[j] != ids[k]
    requires Create(fs, types, maxUniverses, form, ids).Success?
    ensures WellFormed(Create(fs, types, maxUniverses, form, ids).value, types, maxUniverses)
  {
    CreateSucceedsIff(fs, types, maxUniverses, form, ids);
    var ch := FindType(types, form.typeId).value.channels;
    var nextSeq := NextSequenceNumber(fs, form.typeId, form.name);
    var added := Planned(form, ch, nextSeq, ids);
    BatchPlaced(fs, types, maxUniverses, form, nextSeq, ids);
    BatchCompatible(fs, types, maxUniverses, form, nextSeq, ids);
    BatchFitsPatch(fs, types, maxUniverses, form, nextSeq, ids);
    PairwiseAppend(fs, added, (f, g) => Compatible(types, f, g));
  }

  /** On an empty universe the validator passes exactly the footprints that end by address 512. */
  lemma EmptyPatchAccepts(types: seq<FixtureType>, u: int, address: int, channels: int)
    requires 1 <= channels
    ensures address + channels - 1 <= UniverseSize ==> CheckCollision([], types, u, address, channels, {}).None?
    ensures address <= UniverseSize < address + channels - 1 ==>
      CheckCollision([], types, u, address, channels, {}) == Some(OutOfRange(UniverseSize + 1, u))
  {
    var row := UniverseRow([], types, u);
    assert row == EmptyRow();
    assert forall a | address <= a < address + channels :: ClearAt(row, {}, a) <==> a <= UniverseSize;
    if address <= UniverseSize < address + channels - 1 {
      var r := CheckCollision([], types, u, address, channels, {});
      assert !ClearAt(row, {}, UniverseSize + 1);
      assert r.Some?;
      var a := CheckCollisionFirstFailure([], types, u, address, channels, {});
    }
  }

  /** The three iterations of a 200-channel batch from 1.1 on an empty patch: two pass, the third is refused at 513. */
  lemma StraddlingItems(types: seq<FixtureType>, maxUniverses: int, fid: int)
    requires maxUniverses >= 1
    ensures Step(Placement(1, 1), 200) == Placement(1, 201) && Step(Placement(1, 201), 200) == Placement(1, 401)
    ensures ItemError([], types, maxUniverses, 200, fid, Placement(1, 1)).None?
    ensures ItemError([], types, maxUniverses, 200, fid + 1, Placement(1, 201)).None?
    ensures ItemError([], types, maxUniverses, 200, fid + 2, Placement(1, 401)) == Some(Rejected(OutOfRange(513, 1)))
  {
    EmptyPatchAccepts(types, 1, 1, 200);
    EmptyPatchAccepts(types, 1, 201, 200);
    EmptyPatchAccepts(types, 1, 401, 200);
    assert Fids([]) == {};
  }

  /**
   * Three 200-channel fixtures from 1.1 on an empty patch: the first two go
   * to 1.1 and 1.201, the cursor does not roll before the third, and the
   * third (1.401, ending at 600) is refused at address 513, so nothing is
   * added.
   */
  lemma StraddlingBatchRefused(types: seq<FixtureType>, maxUniverses: int, form: CreateForm, ids: seq<Id>)
    requires !IsBlank(form.name) && form.fid >= 1 && maxUniverses >= 1
    requires FindType(types, form.typeId).Some? && FindType(types, form.typeId).value.channels == 200
    requires form.universe == 1 && form.address == 1 && form.quantity == 3 && |ids| >= 3
    ensures Create([], types, maxUniverses, form, ids) == Failure(Rejected(OutOfRange(513, 1)))
  {
    var nextSeq := NextSequenceNumber([], form.typeId, form.name);
    assert BatchSize(form) == 3;
    StraddlingItems(types, maxUniverses, form.fid);
    var third := Synthesize([], types, maxUniverses, form, 200, nextSeq, ids, 2, Placement(1, 401));
    assert third == Failure(Rejected(OutOfRange(513, 1)));
    var second := Synthesize([], types, maxUniverses, form, 200, nextSeq, ids, 1, Placement(1, 201));
    assert second == third;
    assert Synthesize([], types, maxUniverses, form, 200, nextSeq, ids, 0, Placement(1, 1)) == second;
  }

  /** Appending the plan moves the next sequence number on by the batch size. */
  lemma PlannedContinuesNumbering(fs: seq<Fixture>, form: CreateForm, channels: int, ids: seq<Id>)
    requires BatchSize(form) <= |ids|
    ensures var nextSeq := NextSequenceNumber(fs, form.typeId, form.name);
      NextSequenceNumber(fs + Planned(form, channels, nextSeq, ids), form.typeId, form.name)
        == nextSeq + BatchSize(form)
  {
    var nextSeq := NextSequenceNumber(fs, form.typeId, form.name);
    var added := Planned(form, channels, nextSeq, ids);
    if BatchSize(form) == 0 {
      assert fs + added == fs;
    } else {
      forall k | 0 <= k < |added|
        ensures added[k].typeId == form.typeId && added[k].name == NumberedName(form.name, nextSeq + k)
      {
        PlannedItemName(form, channels, nextSeq, ids, k);
      }
      NumberingContinues(fs, added, form.typeId, form.name);
    }
  }

  /**
   * A second batch of the same type and base name continues where the first
   * stopped: after a committed batch the next sequence number has moved on
   * by the batch size.
   */
  lemma CreateContinuesNumbering(fs: seq<Fixture>, types: seq<FixtureType>, maxUniverses: int,
                                 form: CreateForm, ids: seq<Id>)
    requires BatchSize(form) <= |ids|
    requires Create(fs, types, maxUniverses, form, ids).Success?
    ensures NextSequenceNumber(Create(fs, types, maxUniverses, form, ids).value, form.typeId, form.name)
      == NextSequenceNumber(fs, form.typeId, form.name) + BatchSize(form)
  {
    PlannedContinuesNumbering(fs, form, FindType(types, form.typeId).value.channels, ids);
  }
}

=== FILE: cursor.dfy ===
/**
 * The running (universe, address) cursor of batch creation and bulk
 * re-patch: advance by the footprint, roll to address 1 of the next universe
 * only when the advanced address passes 512, abort when that universe is
 * above the ceiling.
 */
module Cursor {
  import opened Wrappers
  import opened Patch

  /** The advance without the ceiling test. */
  function Step(p: Placement, channels: int): Placement {
    if p.address + channels > UniverseSize then Placement(p.universe + 1, 1)
    else Placement(p.universe, p.address + channels)
  }

  /** The step rolls over to the next universe. */
  predicate Rolls(p: Placement, channels: int) {
    p.address + channels > UniverseSize
  }

  /** One advance of the cursor; `None` is the "universe limit" abort. */
  function Advance(p: Placement, channels: int, maxUniverses: int): (r: Option<Placement>)
    ensures r.None? <==> Rolls(p, channels) && p.universe + 1 > maxUniverses
    ensures r.Some? && !Rolls(p, channels) ==> r.value == Placement(p.universe, p.address + channels)
    ensures r.Some? && Rolls(p, channels) ==> r.value == Placement(p.universe + 1, 1) && r.value.universe <= maxUniverses
  {
    var q := Step(p, channels);
    if Rolls(p, channels) && q.universe > maxUniverses then None else Some(q)
  }

  /** The placements the loop hands out when item `k` has footprint `chs[k]`. */
  function Walk(p: Placement, chs: seq<int>): (w: seq<Placement>)
    ensures |w| == |chs|
    decreases |chs|
  {
    if |chs| == 0 then [] else [p] + Walk(Step(p, chs[0]), chs[1..])
  }

  /** The walk after its first item is the walk from the advanced cursor. */
  lemma WalkTail(p: Placement, chs: seq<int>)
    requires |chs| > 0
    ensures Walk(p, chs)[0] == p
    ensures Walk(p, chs)[1..] == Walk(Step(p, chs[0]), chs[1..])
  {
  }

  lemma {:induction false} WalkStep(p: Placement, chs: seq<int>, k: int)
    requires 0 <= k < |chs|
    ensures k == 0 ==> Walk(p, chs)[k] == p
    ensures k + 1 < |chs| ==> Walk(p, chs)[k + 1] == Step(Walk(p, chs)[k], chs[k])
    decreases |chs|
  {
    if k > 0 {
      WalkStep(Step(p, chs[0]), chs[1..], k - 1);
    }
  }

  /** Lexicographic (universe, address) order. */
  predicate NotAfter(p: Placement, q: Placement) {
    p.universe < q.universe || (p.universe == q.universe && p.address <= q.address)
  }

  /** A footprint of `channels` at `p` ends before `q` starts. */
  predicate EndsBefore(p: Placement, channels: int, q: Placement) {
    p.universe < q.universe || (p.universe == q.universe && p.address + channels <= q.address)
  }

  /**
   * Contiguous advance never overlaps: with positive footprints every earlier
   * item of the walk ends before every later one starts.
   */
  lemma {:induction false} WalkNonOverlapping(p: Placement, chs: seq<int>)
    requires forall k | 0 <= k < |chs| :: chs[k] >= 1
    ensures forall i, j | 0 <= i < j < |chs| :: EndsBefore(Walk(p, chs)[i], chs[i], Walk(p, chs)[j])
    decreases |chs|
  {
    if |chs| > 0 {
      var w := Walk(p, chs);
      var rest := chs[1..];
      var q := Step(p, chs[0]);
      WalkNonOverlapping(q, rest);
      WalkFromAtOrAfter(q, rest);
      assert forall k | 0 <= k < |rest| :: w[k + 1] == Walk(q, rest)[k];
      assert EndsBefore(p, chs[0], q);
    }
  }

  /** Every placement of a walk with positive footprints is at or after its start. */
  lemma {:induction false} WalkFromAtOrAfter(p: Placement, chs: seq<int>)
    requires forall k | 0 <= k < |chs| :: chs[k] >= 1
    ensures forall k | 0 <= k < |chs| :: NotAfter(p, Walk(p, chs)[k])
    decreases |chs|
  {
    if |chs| > 0 {
      var q := Step(p, chs[0]);
      WalkFromAtOrAfter(q, chs[1..]);
      assert forall k | 0 <= k < |chs| - 1 :: Walk(p, chs)[k + 1] == Walk(q, chs[1..])[k];
    }
  }

  /**
   * When no advance along the walk aborts, every placement stays within
   * address >= 1 and universes 1..maxUniverses, given a start that does.
   */
  lemma {:induction false} WalkInBounds(p: Placement, chs: seq<int>, maxUniverses: int)
    requires forall k | 0 <= k < |chs| :: chs[k] >= 1
    requires 1 <= p.address && 1 <= p.universe <= maxUniverses
    requires forall k | 0 <= k < |chs| :: Advance(Walk(p, chs)[k], chs[k], maxUniverses).Some?
    ensures forall k | 0 <= k < |chs| :: 1 <= Walk(p, chs)[k].address && 1 <= Walk(p, chs)[k].universe <= maxUniverses
    decreases |chs|
  {
    if |chs| > 0 {
      var w := Walk(p, chs);
      var q := Step(p, chs[0]);
      assert w[0] == p;
      assert Advance(p, chs[0], maxUniverses).Some?;
      if |chs| > 1 {
        assert forall k | 0 <= k < |chs| - 1 :: w[k + 1] == Walk(q, chs[1..])[k];
        WalkInBounds(q, chs[1..], maxUniverses);
      }
    }
  }

  /**
   * Three 200-channel fixtures from 1.1 are handed 1.1, 1.201 and 1.401: the
   * cursor only rolls once the advanced address itself passes 512, so the
   * third footprint (401..600) is left to straddle the end of the universe.
   */
  lemma ThreeWideFixturesDoNotRoll()
    ensures Walk(Placement(1, 1), [200, 200, 200]) == [Placement(1, 1), Placement(1, 201), Placement(1, 401)]
  {
    assert [200, 200, 200][1..] == [200, 200] && [200, 200][1..] == [200];
    assert Walk(Placement(1, 401), [200]) == [Placement(1, 401)] + Walk(Placement(2, 1), []);
    assert Walk(Placement(1, 201), [200, 200]) == [Placement(1, 201)] + Walk(Placement(1, 401), [200]);
  }

  /**
   * The ceiling test also runs after the last item: a footprint that exactly
   * fills the last allowed universe still aborts the advance.
   */
  lemma FullLastUniverseAborts(maxUniverses: int, channels: int)
    requires channels >= UniverseSize
    ensures Advance(Placement(maxUniverses, 1), channels, maxUniverses).None?
  {
  }
}

=== FILE: edit.dfy ===
/**
 * Editing and deleting single fixtures (`handleEditSubmit`, the delete
 * confirmation) and deleting the whole selection (`handleBulkDelete`).
 */
module Edit {
  import opened Wrappers
  import opened Seqs
  import opened Patch
  import opened Occupancy
  import opened Collision
  import opened Errors
  import opened Selection

  /**
   * The edit form, already parsed. `color` is what `getManufacturerColor`
   * gives for the chosen type's manufacturer.
   */
  datatype EditForm = EditForm(
    fid: int, name: string, typeId: Id, universe: int, address: int,
    color: string, location: string, isFixed: bool)

  /** `editingFixtureId` is set and not the empty string. */
  predicate HasTarget(editingId: Option<Id>) {
    editingId.Some? && editingId.value != ""
  }

  /** Another fixture than `id` already carries `fid`. */
  predicate FidTakenByOther(fs: seq<Fixture>, fid: int, id: Id) {
    exists k | 0 <= k < |fs| :: fs[k].fid == fid && fs[k].id != id
  }

  /** The edited record: every form field replaces the old one; the id stays. */
  function Revise(f: Fixture, form: EditForm): (g: Fixture)
    ensures g.id == f.id
  {
    f.(fid := form.fid, name := form.name, typeId := form.typeId, universe := form.universe,
       address := form.address, color := form.color, location := form.location, isFixed := form.isFixed)
  }

  /**
   * `handleEditSubmit`: with no fixture being edited nothing happens; a FID
   * held by another fixture is refused; the chosen type must exist; the new
   * footprint is validated with the chosen type's channel count, ignoring
   * the edited fixture's own slots; on success every record with the edited
   * id is revised and nothing else changes.
   */
  function EditFixture(fs: seq<Fixture>, types: seq<FixtureType>, editingId: Option<Id>,
                       form: EditForm): (r: Result<seq<Fixture>, PatchError>)
    ensures r == Failure(NoTarget) <==> !HasTarget(editingId)
    ensures r == Failure(DuplicateFid(form.fid)) <==>
      HasTarget(editingId) && FidTakenByOther(fs, form.fid, editingId.value)
    ensures r == Failure(UnknownType) <==>
      && HasTarget(editingId) && !FidTakenByOther(fs, form.fid, editingId.value)
      && FindType(types, form.typeId).None?
    ensures r.Failure? && r.error.Rejected? <==>
      && HasTarget(editingId) && !FidTakenByOther(fs, form.fid, editingId.value)
      && FindType(types, form.typeId).Some?
      && CheckCollision(fs, types, form.universe, form.address,
                        FindType(types, form.typeId).value.channels, {editingId.value}).Some?
    ensures r.Success? ==> |r.value| == |fs| && forall k | 0 <= k < |fs| ::
      && r.value[k].id == fs[k].id
      && (fs[k].id != editingId.value ==> r.value[k] == fs[k])
      && (fs[k].id == editingId.value ==>
            r.value[k].fid == form.fid && r.value[k].typeId == form.typeId
            && r.value[k].universe == form.universe && r.value[k].address == form.address
            && r.value[k].name == form.name && r.value[k].color == form.color
            && r.value[k].location == form.location && r.value[k].isFixed == form.isFixed)
  {
    if !HasTarget(editingId) then Failure(NoTarget)
    else
      var id := editingId.value;
      if FidTakenByOther(fs, form.fid, id) then Failure(DuplicateFid(form.fid))
      else match FindType(types, form.typeId)
        case None => Failure(UnknownType)
        case Some(t) =>
          match CheckCollision(fs, types, form.universe, form.address, t.channels, {id})
          case Some(e) => Failure(Rejected(e))
          case None => Success(seq(|fs|, k requires 0 <= k < |fs| => if fs[k].id == id then Revise(fs[k], form) else fs[k]))
  }

  /**
   * An edit keeps a well-formed patch well-formed, given the form's bounds
   * (FID at least 1, universe 1..maxUniverses, address at least 1) and a
   * type with a positive footprint.
   */
  lemma EditPreservesWellFormed(fs: seq<Fixture>, types: seq<FixtureType>, maxUniverses: int,
                                editingId: Option<Id>, form: EditForm)
    requires WellFormed(fs, types, maxUniverses)
    requires form.fid >= 1 && 1 <= form.universe <= maxUniverses && 1 <= form.address
    requires FindType(types, form.typeId).Some? ==> FindType(types, form.typeId).value.channels >= 1
    requires EditFixture(fs, types, editingId, form).Success?
    ensures WellFormed(EditFixture(fs, types, editingId, form).value, types, maxUniverses)
  {
    var id := editingId.value;
    var r := EditFixture(fs, types, editingId, form).value;
    WellFormedNoOverlap(fs, types, maxUniverses);
    if j :| 0 <= j < |fs| && fs[j].id == id {
      var f := Revise(fs[j], form);
      var ch := FindType(types, form.typeId).value.channels;
      assert Channels(f, types) == ch;
      assert r == fs[j := f];
      if form.address + ch - 1 > UniverseSize {
        OverhangRefused(fs, types, form.universe, form.address, ch, {id});
      }
      assert Placed(f, types, maxUniverses);
      forall i | 0 <= i < |fs| && i != j
        ensures Compatible(types, fs[i], f) && Compatible(types, f, fs[i])
      {
        assert fs[i] in fs && fs[i].id != id;
        AcceptedIsDisjoint(fs, types, maxUniverses, Placement(form.universe, form.address), ch, {id}, fs[i]);
      }
      PairwiseReplace(fs, j, f, (g, h) => Compatible(types, g, h));
      forall g | g in r
        ensures Placed(g, types, maxUniverses)
      {
        var k :| 0 <= k < |r| && r[k] == g;
        if k != j {
          assert fs[k] in fs;
        }
      }
    } else {
      assert r == fs;
    }
  }

  /**
   * The edit form as `handleEditInitiate` fills it from fixture `f`: nothing
   * opens when its type does not resolve; an empty location shows as
   * `firstLocation` (the first entry of the location list). `color` is what
   * the submit will compute for the type's manufacturer.
   */
  function FormOf(f: Fixture, types: seq<FixtureType>, color: string, firstLocation: string): (form: Option<EditForm>)
    ensures form.None? <==> FindType(types, f.typeId).None?
    ensures form.Some? ==>
      Revise(f, form.value) == f.(color := color, location := if f.location == "" then firstLocation else f.location)
  {
    if FindType(types, f.typeId).None? then None
    else
      var location := if f.location == "" then firstLocation else f.location;
      Some(EditForm(f.fid, f.name, f.typeId, f.universe, f.address, color, location, f.isFixed))
  }

  /**
   * Opening a fixture of a well-formed patch for editing and submitting
   * the form unchanged is accepted: the fixture's own footprint never
   * collides with itself. The fixture gets the form's colour and the
   * shown location; nothing else in the patch changes.
   */
  lemma UnchangedEditAccepted(fs: seq<Fixture>, types: seq<FixtureType>, maxUniverses: int, j: nat,
                              color: string, firstLocation: string)
    requires WellFormed(fs, types, maxUniverses) && j < |fs|
    ensures FormOf(fs[j], types, color, firstLocation).Some?
    ensures EditFixture(fs, types, Some(fs[j].id), FormOf(fs[j], types, color, firstLocation).value)
      == Success(fs[j := fs[j].(color := color,
                                location := if fs[j].location == "" then firstLocation else fs[j].location)])
  {
    var f := fs[j];
    WellFormedNoOverlap(fs, types, maxUniverses);
    assert f in fs;
    assert Placed(f, types, maxUniverses);
    var form := FormOf(f, types, color, firstLocation).value;
    var ch := FindType(types, f.typeId).value.channels;
    CheckCollisionIff(fs, types, f.universe, f.address, ch, {f.id});
    assert CheckCollision(fs, types, f.universe, f.address, ch, {f.id}).None?;
    assert EditFixture(fs, types, Some(f.id), form).Success?;
    var r := EditFixture(fs, types, Some(f.id), form).value;
    var expected := fs[j := Revise(f, form)];
    forall k | 0 <= k < |fs|
      ensures r[k] == expected[k]
    {
      if fs[k].id == f.id {
        assert k == j;
      }
    }
    assert r == expected;
  }

  /** The filter of the single delete: keep fixtures whose id is not `id`. */
  function KeepOther(id: Id): Fixture -> bool {
    (f: Fixture) => f.id != id
  }

  /** The filter of the bulk delete: keep fixtures outside the selection. */
  function KeepUnselected(selected: set<Id>): Fixture -> bool {
    (f: Fixture) => f.id !in selected
  }

  /** The list with every fixture carrying `id` removed. */
  function DeleteOne(fs: seq<Fixture>, id: Id): (r: seq<Fixture>)
    ensures forall f | f in r :: f in fs && f.id != id
    ensures forall f | f in fs && f.id != id :: f in r
    ensures forall f :: multiset(r)[f] == if f.id != id then multiset(fs)[f] else 0
    ensures IsSubsequence(r, fs)
  {
    Filter(fs, KeepOther(id))
  }

  /** `handleBulkDelete`: the list without every selected fixture. */
  function DeleteSelected(fs: seq<Fixture>, selected: set<Id>): (r: seq<Fixture>)
    ensures forall f | f in r :: f in fs && f.id !in selected
    ensures forall f | f in fs && f.id !in selected :: f in r
    ensures forall f :: multiset(r)[f] == if f.id !in selected then multiset(fs)[f] else 0
    ensures IsSubsequence(r, fs)
    ensures (forall f | f in fs :: f.id !in selected) ==> r == fs
  {
    Filter(fs, KeepUnselected(selected))
  }

  /** The focused fixture survives a delete unless it was one of the removed ids. */
  function DropFocus(focus: Option<Id>, removed: set<Id>): (r: Option<Id>)
    ensures r.Some? <==> focus.Some? && focus.value !in removed
    ensures r.Some? ==> r == focus
  {
    if focus.Some? && focus.value in removed then None else focus
  }

  /** Deleting one fixture is deleting the selection holding just its id. */
  lemma DeleteOneIsDeleteSelected(fs: seq<Fixture>, id: Id)
    ensures DeleteOne(fs, id) == DeleteSelected(fs, {id})
  {
    FilterExtensional(fs, KeepOther(id), KeepUnselected({id}));
  }

  /** Removing fixtures never breaks the patch's invariants. */
  lemma DeletePreservesWellFormed(fs: seq<Fixture>, types: seq<FixtureType>, maxUniverses: int,
                                  selected: set<Id>)
    requires WellFormed(fs, types, maxUniverses)
    ensures WellFormed(DeleteSelected(fs, selected), types, maxUniverses)
  {
    var r := DeleteSelected(fs, selected);
    SubsequencePairwise(r, fs, (f, g) => Compatible(types, f, g));
  }

  /** The single delete removes exactly the one id from the list's ids. */
  lemma DeleteOneIds(fs: seq<Fixture>, id: Id)
    ensures Ids(DeleteOne(fs, id)) == Ids(fs) - {id}
  {
  }

  /** Deleting fixtures keeps the ids unique. */
  lemma DeleteOneUnique(fs: seq<Fixture>, id: Id)
    requires UniqueIds(fs)
    ensures UniqueIds(DeleteOne(fs, id))
  {
    var r := DeleteOne(fs, id);
    SubsequencePairwise(r, fs, (f: Fixture, g: Fixture) => f.id != g.id);
    assert Pairwise(r, (f: Fixture, g: Fixture) => f.id != g.id);
  }

  /**
   * The single delete leaves the selection alone, so the id of a deleted
   * fixture stays selected. When all fixtures but one were selected,
   * deleting a selected one ticks the header checkbox although a remaining
   * fixture is unselected, and "select all" then clears the selection.
   */
  lemma DeleteLeavesStaleSelection(fs: seq<Fixture>, selected: set<Id>, j: nat)
    requires UniqueIds(fs) && selected <= Ids(fs) && |selected| == |fs| - 1
    requires j < |fs| && fs[j].id in selected
    ensures AllSelected(DeleteOne(fs, fs[j].id), selected)
    ensures exists g | g in DeleteOne(fs, fs[j].id) :: g.id !in selected
    ensures ToggleAll(selected, DeleteOne(fs, fs[j].id)) == {}
  {
    var id := fs[j].id;
    var r := DeleteOne(fs, id);
    DeleteOneIds(fs, id);
    DeleteOneUnique(fs, id);
    IdsCount(fs);
    IdsCount(r);
    assert |r| == |selected|;
    assert Ids(fs) != selected;
    assert Ids(fs) - selected != {};
    var x :| x in Ids(fs) - selected;
    assert x in Ids(r);
    var g :| g in r && g.id == x;
  }
}

=== FILE: errors.dfy ===
/** Why a command left the patch unchanged. */
module Errors {
  import opened Collision

  datatype PatchError =
    /** The name field is empty once trimmed (add form only). */
    | BlankName
    /** The starting FID is below 1 (add form only). */
    | NonPositiveFid
    /** No fixture is being edited. */
    | NoTarget
    /** The chosen fixture type does not resolve. */
    | UnknownType
    /** The FID is already held outside the fixtures being written. */
    | DuplicateFid(fid: int)
    /** The collision/range validator refused a placement. */
    | Rejected(cause: PlacementError)
    /** Rolling over would pass the universe ceiling. */
    | UniverseLimit
}

=== FILE: fixture_list.dfy ===
/**
 * The fixture list's view of the patch: the search filter, the column sort
 * chosen by clicking headers, the resulting visual order, and the list of
 * selected fixtures it hands to the bulk-edit dialog in that order.
 */
module FixtureList {
  import opened Wrappers
  import opened Text
  import opened Seqs
  import opened Patch
  import opened Sorting
  import opened Ordering

  /** `${f.universe}.${f.address}`. */
  function PatchLabel(f: Fixture): string {
    IntToString(f.universe) + "." + IntToString(f.address)
  }

  /**
   * The fields the search looks in: name, FID digits, location,
   * manufacturer and type name (when the type resolves) and the patch label;
   * all but the numbers are lower-cased first.
   */
  predicate MatchesSearch(types: seq<FixtureType>, f: Fixture, search: string) {
    || Contains(Lower(f.name), search)
    || Contains(IntToString(f.fid), search)
    || Contains(Lower(f.location), search)
    || (FindType(types, f.typeId).Some? && Contains(Lower(FindType(types, f.typeId).value.manufacturer), search))
    || (FindType(types, f.typeId).Some? && Contains(Lower(FindType(types, f.typeId).value.name), search))
    || Contains(PatchLabel(f), search)
  }

  /** The search predicate for the text typed in the box (lower-cased, not trimmed). */
  function Keep(types: seq<FixtureType>, filterText: string): Fixture -> bool {
    (f: Fixture) => MatchesSearch(types, f, Lower(filterText))
  }

  /**
   * Step 1 of `filteredAndSortedFixtures`: a blank box keeps the whole
   * list; otherwise the fixtures matching the lower-cased text are kept in
   * their order.
   */
  function FilterList(fs: seq<Fixture>, types: seq<FixtureType>, filterText: string): (r: seq<Fixture>)
    ensures IsBlank(filterText) ==> r == fs
    ensures !IsBlank(filterText) ==> forall f :: f in r <==> f in fs && MatchesSearch(types, f, Lower(filterText))
    ensures forall f ::
      multiset(r)[f] == if IsBlank(filterText) || MatchesSearch(types, f, Lower(filterText)) then multiset(fs)[f] else 0
    ensures IsSubsequence(r, fs)
  {
    if IsBlank(filterText) then SubsequenceOfSelf(fs); fs
    else Filter(fs, Keep(types, filterText))
  }

  /** Lower-casing a second time changes nothing. */
  lemma LowerIdempotent(s: string)
    ensures Lower(Lower(s)) == Lower(s)
  {
  }

  /** Lower-casing neither creates nor removes whitespace. */
  lemma LowerKeepsBlank(s: string)
    ensures IsBlank(Lower(s)) <==> IsBlank(s)
  {
    assert forall i | 0 <= i < |s| :: IsWhitespace(Lower(s)[i]) <==> IsWhitespace(s[i]);
  }

  /** The search ignores the case of the typed text. */
  lemma FilterIgnoresCase(fs: seq<Fixture>, types: seq<FixtureType>, filterText: string)
    ensures FilterList(fs, types, Lower(filterText)) == FilterList(fs, types, filterText)
  {
    LowerKeepsBlank(filterText);
    LowerIdempotent(filterText);
    FilterExtensional(fs, Keep(types, Lower(filterText)), Keep(types, filterText));
  }

  /** A string is a substring of itself. */
  lemma ContainsSelf(s: string)
    ensures Contains(s, s)
  {
    assert s[..|s|] == s;
  }

  /** Typing a fixture's FID (as digits) keeps that fixture in the list. */
  lemma FidSearchFinds(fs: seq<Fixture>, types: seq<FixtureType>, f: Fixture)
    requires f in fs && f.fid >= 0
    ensures f in FilterList(fs, types, NatToString(f.fid))
  {
    var text := NatToString(f.fid);
    assert !IsWhitespace(text[0]);
    assert Lower(text) == text;
    ContainsSelf(text);
  }

  /** Typing a fixture's `universe.address` label keeps that fixture in the list. */
  lemma PatchSearchFinds(fs: seq<Fixture>, types: seq<FixtureType>, f: Fixture)
    requires f in fs && f.universe >= 0 && f.address >= 0
    ensures f in FilterList(fs, types, PatchLabel(f))
  {
    var text := PatchLabel(f);
    assert text[0] == IntToString(f.universe)[0] && !IsWhitespace(text[0]);
    assert forall i | 0 <= i < |text| :: text[i] == '.' || IsDigit(text[i]);
    assert Lower(text) == text;
    ContainsSelf(text);
  }

  /** The list's sort state: the column and its direction. */
  datatype ListSort = ListSort(key: SortKey, dir: SortDirection)

  function Flip(dir: SortDirection): SortDirection {
    if dir == Asc then Desc else Asc
  }

  /** `handleSort(key)`: the current column flips direction; another column starts ascending. */
  function HandleSort(s: ListSort, clicked: SortKey): (r: ListSort)
    ensures r.key == clicked
    ensures s.key == clicked ==> r.dir != s.dir
    ensures s.key != clicked ==> r.dir == Asc
  {
    if s.key == clicked then ListSort(s.key, Flip(s.dir)) else ListSort(clicked, Asc)
  }

  /**
   * Clicking the current column's header reverses the order: the new
   * comparator is the old one with its arguments swapped, and clicking a
   * second time restores the state.
   */
  lemma HeaderClickReverses(types: seq<FixtureType>, s: ListSort, a: Fixture, b: Fixture)
    ensures var r := HandleSort(s, s.key);
      ListCompare(types, r.key, r.dir, a, b) == ListCompare(types, s.key, s.dir, b, a)
    ensures HandleSort(HandleSort(s, s.key), s.key) == s
  {
    ListCompareAntisymmetric(types, s.key, Asc, a, b);
  }

  /** `filteredAndSortedFixtures`: the filtered list in the chosen column order. */
  function VisualOrder(fs: seq<Fixture>, types: seq<FixtureType>, filterText: string, s: ListSort): (r: seq<Fixture>)
    ensures multiset(r) == multiset(FilterList(fs, types, filterText))
    ensures SortedBy(r, ListOrder(types, s.key, s.dir))
  {
    SortList(types, s.key, s.dir, FilterList(fs, types, filterText))
  }

  /**
   * `initiateBulkEdit(sortedFixtures)`: the selected fixtures of the visual
   * order, in that order; with none selected the dialog does not open.
   */
  function OpenBulkEdit(visual: seq<Fixture>, selected: set<Id>): (r: Option<seq<Fixture>>)
    ensures r.None? <==> forall f | f in visual :: f.id !in selected
    ensures r.Some? ==> (
      && |r.value| > 0 && IsSubsequence(r.value, visual)
      && (forall f | f in r.value :: f.id in selected)
      && (forall f | f in visual && f.id in selected :: f in r.value)
      && (forall f :: multiset(r.value)[f] == if f.id in selected then multiset(visual)[f] else 0))
  {
    var targets := Filter(visual, (f: Fixture) => f.id in selected);
    if |targets| == 0 then None else assert targets[0] in targets; Some(targets)
  }

  /** An element occurring at two positions occurs at least twice. */
  lemma RepeatCounted<T>(xs: seq<T>, i: nat, j: nat)
    requires i < j < |xs| && xs[i] == xs[j]
    ensures multiset(xs)[xs[i]] >= 2
  {
    var x := xs[i];
    assert xs == xs[..i] + [x] + xs[i + 1..j] + [x] + xs[j + 1..];
  }

  /** In a list with unique ids no fixture occurs twice. */
  lemma {:induction false} UniqueIdsCountOnce(xs: seq<Fixture>, f: Fixture)
    requires UniqueIds(xs)
    ensures multiset(xs)[f] <= 1
    decreases |xs|
  {
    if |xs| > 0 {
      var tail := xs[1..];
      assert xs == [xs[0]] + tail;
      assert UniqueIds(tail) by {
        forall i, j | 0 <= i < j < |tail|
          ensures tail[i].id != tail[j].id
        {
          assert tail[i] == xs[i + 1] && tail[j] == xs[j + 1];
        }
      }
      UniqueIdsCountOnce(tail, f);
      if xs[0] == f {
        assert f !in tail;
      }
    }
  }

  /** Reordering a list of fixtures with unique ids keeps ids unique. */
  lemma PermutationKeepsUniqueIds(xs: seq<Fixture>, ys: seq<Fixture>)
    requires UniqueIds(xs) && multiset(ys) == multiset(xs)
    ensures UniqueIds(ys)
  {
    forall i, j | 0 <= i < j < |ys|
      ensures ys[i].id != ys[j].id
    {
      if ys[i].id == ys[j].id {
        assert ys[i] in multiset(xs) && ys[j] in multiset(xs);
        var a :| 0 <= a < |xs| && xs[a] == ys[i];
        var b :| 0 <= b < |xs| && xs[b] == ys[j];
        assert a == b;
        RepeatCounted(ys, i, j);
        UniqueIdsCountOnce(xs, ys[i]);
      }
    }
  }

  /**
   * The list the bulk-edit dialog receives meets what the bulk edit needs
   * of it in a patch with unique ids: its fixtures come from the patch, no
   * id repeats, and they are selected; with a blank search box no selected
   * fixture of the patch is missing from it.
   */
  lemma BulkEditTargetsFromList(fs: seq<Fixture>, types: seq<FixtureType>, filterText: string, s: ListSort,
                                selected: set<Id>)
    requires UniqueIds(fs)
    requires OpenBulkEdit(VisualOrder(fs, types, filterText, s), selected).Some?
    ensures var targets := OpenBulkEdit(VisualOrder(fs, types, filterText, s), selected).value;
      && UniqueIds(targets)
      && (forall i | 0 <= i < |targets| :: targets[i] in fs && targets[i].id in selected)
      && (IsBlank(filterText) ==> forall f | f in fs && f.id in selected :: f.id in Ids(targets))
  {
    var shown := FilterList(fs, types, filterText);
    var visual := VisualOrder(fs, types, filterText, s);
    var targets := OpenBulkEdit(visual, selected).value;
    SubsequenceMembers(shown, fs);
    SubsequencePairwise(shown, fs, (f: Fixture, g: Fixture) => f.id != g.id);
    assert UniqueIds(shown) by {
      var rel := (f: Fixture, g: Fixture) => f.id != g.id;
      assert Pairwise(fs, rel);
      assert Pairwise(shown, rel);
      forall i, j | 0 <= i < j < |shown|
        ensures shown[i].id != shown[j].id
      {
        assert rel(shown[i], shown[j]);
      }
    }
    PermutationKeepsUniqueIds(shown, visual);
    forall f | f in visual
      ensures f in fs
    {
      assert f in multiset(shown);
    }
    SubsequenceMembers(targets, visual);
    SubsequencePairwise(targets, visual, (f: Fixture, g: Fixture) => f.id != g.id);
    assert UniqueIds(targets) by {
      var rel := (f: Fixture, g: Fixture) => f.id != g.id;
      assert Pairwise(visual, rel);
      assert Pairwise(targets, rel);
      forall i, j | 0 <= i < j < |targets|
        ensures targets[i].id != targets[j].id
      {
        assert rel(targets[i], targets[j]);
      }
    }
    forall i | 0 <= i < |targets|
      ensures targets[i] in fs && targets[i].id in selected
    {
      assert targets[i] in targets;
    }
    if IsBlank(filterText) {
      forall f | f in fs && f.id in selected
        ensures f.id in Ids(targets)
      {
        assert f in multiset(visual);
        assert f in targets;
      }
    }
  }
}

=== FILE: free_run.dfy ===
/**
 * The first-fit free-run finder (`findNextFreeAddress`) and the "next free"
 * suggestion the add/edit form derives from it.
 */
module FreeRun {
  import opened Wrappers
  import opened Patch
  import opened Occupancy

  /**
   * A slot counts as free when it is empty, when it holds the empty id (a
   * falsy string in the source), or when its occupant is excluded.
   */
  predicate SlotFree(s: Option<Id>, excludes: set<Id>) {
    s.None? || s.value == "" || s.value in excludes
  }

  /**
   * The run length the scan really waits for: the count is compared only after
   * a free slot has been counted, so a request below 1 behaves as 1.
   */
  function Need(n: int): int {
    if n < 1 then 1 else n
  }

  /** Addresses `start .. start + n - 1` lie within 1..512 and are all free. */
  predicate RunAt(slots: Slots, excludes: set<Id>, start: int, n: int)
    requires |slots| == UniverseSize
  {
    1 <= start && start + n - 1 <= UniverseSize
    && forall k | start - 1 <= k < start - 1 + n :: SlotFree(slots[k], excludes)
  }

  /** A taken slot at index `b` blocks every run whose footprint contains it. */
  lemma Blocked(slots: Slots, excludes: set<Id>, b: int, n: int)
    requires |slots| == UniverseSize && b < UniverseSize
    requires 0 <= b ==> !SlotFree(slots[b], excludes)
    ensures forall s | 1 <= s && s - 1 <= b <= s + n - 2 :: !RunAt(slots, excludes, s, n)
  {
  }

  /**
   * The scan loop from slot index `i` on, with `run` consecutive free slots
   * counted so far starting at address `start`.
   */
  function Scan(slots: Slots, n: int, excludes: set<Id>, i: int, run: int, start: int): (r: Option<int>)
    requires |slots| == UniverseSize
    requires 0 <= run <= i <= UniverseSize && run < Need(n)
    requires run > 0 ==> start == i - run + 1
    requires forall k | i - run <= k < i :: SlotFree(slots[k], excludes)
    requires run < i ==> !SlotFree(slots[i - run - 1], excludes)
    requires forall s | 1 <= s && s + Need(n) - 1 <= i :: !RunAt(slots, excludes, s, Need(n))
    ensures r.Some? ==> RunAt(slots, excludes, r.value, Need(n))
    ensures r.Some? ==> forall s | 1 <= s < r.value :: !RunAt(slots, excludes, s, Need(n))
    ensures r.None? ==> forall s :: !RunAt(slots, excludes, s, Need(n))
    decreases UniverseSize - i
  {
    if i == UniverseSize then None
    else if SlotFree(slots[i], excludes) then
      var start' := if run == 0 then i + 1 else start;
      Blocked(slots, excludes, i - run - 1, Need(n));
      if run + 1 >= n then Some(start')
      else Scan(slots, n, excludes, i + 1, run + 1, start')
    else
      Blocked(slots, excludes, i, Need(n));
      Scan(slots, n, excludes, i + 1, 0, start)
  }

  /**
   * First fit over one universe's slots: the lowest address starting a free
   * run of `Need(n)` slots that ends by address 512, or nothing if none does.
   */
  function FindNextFree(slots: Slots, n: int, excludes: set<Id>): (r: Option<int>)
    requires |slots| == UniverseSize
    ensures r.Some? ==> RunAt(slots, excludes, r.value, Need(n))
    ensures r.Some? ==> forall s | 1 <= s < r.value :: !RunAt(slots, excludes, s, Need(n))
    ensures r.None? <==> forall s :: !RunAt(slots, excludes, s, Need(n))
  {
    Scan(slots, n, excludes, 0, 0, 1)
  }

  /** `findNextFreeAddress(uni, n, excludes)` over the patch's own occupancy. */
  function FindNextFreeAddress(fs: seq<Fixture>, types: seq<FixtureType>, u: int, n: int, excludes: set<Id>): (r: Option<int>)
    ensures r.Some? ==> RunAt(UniverseSlots(fs, types, u), excludes, r.value, Need(n))
    ensures r.Some? ==> forall s | 1 <= s < r.value :: !RunAt(UniverseSlots(fs, types, u), excludes, s, Need(n))
    ensures r.None? <==> forall s :: !RunAt(UniverseSlots(fs, types, u), excludes, s, Need(n))
  {
    FindNextFree(UniverseSlots(fs, types, u), n, excludes)
  }

  /** A universe nobody is patched into behaves as all-empty: the run starts at address 1 if it fits at all. */
  lemma EmptyUniverseFromOne(fs: seq<Fixture>, types: seq<FixtureType>, u: int, n: int, excludes: set<Id>)
    requires forall j | 0 <= j < |fs| :: fs[j].universe != u || FindType(types, fs[j].typeId).None?
    ensures FindNextFreeAddress(fs, types, u, n, excludes) == if Need(n) <= UniverseSize then Some(1) else None
  {
    IndexEntries(fs, types, u);
    var slots := UniverseSlots(fs, types, u);
    assert slots == EmptySlots();
    if Need(n) <= UniverseSize {
      assert RunAt(slots, excludes, 1, Need(n));
    } else {
      assert forall s :: !RunAt(slots, excludes, s, Need(n));
    }
  }

  /**
   * Excluding a fixture frees its own footprint, so searching for its size
   * never lands later than where it already sits.
   */
  lemma OwnFootprintIsFree(fs: seq<Fixture>, types: seq<FixtureType>, maxUniverses: int, j: int, excludes: set<Id>)
    requires WellFormed(fs, types, maxUniverses)
    requires 0 <= j < |fs| && fs[j].id in excludes
    ensures var r := FindNextFreeAddress(fs, types, fs[j].universe, Channels(fs[j], types), excludes);
      r.Some? && r.value <= fs[j].address
  {
    var f := fs[j];
    var slots := UniverseSlots(fs, types, f.universe);
    assert Placed(f, types, maxUniverses);
    WellFormedNoOverlap(fs, types, maxUniverses);
    forall k | f.address - 1 <= k < f.address - 1 + Channels(f, types)
      ensures SlotFree(slots[k], excludes)
    {
      SoleOccupant(fs, types, f.universe, j, k + 1);
    }
    assert RunAt(slots, excludes, f.address, Need(Channels(f, types)));
  }

  /** What the form shows next to the suggested address. */
  datatype Notice = ClearMessage | BatchWarning | KeepMessage

  /** Outcome of the "next free" effect of the add/edit form. */
  datatype Suggestion = Untouched | Suggest(address: int, notice: Notice) | UniverseFull

  /** The run the effect looks for first: one footprint when editing, `quantity` footprints when adding. */
  function FirstRequest(channels: int, quantity: int, editing: bool): int {
    if editing then channels else Quantity(quantity) * channels
  }

  /**
   * The "next free" effect: try a run for the whole batch; failing that, a
   * run for one footprint, with a warning when a multi-fixture batch was
   * asked for; failing that too, report the universe full. `universe` is the
   * parsed form value (0 standing for an unparsable one).
   */
  function NextFree(fs: seq<Fixture>, types: seq<FixtureType>, enabled: bool, universe: int,
                    quantity: int, typeId: Id, editing: bool, editingId: Option<Id>): (r: Suggestion)
    ensures r != Untouched <==> enabled && universe != 0 && FindType(types, typeId).Some?
    ensures r.Suggest? && r.notice == ClearMessage ==>
      var slots := UniverseSlots(fs, types, universe);
      var excludes := EditExcludes(editingId);
      var n := Need(FirstRequest(FindType(types, typeId).value.channels, quantity, editing));
      RunAt(slots, excludes, r.address, n) && forall s | 1 <= s < r.address :: !RunAt(slots, excludes, s, n)
    ensures r.Suggest? && r.notice != ClearMessage ==>
      var slots := UniverseSlots(fs, types, universe);
      var excludes := EditExcludes(editingId);
      var t := FindType(types, typeId).value;
      && (forall s :: !RunAt(slots, excludes, s, Need(FirstRequest(t.channels, quantity, editing))))
      && RunAt(slots, excludes, r.address, Need(t.channels))
      && (forall s | 1 <= s < r.address :: !RunAt(slots, excludes, s, Need(t.channels)))
      && (r.notice == BatchWarning <==> !editing && Quantity(quantity) > 1)
    ensures r == UniverseFull ==>
      var slots := UniverseSlots(fs, types, universe);
      var t := FindType(types, typeId).value;
      && (forall s :: !RunAt(slots, EditExcludes(editingId), s, Need(FirstRequest(t.channels, quantity, editing))))
      && (forall s :: !RunAt(slots, EditExcludes(editingId), s, Need(t.channels)))
  {
    if !enabled || universe == 0 then Untouched
    else match FindType(types, typeId)
      case None => Untouched
      case Some(t) =>
        var excludes := EditExcludes(editingId);
        match FindNextFreeAddress(fs, types, universe, FirstRequest(t.channels, quantity, editing), excludes)
        case Some(a) => Suggest(a, ClearMessage)
        case None =>
          match FindNextFreeAddress(fs, types, universe, t.channels, excludes)
          case Some(a) => Suggest(a, if !editing && Quantity(quantity) > 1 then BatchWarning else KeepMessage)
          case None => UniverseFull
  }

  /** `editingFixtureId || undefined` turned into an exclusion set. */
  function EditExcludes(editingId: Option<Id>): (r: set<Id>)
    ensures r <= (if editingId.Some? then {editingId.value} else {})
    ensures "" !in r
  {
    if editingId.Some? && editingId.value != "" then {editingId.value} else {}
  }

  /** When editing, both searches ask for the same run, so the effect never falls back. */
  lemma EditingNeverFallsBack(fs: seq<Fixture>, types: seq<FixtureType>, enabled: bool, universe: int,
                              quantity: int, typeId: Id, editingId: Option<Id>)
    ensures !NextFree(fs, types, enabled, universe, quantity, typeId, true, editingId).Suggest?
      || NextFree(fs, types, enabled, universe, quantity, typeId, true, editingId).notice == ClearMessage
  {
  }
}

=== FILE: library.dfy ===
/**
 * Merging an imported fixture-type library into the current one: entries
 * without a name, manufacturer or channel count are skipped, an entry that
 * matches an existing type (same id, or same manufacturer, name and mode)
 * overwrites that type's fields in place, and any other entry is appended,
 * with a fresh id when it brings none.
 */
module Library {
  import opened Wrappers
  import opened Patch

  /** One entry of the imported JSON; `id` is `None` when the key is absent. */
  datatype LibraryEntry = LibraryEntry(
    id: Option<Id>, name: string, manufacturer: string, mode: string, channels: int)

  /** `!nt.name || !nt.manufacturer || !nt.channels` fails: the entry is considered at all. */
  predicate Importable(nt: LibraryEntry) {
    nt.name != "" && nt.manufacturer != "" && nt.channels != 0
  }

  /** A type the library can offer: named, from a manufacturer, with a non-zero channel count. */
  predicate Usable(t: FixtureType) {
    t.name != "" && t.manufacturer != "" && t.channels != 0
  }

  /** The `findIndex` test: same id, or same manufacturer, name and mode. */
  predicate Matches(pt: FixtureType, nt: LibraryEntry) {
    (nt.id.Some? && pt.id == nt.id.value)
    || (pt.manufacturer == nt.manufacturer && pt.name == nt.name && pt.mode == nt.mode)
  }

  /** `merged.findIndex(pt => ...)`: the first type the entry matches. */
  function MatchIndex(merged: seq<FixtureType>, nt: LibraryEntry): (r: Option<nat>)
    ensures r.None? <==> forall k | 0 <= k < |merged| :: !Matches(merged[k], nt)
    ensures r.Some? ==> (r.value < |merged| && Matches(merged[r.value], nt)
      && forall k | 0 <= k < r.value :: !Matches(merged[k], nt))
  {
    if |merged| == 0 then None
    else if Matches(merged[0], nt) then Some(0)
    else match MatchIndex(merged[1..], nt)
      case None => None
      case Some(k) => Some(k + 1)
  }

  /** `{ ...pt, ...nt }`: every field the entry carries wins; an absent id keeps the old one. */
  function Absorb(pt: FixtureType, nt: LibraryEntry): FixtureType {
    FixtureType(nt.id.GetOr(pt.id), nt.name, nt.manufacturer, nt.mode, nt.channels)
  }

  /** `nt.id ? nt : { ...nt, id: fresh }`: an absent or empty id is replaced by the fresh one. */
  function AsNew(nt: LibraryEntry, freshId: Id): FixtureType {
    FixtureType(if nt.id.Some? && nt.id.value != "" then nt.id.value else freshId,
                nt.name, nt.manufacturer, nt.mode, nt.channels)
  }

  /** `t` holds the entry's name, manufacturer, mode and channel count. */
  predicate Carries(t: FixtureType, nt: LibraryEntry) {
    t.name == nt.name && t.manufacturer == nt.manufacturer && t.mode == nt.mode && t.channels == nt.channels
  }

  /** One iteration of the import's `forEach`. */
  function MergeOne(merged: seq<FixtureType>, nt: LibraryEntry, freshId: Id): (r: seq<FixtureType>)
    ensures !Importable(nt) ==> r == merged
    ensures Importable(nt) && MatchIndex(merged, nt).Some? ==>
      var k := MatchIndex(merged, nt).value;
      && |r| == |merged| && Carries(r[k], nt)
      && r[k].id == (if nt.id.Some? then nt.id.value else merged[k].id)
      && (forall j | 0 <= j < |merged| && j != k :: r[j] == merged[j])
    ensures Importable(nt) && MatchIndex(merged, nt).None? ==>
      |r| == |merged| + 1 && r[..|merged|] == merged && Carries(r[|merged|], nt)
      && r[|merged|].id == (if nt.id.Some? && nt.id.value != "" then nt.id.value else freshId)
  {
    if !Importable(nt) then merged
    else match MatchIndex(merged, nt)
      case Some(k) => merged[k := Absorb(merged[k], nt)]
      case None => merged + [AsNew(nt, freshId)]
  }

  /** The `forEach` over the imported entries from position `k` on; entry `k` may use `freshIds[k]`. */
  function MergeFrom(merged: seq<FixtureType>, imports: seq<LibraryEntry>, freshIds: seq<Id>, k: nat): (r: seq<FixtureType>)
    requires |freshIds| == |imports|
    decreases |imports| - k
  {
    if k >= |imports| then merged
    else MergeFrom(MergeOne(merged, imports[k], freshIds[k]), imports, freshIds, k + 1)
  }

  /**
   * The library after importing `imports` on top of `prev`; `freshIds[k]` is
   * the id generated for entry `k` should it need one.
   */
  function MergeLibrary(prev: seq<FixtureType>, imports: seq<LibraryEntry>, freshIds: seq<Id>): seq<FixtureType>
    requires |freshIds| == |imports|
  {
    MergeFrom(prev, imports, freshIds, 0)
  }

  /**
   * The import never drops or reorders a type: the library grows by at most
   * one type per importable entry, and every type already present keeps its
   * position (its fields may be overwritten).
   */
  lemma {:induction false} MergeFromGrows(merged: seq<FixtureType>, imports: seq<LibraryEntry>, freshIds: seq<Id>, k: nat)
    requires |freshIds| == |imports| && k <= |imports|
    ensures |merged| <= |MergeFrom(merged, imports, freshIds, k)| <= |merged| + (|imports| - k)
    ensures (forall j | k <= j < |imports| :: !Importable(imports[j])) ==> MergeFrom(merged, imports, freshIds, k) == merged
    decreases |imports| - k
  {
    if k < |imports| {
      MergeFromGrows(MergeOne(merged, imports[k], freshIds[k]), imports, freshIds, k + 1);
    }
  }

  /** Importing keeps every type of the library usable: no blank name or manufacturer, no zero channel count. */
  lemma {:induction false} MergeFromKeepsUsable(merged: seq<FixtureType>, imports: seq<LibraryEntry>, freshIds: seq<Id>, k: nat)
    requires |freshIds| == |imports| && k <= |imports|
    requires forall t | t in merged :: Usable(t)
    ensures forall t | t in MergeFrom(merged, imports, freshIds, k) :: Usable(t)
    decreases |imports| - k
  {
    if k < |imports| {
      var next := MergeOne(merged, imports[k], freshIds[k]);
      forall t | t in next
        ensures Usable(t)
      {
        var j :| 0 <= j < |next| && next[j] == t;
        if j < |merged| && next[j] != merged[j] {
          assert Carries(t, imports[k]);
        } else if j < |merged| {
          assert merged[j] in merged;
        }
      }
      MergeFromKeepsUsable(next, imports, freshIds, k + 1);
    }
  }

  /**
   * When no imported entry carries an id, every type already in the
   * library keeps its id (and position), so fixtures that refer to it still
   * resolve.
   */
  lemma {:induction false} MergeFromKeepsIds(merged: seq<FixtureType>, imports: seq<LibraryEntry>, freshIds: seq<Id>, k: nat)
    requires |freshIds| == |imports| && k <= |imports|
    requires forall j | k <= j < |imports| :: imports[j].id.None?
    ensures var r := MergeFrom(merged, imports, freshIds, k);
      |merged| <= |r| && forall j | 0 <= j < |merged| :: r[j].id == merged[j].id
    decreases |imports| - k
  {
    if k < |imports| {
      var next := MergeOne(merged, imports[k], freshIds[k]);
      MergeFromKeepsIds(next, imports, freshIds, k + 1);
    }
  }

  /**
   * Importing the same entry twice in a row changes nothing the second
   * time, unless it brings an empty id (the appended copy got a fresh id,
   * which the spread would then overwrite with the empty one).
   */
  lemma MergeOneIdempotent(merged: seq<FixtureType>, nt: LibraryEntry, freshId: Id, freshId': Id)
    requires nt.id != Some("")
    ensures MergeOne(MergeOne(merged, nt, freshId), nt, freshId') == MergeOne(merged, nt, freshId)
  {
    if Importable(nt) {
      var once := MergeOne(merged, nt, freshId);
      match MatchIndex(merged, nt)
      case Some(k) =>
        assert MatchIndex(once, nt) == Some(k) by {
          MatchIndexFirst(once, nt, k);
        }
      case None =>
        MatchIndexFirst(once, nt, |merged|);
    }
  }

  /** Position `k` matches and nothing before it does, so `findIndex` returns `k`. */
  lemma MatchIndexFirst(xs: seq<FixtureType>, nt: LibraryEntry, k: nat)
    requires k < |xs| && Matches(xs[k], nt)
    requires forall j | 0 <= j < k :: !Matches(xs[j], nt)
    ensures MatchIndex(xs, nt) == Some(k)
  {
  }

  /**
   * An entry matched by manufacturer, name and mode but carrying another id
   * renames the existing type: a fixture patched with the old id no longer
   * finds its type.
   */
  lemma MatchByModelRenames()
    ensures var prev := [FixtureType("p1", "Par", "Acme", "1ch", 1)];
      var r := MergeLibrary(prev, [LibraryEntry(Some("x9"), "Par", "Acme", "1ch", 1)], ["fresh"]);
      FindType(prev, "p1").Some? && r == [FixtureType("x9", "Par", "Acme", "1ch", 1)] && FindType(r, "p1").None?
  {
    var prev := [FixtureType("p1", "Par", "Acme", "1ch", 1)];
    var nt := LibraryEntry(Some("x9"), "Par", "Acme", "1ch", 1);
    assert MatchIndex(prev, nt) == Some(0);
    assert MergeOne(prev, nt, "fresh") == [FixtureType("x9", "Par", "Acme", "1ch", 1)];
  }
}

=== FILE: numbering.dfy ===
/**
 * Numbering helpers of the add form: the next sequence number for generated
 * names (`getNextSequenceNumber`) and the default FID offered for a new
 * fixture (highest FID plus one).
 */
module Numbering {
  import opened Wrappers
  import opened Text
  import opened Patch

  /**
   * `name.match(/^<base> (\d+)$/)` with `<base>` escaped to match literally,
   * followed by `parseInt` of the captured digits.
   */
  function SuffixNumber(name: string, base: string): Option<nat> {
    var n := |base|;
    if |name| >= n + 2 && name[..n] == base && name[n] == ' ' && AllDigits(name[n + 1..])
    then Some(ParseDigits(name[n + 1..]))
    else None
  }

  /** The generated name `<base> <n>` carries the number `n`. */
  function NumberedName(base: string, n: nat): string {
    base + " " + NatToString(n)
  }

  lemma SuffixOfNumberedName(base: string, n: nat)
    ensures SuffixNumber(NumberedName(base, n), base) == Some(n)
  {
    var name := NumberedName(base, n);
    assert name[..|base|] == base;
    assert name[|base| + 1..] == NatToString(n);
    ParseNatToString(n);
  }

  /** `f` is of type `typeId` and its name carries a number after `base`. */
  predicate Numbered(f: Fixture, typeId: Id, base: string) {
    f.typeId == typeId && SuffixNumber(f.name, base).Some?
  }

  /** The `forEach` keeping the largest number seen, starting from 0. */
  function MaxSuffix(fs: seq<Fixture>, typeId: Id, base: string): (m: nat)
    ensures forall f | f in fs && Numbered(f, typeId, base) :: SuffixNumber(f.name, base).value <= m
    ensures m > 0 ==> exists f | f in fs && Numbered(f, typeId, base) :: SuffixNumber(f.name, base).value == m
    decreases |fs|
  {
    if |fs| == 0 then 0
    else
      var front := fs[..|fs| - 1];
      var f := fs[|fs| - 1];
      var m := MaxSuffix(front, typeId, base);
      assert forall g | g in fs :: g in front || g == f;
      assert forall g | g in front :: g in fs;
      if Numbered(f, typeId, base) && SuffixNumber(f.name, base).value > m
      then SuffixNumber(f.name, base).value
      else m
  }

  /** `fixtures.filter(f => f.typeId === typeId).length`. */
  function CountOfType(fs: seq<Fixture>, typeId: Id): (c: nat)
    ensures c == 0 <==> forall f | f in fs :: f.typeId != typeId
    decreases |fs|
  {
    if |fs| == 0 then 0
    else
      assert forall g | g in fs :: g == fs[0] || g in fs[1..];
      (if fs[0].typeId == typeId then 1 else 0) + CountOfType(fs[1..], typeId)
  }

  /**
   * `getNextSequenceNumber(typeId, base)`: one past the largest number
   * carried by a same-type `<base> <n>` name; the same-type count plus one
   * when no such name carries a positive number; 1 when there is no fixture
   * of that type.
   */
  function NextSequenceNumber(fs: seq<Fixture>, typeId: Id, base: string): (r: nat)
    ensures r >= 1
    ensures forall f | f in fs && Numbered(f, typeId, base) :: SuffixNumber(f.name, base).value < r
    ensures (forall f | f in fs :: f.typeId != typeId) ==> r == 1
    ensures (exists f | f in fs && Numbered(f, typeId, base) :: SuffixNumber(f.name, base).value > 0) ==>
      exists f | f in fs && Numbered(f, typeId, base) :: SuffixNumber(f.name, base).value == r - 1
    ensures (forall f | f in fs && Numbered(f, typeId, base) :: SuffixNumber(f.name, base).value == 0) ==>
      r == CountOfType(fs, typeId) + 1
  {
    var count := CountOfType(fs, typeId);
    if count == 0 then 1
    else
      var m := MaxSuffix(fs, typeId, base);
      if m > 0 then m + 1 else count + 1
  }

  /**
   * Naming continues across batches: after appending fixtures of the type
   * named `<base> <s>`, `<base> <s+1>`, ... from the current next number
   * `s`, the next number is `s` plus the batch size.
   */
  lemma NumberingContinues(fs: seq<Fixture>, added: seq<Fixture>, typeId: Id, base: string)
    requires |added| >= 1
    requires forall k | 0 <= k < |added| ::
      added[k].typeId == typeId && added[k].name == NumberedName(base, NextSequenceNumber(fs, typeId, base) + k)
    ensures NextSequenceNumber(fs + added, typeId, base) == NextSequenceNumber(fs, typeId, base) + |added|
  {
    var s := NextSequenceNumber(fs, typeId, base);
    var all := fs + added;
    var top := s + |added| - 1;
    forall k | 0 <= k < |added|
      ensures Numbered(added[k], typeId, base) && SuffixNumber(added[k].name, base).value == s + k
    {
      SuffixOfNumberedName(base, s + k);
    }
    var last := added[|added| - 1];
    assert last in all && Numbered(last, typeId, base) && SuffixNumber(last.name, base).value == top;
    forall f | f in all && Numbered(f, typeId, base)
      ensures SuffixNumber(f.name, base).value <= top
    {
      if f !in fs {
        var k :| 0 <= k < |added| && added[k] == f;
      }
    }
    var r := NextSequenceNumber(all, typeId, base);
    assert r - 1 <= top;
  }

  /** `Math.max(...fixtures.map(f => f.fid))` for a non-empty list. */
  function MaxFid(fs: seq<Fixture>): (m: int)
    requires |fs| > 0
    ensures forall f | f in fs :: f.fid <= m
    ensures m in Fids(fs)
    decreases |fs|
  {
    if |fs| == 1 then fs[0].fid
    else
      var m := MaxFid(fs[1..]);
      assert forall g | g in fs :: g == fs[0] || g in fs[1..];
      assert forall g | g in fs[1..] :: g in fs;
      if fs[0].fid > m then fs[0].fid else m
  }

  /**
   * The FID the add form proposes: one past the highest FID in use, or 1 on
   * an empty patch. Every FID from there upwards is unused.
   */
  function DefaultNextFid(fs: seq<Fixture>): (r: int)
    ensures forall x | x in Fids(fs) :: x < r
    ensures |fs| > 0 ==> r - 1 in Fids(fs)
    ensures |fs| == 0 ==> r == 1
  {
    if |fs| > 0 then MaxFid(fs) + 1 else 1
  }
}

=== FILE: occupancy.dfy ===
/**
 * The occupancy index (`universeData`): for every universe that holds at
 * least one fixture with a resolvable type, 512 slots naming the fixture on
 * each address. Rebuilt from the fixture list on every read.
 */
module Occupancy {
  import opened Wrappers
  import opened Patch

  /** Slot `k` stands for DMX address `k + 1`. */
  type Slots = seq<Option<Id>>

  /**
   * One row of the index. The array writes skip only indices from 512 on,
   * so a fixture patched below address 1 writes negative indices; a
   * JavaScript array keeps those as ordinary keys, held here in `below`
   * (key `k` stands for address `k + 1`).
   */
  datatype Row = Row(slots: Slots, below: map<int, Id>)

  /** `new Array(512).fill(null)`. */
  function EmptySlots(): (r: Slots)
    ensures |r| == UniverseSize
    ensures forall k | 0 <= k < |r| :: r[k].None?
  {
    seq(UniverseSize, _ => None)
  }

  function EmptyRow(): Row {
    Row(EmptySlots(), map[])
  }

  /**
   * Writes `id` over the slots of the footprint `address .. address + channels - 1`
   * that lie within 1..512.
   */
  function Paint(slots: Slots, id: Id, address: int, channels: int): (r: Slots)
    requires |slots| == UniverseSize
    ensures |r| == UniverseSize
  {
    seq(UniverseSize, k requires 0 <= k < UniverseSize =>
      if address <= k + 1 < address + channels then Some(id) else slots[k])
  }

  /**
   * Writes `id` under the negative keys among `lo .. hi - 1`, one key after
   * the other as the loop does (keys from 0 on are array slots).
   */
  function PaintBelow(below: map<int, Id>, id: Id, lo: int, hi: int): (r: map<int, Id>)
    ensures forall k :: k in r <==> k in below || (lo <= k < hi && k < 0)
    ensures forall k | k in r :: r[k] == if lo <= k < hi && k < 0 then id else below[k]
    decreases hi - lo
  {
    if lo >= hi || lo >= 0 then below else PaintBelow(below[lo := id], id, lo + 1, hi)
  }

  /** The loop `for (i = 0; i < channels; i++)` writing the footprint into a row. */
  function PaintRow(row: Row, id: Id, address: int, channels: int): (r: Row)
    requires |row.slots| == UniverseSize
    ensures |r.slots| == UniverseSize
  {
    Row(Paint(row.slots, id, address, channels), PaintBelow(row.below, id, address - 1, address + channels - 1))
  }

  /**
   * `row[address - 1]` for an address the validator reads (at most 512):
   * an array slot from address 1 on, a negative key below it; a key never
   * written reads as empty.
   */
  function Cell(row: Row, address: int): Option<Id>
    requires |row.slots| == UniverseSize
  {
    if 1 <= address <= UniverseSize then row.slots[address - 1]
    else if address < 1 && address - 1 in row.below then Some(row.below[address - 1])
    else None
  }

  ghost predicate FullRows(index: map<int, Row>) {
    forall u | u in index :: |index[u].slots| == UniverseSize
  }

  /** One iteration of the `fixtures.forEach` building the index. */
  function Mark(index: map<int, Row>, f: Fixture, types: seq<FixtureType>): (r: map<int, Row>)
    requires FullRows(index)
    ensures FullRows(r)
  {
    match FindType(types, f.typeId)
    case None => index
    case Some(t) =>
      var row := if f.universe in index then index[f.universe] else EmptyRow();
      index[f.universe := PaintRow(row, f.id, f.address, t.channels)]
  }

  /** `universeData`: the index built by marking the fixtures in list order. */
  function UniverseIndex(fs: seq<Fixture>, types: seq<FixtureType>): (index: map<int, Row>)
    ensures FullRows(index)
    decreases |fs|
  {
    if |fs| == 0 then map[]
    else Mark(UniverseIndex(fs[..|fs| - 1], types), fs[|fs| - 1], types)
  }

  /** `universeData[u]`, a missing universe read as an empty row. */
  function RowOf(index: map<int, Row>, u: int): (r: Row)
    requires FullRows(index)
    ensures |r.slots| == UniverseSize
  {
    if u in index then index[u] else EmptyRow()
  }

  function UniverseRow(fs: seq<Fixture>, types: seq<FixtureType>, u: int): (r: Row)
    ensures |r.slots| == UniverseSize
  {
    RowOf(UniverseIndex(fs, types), u)
  }

  /** `universeData[u] || new Array(512).fill(null)`: the 512 array slots the finder scans. */
  function UniverseSlots(fs: seq<Fixture>, types: seq<FixtureType>, u: int): (r: Slots)
    ensures |r| == UniverseSize
  {
    UniverseRow(fs, types, u).slots
  }

  /** `fs[j]` sits on address `a` of universe `u` and no later fixture does. */
  ghost predicate LastOccupant(fs: seq<Fixture>, types: seq<FixtureType>, u: int, a: int, j: int) {
    0 <= j < |fs| && Occupies(fs[j], types, u, a)
    && forall j' | j < j' < |fs| :: !Occupies(fs[j'], types, u, a)
  }

  /** Marking one fixture repaints its own universe's row and leaves every other row alone. */
  lemma MarkRow(index: map<int, Row>, f: Fixture, types: seq<FixtureType>, u: int)
    requires FullRows(index)
    ensures RowOf(Mark(index, f, types), u)
      == if FindType(types, f.typeId).Some? && f.universe == u
         then PaintRow(RowOf(index, u), f.id, f.address, Channels(f, types))
         else RowOf(index, u)
  {
  }

  /** The cell of address `a` (at most 512) after marking the last fixture of `fs`. */
  lemma LastMarked(fs: seq<Fixture>, types: seq<FixtureType>, u: int, a: int)
    requires |fs| > 0 && a <= UniverseSize
    ensures Cell(UniverseRow(fs, types, u), a)
      == if Occupies(fs[|fs| - 1], types, u, a) then Some(fs[|fs| - 1].id)
         else Cell(UniverseRow(fs[..|fs| - 1], types, u), a)
  {
    MarkRow(UniverseIndex(fs[..|fs| - 1], types), fs[|fs| - 1], types, u);
  }

  /** The last occupant among all but the last fixture stays last when the last fixture is elsewhere. */
  lemma LastOccupantExtends(fs: seq<Fixture>, types: seq<FixtureType>, u: int, a: int, j: int)
    requires |fs| > 0 && !Occupies(fs[|fs| - 1], types, u, a)
    requires LastOccupant(fs[..|fs| - 1], types, u, a, j)
    ensures LastOccupant(fs, types, u, a, j)
  {
    var front := fs[..|fs| - 1];
    assert fs[j] == front[j];
    forall j' | j < j' < |fs|
      ensures !Occupies(fs[j'], types, u, a)
    {
      if j' < |front| {
        assert fs[j'] == front[j'];
      }
    }
  }

  /**
   * The index marks the cell of an address up to 512 exactly when some
   * fixture of that universe with a resolvable type covers it, and then with
   * the id of the last such fixture.
   */
  lemma {:induction false} CellContents(fs: seq<Fixture>, types: seq<FixtureType>, u: int, a: int)
    requires a <= UniverseSize
    ensures Cell(UniverseRow(fs, types, u), a).None?
      <==> forall j | 0 <= j < |fs| :: !Occupies(fs[j], types, u, a)
    ensures Cell(UniverseRow(fs, types, u), a).Some? ==>
      exists j :: LastOccupant(fs, types, u, a, j) && fs[j].id == Cell(UniverseRow(fs, types, u), a).value
    decreases |fs|
  {
    if |fs| > 0 {
      var n := |fs| - 1;
      var front := fs[..n];
      CellContents(front, types, u, a);
      LastMarked(fs, types, u, a);
      assert forall j | 0 <= j < n :: front[j] == fs[j];
      if Occupies(fs[n], types, u, a) {
        assert LastOccupant(fs, types, u, a, n);
      } else if Cell(UniverseRow(front, types, u), a).Some? {
        var j :| LastOccupant(front, types, u, a, j) && front[j].id == Cell(UniverseRow(front, types, u), a).value;
        LastOccupantExtends(fs, types, u, a, j);
      }
    }
  }

  /** A universe gets an entry exactly when some fixture with a resolvable type names it. */
  lemma {:induction false} IndexEntries(fs: seq<Fixture>, types: seq<FixtureType>, u: int)
    ensures u in UniverseIndex(fs, types)
      <==> exists j | 0 <= j < |fs| :: fs[j].universe == u && FindType(types, fs[j].typeId).Some?
    decreases |fs|
  {
    if |fs| > 0 {
      var n := |fs| - 1;
      IndexEntries(fs[..n], types, u);
      assert forall j | 0 <= j < n :: fs[..n][j] == fs[j];
    }
  }

  /** In a patch without overlaps every covered cell names its one occupant. */
  lemma SoleOccupant(fs: seq<Fixture>, types: seq<FixtureType>, u: int, j: int, a: int)
    requires NoOverlap(fs, types)
    requires 0 <= j < |fs| && Occupies(fs[j], types, u, a) && a <= UniverseSize
    ensures Cell(UniverseRow(fs, types, u), a) == Some(fs[j].id)
  {
    CellContents(fs, types, u, a);
    var c := Cell(UniverseRow(fs, types, u), a);
    var j' :| LastOccupant(fs, types, u, a, j') && fs[j'].id == c.value;
    if j' != j {
      assert j < j';
      DisjointNoShared(fs[j], fs[j'], types, u, a);
    }
  }
}

=== FILE: ordering.dfy ===
/**
 * The two orderings of the patch: the fixture list's column sort (key and
 * direction) and the PDF report's two-level sort with the fixed-rig filter.
 * `localeCompare` is stood in for by `StrCompare`.
 */
module Ordering {
  import opened Wrappers
  import opened Text
  import opened Seqs
  import opened Patch
  import opened Sorting

  /** The sortable columns of the fixture list. */
  datatype SortKey = ByFid | ByName | ByType | ByPatch | ByLocation

  datatype SortDirection = Asc | Desc

  /** `getFixtureTypeData(f.typeId)?.name || ''`. */
  function TypeName(types: seq<FixtureType>, f: Fixture): string {
    match FindType(types, f.typeId)
    case Some(t) => t.name
    case None => ""
  }

  /** The ascending comparison of one column. */
  function KeyCompare(types: seq<FixtureType>, key: SortKey, a: Fixture, b: Fixture): int {
    match key
    case ByFid => a.fid - b.fid
    case ByName => StrCompare(a.name, b.name)
    case ByType => StrCompare(TypeName(types, a), TypeName(types, b))
    case ByLocation => StrCompare(a.location, b.location)
    case ByPatch => if a.universe != b.universe then a.universe - b.universe else a.address - b.address
  }

  /** The list's comparator: the column's comparison, negated when descending. */
  function ListCompare(types: seq<FixtureType>, key: SortKey, dir: SortDirection, a: Fixture, b: Fixture): int {
    var c := KeyCompare(types, key, a, b);
    if dir == Asc then c else -c
  }

  /** The comparator as a function value, for the sort. */
  function ListOrder(types: seq<FixtureType>, key: SortKey, dir: SortDirection): (Fixture, Fixture) -> int {
    (a: Fixture, b: Fixture) => ListCompare(types, key, dir, a, b)
  }

  /** The strict order each ascending column stands for. */
  predicate KeyBefore(types: seq<FixtureType>, key: SortKey, a: Fixture, b: Fixture) {
    match key
    case ByFid => a.fid < b.fid
    case ByName => StrCompare(a.name, b.name) < 0
    case ByType => StrCompare(TypeName(types, a), TypeName(types, b)) < 0
    case ByLocation => StrCompare(a.location, b.location) < 0
    case ByPatch => a.universe < b.universe || (a.universe == b.universe && a.address < b.address)
  }

  /**
   * Ascending puts `a` first exactly when it is before `b` in the column's
   * order (lower FID; lower universe, then lower address; ...), and
   * descending exactly when `b` is before `a`.
   */
  lemma ListCompareMeaning(types: seq<FixtureType>, key: SortKey, a: Fixture, b: Fixture)
    ensures ListCompare(types, key, Asc, a, b) < 0 <==> KeyBefore(types, key, a, b)
    ensures ListCompare(types, key, Desc, a, b) < 0 <==> KeyBefore(types, key, b, a)
  {
    StrCompareAntisymmetric(a.name, b.name);
    StrCompareAntisymmetric(TypeName(types, a), TypeName(types, b));
    StrCompareAntisymmetric(a.location, b.location);
  }

  /** The list comparator swaps sign with its arguments and ties an element with itself. */
  lemma ListCompareAntisymmetric(types: seq<FixtureType>, key: SortKey, dir: SortDirection, a: Fixture, b: Fixture)
    ensures ListCompare(types, key, dir, a, b) == -ListCompare(types, key, dir, b, a)
    ensures ListCompare(types, key, dir, a, a) == 0
  {
    StrCompareAntisymmetric(a.name, b.name);
    StrCompareAntisymmetric(TypeName(types, a), TypeName(types, b));
    StrCompareAntisymmetric(a.location, b.location);
    StrCompareZeroIffEqual(a.name, a.name);
    StrCompareZeroIffEqual(TypeName(types, a), TypeName(types, a));
    StrCompareZeroIffEqual(a.location, a.location);
  }

  /** The ascending column comparison chains. */
  lemma KeyCompareTransitive(types: seq<FixtureType>, key: SortKey, a: Fixture, b: Fixture, c: Fixture)
    requires KeyCompare(types, key, a, b) <= 0 && KeyCompare(types, key, b, c) <= 0
    ensures KeyCompare(types, key, a, c) <= 0
  {
    match key
    case ByName => StrCompareTransitive(a.name, b.name, c.name);
    case ByType => StrCompareTransitive(TypeName(types, a), TypeName(types, b), TypeName(types, c));
    case ByLocation => StrCompareTransitive(a.location, b.location, c.location);
    case _ =>
  }

  /** The list comparator, in either direction, chains. */
  lemma ListCompareTransitive(types: seq<FixtureType>, key: SortKey, dir: SortDirection, a: Fixture, b: Fixture, c: Fixture)
    requires ListCompare(types, key, dir, a, b) <= 0 && ListCompare(types, key, dir, b, c) <= 0
    ensures ListCompare(types, key, dir, a, c) <= 0
  {
    if dir == Asc {
      KeyCompareTransitive(types, key, a, b, c);
    } else {
      ListCompareAntisymmetric(types, key, Asc, a, b);
      ListCompareAntisymmetric(types, key, Asc, b, c);
      ListCompareAntisymmetric(types, key, Asc, a, c);
      KeyCompareTransitive(types, key, c, b, a);
    }
  }

  /** The list comparator is a total preorder on any list of fixtures. */
  lemma ListOrderIsPreorder(types: seq<FixtureType>, key: SortKey, dir: SortDirection, xs: seq<Fixture>)
    ensures TotalOn(xs, ListOrder(types, key, dir))
    ensures TransitiveOn(xs, ListOrder(types, key, dir))
  {
    var cmp := ListOrder(types, key, dir);
    forall a, b | a in xs && b in xs
      ensures cmp(a, b) <= 0 || cmp(b, a) <= 0
    {
      ListCompareAntisymmetric(types, key, dir, a, b);
    }
    forall a, b, c | a in xs && b in xs && c in xs && cmp(a, b) <= 0 && cmp(b, c) <= 0
      ensures cmp(a, c) <= 0
    {
      ListCompareTransitive(types, key, dir, a, b, c);
    }
  }

  /** The list in the chosen column's order: a permutation ordered by the comparator. */
  function SortList(types: seq<FixtureType>, key: SortKey, dir: SortDirection, xs: seq<Fixture>): (r: seq<Fixture>)
    ensures multiset(r) == multiset(xs)
    ensures SortedBy(r, ListOrder(types, key, dir))
  {
    ListOrderIsPreorder(types, key, dir, xs);
    SortSorted(ListOrder(types, key, dir), xs);
    Sort(ListOrder(types, key, dir), xs)
  }

  /**
   * A list is in descending order of a column exactly when its reverse is
   * in ascending order.
   */
  lemma DescendingIsReversedAscending(types: seq<FixtureType>, key: SortKey, xs: seq<Fixture>)
    ensures SortedBy(xs, ListOrder(types, key, Desc)) <==> SortedBy(Reverse(xs), ListOrder(types, key, Asc))
  {
    var ys := Reverse(xs);
    var n := |xs|;
    if SortedBy(xs, ListOrder(types, key, Desc)) {
      forall i, j | 0 <= i < j < n
        ensures ListCompare(types, key, Asc, ys[i], ys[j]) <= 0
      {
        assert ListCompare(types, key, Desc, xs[n - 1 - j], xs[n - 1 - i]) <= 0;
        ListCompareAntisymmetric(types, key, Asc, ys[i], ys[j]);
      }
    }
    if SortedBy(ys, ListOrder(types, key, Asc)) {
      forall i, j | 0 <= i < j < n
        ensures ListCompare(types, key, Desc, xs[i], xs[j]) <= 0
      {
        assert ListCompare(types, key, Asc, ys[n - 1 - j], ys[n - 1 - i]) <= 0;
        ListCompareAntisymmetric(types, key, Asc, xs[j], xs[i]);
      }
    }
  }

  /** `xs` back to front. */
  function Reverse<T>(xs: seq<T>): (r: seq<T>)
    ensures |r| == |xs|
    ensures forall i | 0 <= i < |xs| :: r[i] == xs[|xs| - 1 - i]
  {
    seq(|xs|, i requires 0 <= i < |xs| => xs[|xs| - 1 - i])
  }

  // ---------------------------------------------------------------------
  // PDF report

  /** The six report orders: primary key, then secondary key on a tie. */
  datatype PdfMode = FidLoc | LocFid | PatchLoc | LocPatch | FidPatch | PatchFid

  /** `universe * 1000 + address`. */
  function PatchKey(f: Fixture): int {
    f.universe * 1000 + f.address
  }

  /** `a.location || ''` compared by `localeCompare`. */
  function LocCompare(a: Fixture, b: Fixture): int {
    StrCompare(a.location, b.location)
  }

  /** `first || second`: the second comparison only decides a tie of the first. */
  function Then(first: int, second: int): int {
    if first != 0 then first else second
  }

  /** The report comparator of each mode. */
  function PdfCompare(mode: PdfMode, a: Fixture, b: Fixture): int {
    match mode
    case FidLoc => Then(a.fid - b.fid, LocCompare(a, b))
    case LocFid => Then(LocCompare(a, b), a.fid - b.fid)
    case PatchLoc => Then(PatchKey(a) - PatchKey(b), LocCompare(a, b))
    case LocPatch => Then(LocCompare(a, b), PatchKey(a) - PatchKey(b))
    case FidPatch => Then(a.fid - b.fid, PatchKey(a) - PatchKey(b))
    case PatchFid => Then(PatchKey(a) - PatchKey(b), a.fid - b.fid)
  }

  /** The primary key of a report mode, as a comparison. */
  function Primary(mode: PdfMode, a: Fixture, b: Fixture): int {
    match mode
    case FidLoc | FidPatch => a.fid - b.fid
    case LocFid | LocPatch => LocCompare(a, b)
    case PatchLoc | PatchFid => PatchKey(a) - PatchKey(b)
  }

  /** The secondary key of a report mode, as a comparison. */
  function Secondary(mode: PdfMode, a: Fixture, b: Fixture): int {
    match mode
    case LocFid | PatchFid => a.fid - b.fid
    case FidLoc | PatchLoc => LocCompare(a, b)
    case LocPatch | FidPatch => PatchKey(a) - PatchKey(b)
  }

  /**
   * The report puts `a` first exactly when its primary key is lower, or the
   * primary keys tie and its secondary key is lower.
   */
  lemma PdfCompareLexicographic(mode: PdfMode, a: Fixture, b: Fixture)
    ensures PdfCompare(mode, a, b) < 0 <==>
      Primary(mode, a, b) < 0 || (Primary(mode, a, b) == 0 && Secondary(mode, a, b) < 0)
    ensures PdfCompare(mode, a, b) == 0 <==> Primary(mode, a, b) == 0 && Secondary(mode, a, b) == 0
  {
  }

  /**
   * Within addresses 0..999 the patch key orders by universe first and by
   * address within a universe.
   */
  lemma PatchKeyOrder(a: Fixture, b: Fixture)
    requires 0 <= a.address < 1000 && 0 <= b.address < 1000
    ensures PatchKey(a) < PatchKey(b) <==> a.universe < b.universe || (a.universe == b.universe && a.address < b.address)
    ensures PatchKey(a) == PatchKey(b) <==> a.universe == b.universe && a.address == b.address
  {
    if a.universe < b.universe {
      assert PatchKey(a) <= a.universe * 1000 + 999 < (a.universe + 1) * 1000 <= PatchKey(b);
    } else if a.universe > b.universe {
      assert PatchKey(b) <= b.universe * 1000 + 999 < (b.universe + 1) * 1000 <= PatchKey(a);
    }
  }

  /** The report comparator swaps sign with its arguments. */
  lemma PdfCompareAntisymmetric(mode: PdfMode, a: Fixture, b: Fixture)
    ensures PdfCompare(mode, a, b) < 0 <==> PdfCompare(mode, b, a) > 0
    ensures PdfCompare(mode, a, a) == 0
  {
    StrCompareAntisymmetric(a.location, b.location);
    StrCompareZeroIffEqual(a.location, a.location);
  }

  /** The report comparator chains. */
  lemma PdfCompareTransitive(mode: PdfMode, a: Fixture, b: Fixture, c: Fixture)
    requires PdfCompare(mode, a, b) <= 0 && PdfCompare(mode, b, c) <= 0
    ensures PdfCompare(mode, a, c) <= 0
  {
    StrCompareAntisymmetric(a.location, b.location);
    StrCompareAntisymmetric(b.location, c.location);
    StrCompareAntisymmetric(a.location, c.location);
    StrCompareZeroIffEqual(a.location, b.location);
    StrCompareZeroIffEqual(b.location, c.location);
    StrCompareZeroIffEqual(a.location, c.location);
    if LocCompare(a, b) <= 0 && LocCompare(b, c) <= 0 {
      StrCompareTransitive(a.location, b.location, c.location);
    }
  }

  function PdfOrder(mode: PdfMode): (Fixture, Fixture) -> int {
    (a: Fixture, b: Fixture) => PdfCompare(mode, a, b)
  }

  /** Each report comparator is a total preorder on any list of fixtures. */
  lemma PdfOrderIsPreorder(mode: PdfMode, xs: seq<Fixture>)
    ensures TotalOn(xs, PdfOrder(mode))
    ensures TransitiveOn(xs, PdfOrder(mode))
  {
    var cmp := PdfOrder(mode);
    forall a, b | a in xs && b in xs
      ensures cmp(a, b) <= 0 || cmp(b, a) <= 0
    {
      PdfCompareAntisymmetric(mode, a, b);
    }
    forall a, b, c | a in xs && b in xs && c in xs && cmp(a, b) <= 0 && cmp(b, c) <= 0
      ensures cmp(a, c) <= 0
    {
      PdfCompareTransitive(mode, a, b, c);
    }
  }

  /** `pdfIncludeFixed` off drops the fixed-rig fixtures before sorting. */
  function ReportRows(fs: seq<Fixture>, includeFixed: bool): (r: seq<Fixture>)
    ensures includeFixed ==> r == fs
    ensures !includeFixed ==> forall f | f in r :: !f.isFixed
    ensures !includeFixed ==> forall f | f in fs && !f.isFixed :: f in r
    ensures forall f :: multiset(r)[f] == if includeFixed || !f.isFixed then multiset(fs)[f] else 0
    ensures IsSubsequence(r, fs)
  {
    if includeFixed then SubsequenceOfSelf(fs); fs
    else Filter(fs, (f: Fixture) => !f.isFixed)
  }

  /**
   * The report's rows: the fixtures it includes, each exactly as often as
   * in the patch, ordered by the mode's comparator.
   */
  function ReportOrder(fs: seq<Fixture>, mode: PdfMode, includeFixed: bool): (r: seq<Fixture>)
    ensures multiset(r) == multiset(ReportRows(fs, includeFixed))
    ensures forall f :: multiset(r)[f] == if includeFixed || !f.isFixed then multiset(fs)[f] else 0
    ensures SortedBy(r, PdfOrder(mode))
  {
    var rows := ReportRows(fs, includeFixed);
    PdfOrderIsPreorder(mode, rows);
    SortSorted(PdfOrder(mode), rows);
    Sort(PdfOrder(mode), rows)
  }
}

=== FILE: patch.dfy ===
/**
 * The records of the patch (types.ts) and the invariants a committed patch is
 * meant to keep: every footprint inside 1..512 of a universe within the
 * ceiling, no two footprints overlapping, fixture ids and FIDs unique.
 */
module Patch {
  import opened Wrappers
  import opened Seqs

  /** Fixture and fixture-type identities are strings. */
  type Id = string

  /** Number of address slots in one DMX universe. */
  const UniverseSize: int := 512

  datatype FixtureType = FixtureType(
    id: Id, name: string, manufacturer: string, mode: string, channels: int)

  datatype Fixture = Fixture(
    id: Id, fid: int, name: string, typeId: Id,
    universe: int, address: int, color: string, location: string, isFixed: bool)

  /** A (universe, start address) pair: where a fixture is patched. */
  datatype Placement = Placement(universe: int, address: int)

  /** Position `i` holds the first type carrying `id`. */
  predicate FirstWithId(types: seq<FixtureType>, id: Id, i: int) {
    0 <= i < |types| && types[i].id == id && forall j | 0 <= j < i :: types[j].id != id
  }

  /** `parseInt(quantity) || 1`: an unparsable or zero quantity counts as one. */
  function Quantity(quantity: int): (q: int)
    ensures q != 0
    ensures quantity != 0 ==> q == quantity
  {
    if quantity == 0 then 1 else quantity
  }

  /** `fixtureTypes.find(t => t.id === id)`: the first type carrying `id`. */
  function FindType(types: seq<FixtureType>, id: Id): (r: Option<FixtureType>)
    ensures r.None? <==> forall i | 0 <= i < |types| :: types[i].id != id
    ensures r.Some? ==> r.value in types && r.value.id == id
  {
    if |types| == 0 then None
    else if types[0].id == id then Some(types[0])
    else FindType(types[1..], id)
  }

  /** A type that resolves is the one at the first position carrying its id. */
  lemma {:induction false} FindTypeFirst(types: seq<FixtureType>, id: Id) returns (i: nat)
    requires FindType(types, id).Some?
    ensures FirstWithId(types, id, i) && types[i] == FindType(types, id).value
    decreases |types|
  {
    if types[0].id == id {
      i := 0;
    } else {
      var k := FindTypeFirst(types[1..], id);
      i := k + 1;
      assert types[i] == types[1..][k];
    }
  }

  /** `fixtures.find(f => f.id === id)`. */
  function FindFixture(fs: seq<Fixture>, id: Id): (r: Option<Fixture>)
    ensures r.None? <==> forall i | 0 <= i < |fs| :: fs[i].id != id
    ensures r.Some? ==> r.value in fs && r.value.id == id
  {
    if |fs| == 0 then None
    else if fs[0].id == id then Some(fs[0])
    else FindFixture(fs[1..], id)
  }

  /** Footprint size of `f`; a fixture whose type does not resolve occupies nothing. */
  function Channels(f: Fixture, types: seq<FixtureType>): int {
    match FindType(types, f.typeId)
    case Some(t) => t.channels
    case None => 0
  }

  /** `f` sits on `address` of universe `u` (its type resolves and the address is in its footprint). */
  predicate Occupies(f: Fixture, types: seq<FixtureType>, u: int, address: int) {
    FindType(types, f.typeId).Some? && f.universe == u
    && f.address <= address < f.address + Channels(f, types)
  }

  function Fids(fs: seq<Fixture>): set<int> {
    set f | f in fs :: f.fid
  }

  function Ids(fs: seq<Fixture>): set<Id> {
    set f | f in fs :: f.id
  }

  /** No two fixtures of the list share an id. */
  predicate UniqueIds(fs: seq<Fixture>) {
    forall i, j | 0 <= i < j < |fs| :: fs[i].id != fs[j].id
  }

  /** A single fixture's own invariants. */
  predicate Placed(f: Fixture, types: seq<FixtureType>, maxUniverses: int) {
    && f.id != ""
    && f.fid >= 1
    && FindType(types, f.typeId).Some?
    && Channels(f, types) >= 1
    && 1 <= f.address && f.address + Channels(f, types) - 1 <= UniverseSize
    && 1 <= f.universe <= maxUniverses
  }

  /** Footprints of `f` and `g` share no (universe, address). */
  predicate Disjoint(f: Fixture, g: Fixture, types: seq<FixtureType>) {
    f.universe != g.universe
    || f.address + Channels(f, types) <= g.address
    || g.address + Channels(g, types) <= f.address
  }

  /** Two distinct fixtures of one patch: different ids, different FIDs, no overlap. */
  predicate Compatible(types: seq<FixtureType>, f: Fixture, g: Fixture) {
    f.id != g.id && f.fid != g.fid && Disjoint(f, g, types)
  }

  /** The invariants every committed patch is meant to satisfy. */
  ghost predicate WellFormed(fs: seq<Fixture>, types: seq<FixtureType>, maxUniverses: int) {
    && (forall f | f in fs :: Placed(f, types, maxUniverses))
    && Pairwise(fs, (f, g) => Compatible(types, f, g))
  }

  /** No address is occupied by two fixtures at different positions of the list. */
  ghost predicate NoOverlap(fs: seq<Fixture>, types: seq<FixtureType>) {
    forall i, j | 0 <= i < j < |fs| :: Disjoint(fs[i], fs[j], types)
  }

  lemma WellFormedNoOverlap(fs: seq<Fixture>, types: seq<FixtureType>, maxUniverses: int)
    requires WellFormed(fs, types, maxUniverses)
    ensures NoOverlap(fs, types)
    ensures forall i, j | 0 <= i < j < |fs| :: fs[i].id != fs[j].id && fs[i].fid != fs[j].fid
    ensures UniqueIds(fs)
  {
    forall i, j | 0 <= i < j < |fs|
      ensures Compatible(types, fs[i], fs[j])
    {
      var rel := (f, g) => Compatible(types, f, g);
      assert rel(fs[i], fs[j]);
    }
  }

  /** Disjoint footprints never share an address. */
  lemma DisjointNoShared(f: Fixture, g: Fixture, types: seq<FixtureType>, u: int, a: int)
    requires Disjoint(f, g, types)
    ensures !(Occupies(f, types, u, a) && Occupies(g, types, u, a))
  {
  }
}

=== FILE: selection.dfy ===
/**
 * The multi-selection of the fixture list (`toggleSelection`, `toggleAll`,
 * `allSelected`): a set of fixture ids.
 */
module Selection {
  import opened Patch

  /** `toggleSelection`: drop `id` if it is selected, add it otherwise. */
  function Toggle(selected: set<Id>, id: Id): (r: set<Id>)
    ensures id in r <==> id !in selected
    ensures forall x | x != id :: x in r <==> x in selected
  {
    if id in selected then selected - {id} else selected + {id}
  }

  /**
   * `toggleAll`: a selection as large as the fixture list is cleared;
   * any other selection becomes every fixture's id.
   */
  function ToggleAll(selected: set<Id>, fs: seq<Fixture>): (r: set<Id>)
    ensures |selected| == |fs| ==> r == {}
    ensures |selected| != |fs| ==> forall x :: x in r <==> exists k | 0 <= k < |fs| :: fs[k].id == x
  {
    if |selected| == |fs| then {} else Ids(fs)
  }

  /** The header checkbox: a non-empty list whose size the selection matches. */
  predicate AllSelected(fs: seq<Fixture>, selected: set<Id>) {
    |fs| > 0 && |selected| == |fs|
  }

  /** With unique ids there are as many ids as fixtures. */
  lemma {:induction false} IdsCount(fs: seq<Fixture>)
    requires UniqueIds(fs)
    ensures |Ids(fs)| == |fs|
  {
    if |fs| > 0 {
      var init := fs[..|fs| - 1];
      var last := fs[|fs| - 1];
      IdsCount(init);
      assert Ids(fs) == Ids(init) + {last.id} by {
        assert forall f | f in fs :: f in init || f == last;
        assert forall f | f in init :: f in fs;
      }
      assert last.id !in Ids(init);
    }
  }

  /** A proper subset has fewer elements. */
  lemma ProperSubsetSmaller(a: set<Id>, b: set<Id>)
    requires a < b
    ensures |a| < |b|
  {
    var x :| x in b && x !in a;
    var rest := b - {x};
    assert rest == a + (rest - a) && a * (rest - a) == {};
  }

  /**
   * Toggle is an involution: toggling the same id twice gives the
   * selection back.
   */
  lemma ToggleTwice(selected: set<Id>, id: Id)
    ensures Toggle(Toggle(selected, id), id) == selected
  {
  }

  /**
   * For a selection drawn from a list with unique ids, the header checkbox
   * is ticked exactly when the list is non-empty and every fixture is
   * selected.
   */
  lemma AllSelectedIff(fs: seq<Fixture>, selected: set<Id>)
    requires UniqueIds(fs) && selected <= Ids(fs)
    ensures AllSelected(fs, selected) <==> |fs| > 0 && selected == Ids(fs)
  {
    IdsCount(fs);
    if selected != Ids(fs) {
      ProperSubsetSmaller(selected, Ids(fs));
    }
  }

  /**
   * For a selection drawn from a list with unique ids, "select all" selects
   * every fixture unless they all are, in which case it clears the
   * selection; pressed twice on an empty selection of a non-empty list it
   * ends empty again.
   */
  lemma ToggleAllFlips(fs: seq<Fixture>, selected: set<Id>)
    requires UniqueIds(fs) && selected <= Ids(fs)
    ensures ToggleAll(selected, fs) == (if selected == Ids(fs) then {} else Ids(fs))
    ensures |fs| > 0 ==> ToggleAll(ToggleAll({}, fs), fs) == {}
  {
    AllSelectedIff(fs, selected);
    IdsCount(fs);
  }
}

=== FILE: seqs.dfy ===
/** Generic sequence helpers: order-preserving filtering and pairwise properties. */
module Seqs {

  /** `sub` is obtained from `xs` by deleting elements, without reordering. */
  predicate IsSubsequence<T(==)>(sub: seq<T>, xs: seq<T>)
    decreases |xs|
  {
    if |sub| == 0 then true
    else if |xs| == 0 then false
    else if sub[0] == xs[0] then IsSubsequence(sub[1..], xs[1..])
    else IsSubsequence(sub, xs[1..])
  }

  /** `rel` holds of every pair taken in list order. */
  ghost predicate Pairwise<T>(xs: seq<T>, rel: (T, T) -> bool) {
    forall i, j | 0 <= i < j < |xs| :: rel(xs[i], xs[j])
  }

  /** Array.prototype.filter: keeps, in order, the elements `keep` accepts. */
  function Filter<T(!new)>(xs: seq<T>, keep: T -> bool): (r: seq<T>)
    ensures |r| <= |xs|
    ensures forall x | x in r :: x in xs && keep(x)
    ensures forall x | x in xs && keep(x) :: x in r
    ensures IsSubsequence(r, xs)
    ensures (forall i | 0 <= i < |xs| :: keep(xs[i])) ==> r == xs
    ensures forall x :: multiset(r)[x] == if keep(x) then multiset(xs)[x] else 0
  {
    if |xs| == 0 then []
    else
      var rest := Filter(xs[1..], keep);
      assert forall x | x in xs :: x == xs[0] || x in xs[1..];
      assert xs == [xs[0]] + xs[1..];
      if keep(xs[0]) then [xs[0]] + rest else rest
  }

  /** Every list is a subsequence of itself. */
  lemma {:induction false} SubsequenceOfSelf<T>(xs: seq<T>)
    ensures IsSubsequence(xs, xs)
    decreases |xs|
  {
    if |xs| > 0 {
      SubsequenceOfSelf(xs[1..]);
    }
  }

  lemma {:induction false} SubsequenceMembers<T>(sub: seq<T>, xs: seq<T>)
    requires IsSubsequence(sub, xs)
    ensures forall x | x in sub :: x in xs
    decreases |xs|
  {
    if |sub| == 0 {
    } else if sub[0] == xs[0] {
      SubsequenceMembers(sub[1..], xs[1..]);
      assert forall x | x in sub :: x == sub[0] || x in sub[1..];
    } else {
      SubsequenceMembers(sub, xs[1..]);
    }
  }

  /** A property of every ordered pair survives deleting elements. */
  lemma {:induction false} SubsequencePairwise<T>(sub: seq<T>, xs: seq<T>, rel: (T, T) -> bool)
    requires IsSubsequence(sub, xs)
    requires Pairwise(xs, rel)
    ensures Pairwise(sub, rel)
    decreases |xs|
  {
    if |sub| == 0 {
    } else if sub[0] == xs[0] {
      SubsequencePairwise(sub[1..], xs[1..], rel);
      SubsequenceMembers(sub[1..], xs[1..]);
      forall i, j | 0 <= i < j < |sub|
        ensures rel(sub[i], sub[j])
      {
        if i == 0 {
          var y := sub[j];
          assert y in sub[1..] by { assert sub[1..][j - 1] == y; }
          assert y in xs[1..];
          var m :| 0 <= m < |xs[1..]| && xs[1..][m] == y;
          assert xs[m + 1] == y;
        } else {
          assert sub[1..][i - 1] == sub[i] && sub[1..][j - 1] == sub[j];
        }
      }
    } else {
      assert Pairwise(xs[1..], rel) by {
        forall i, j | 0 <= i < j < |xs[1..]|
          ensures rel(xs[1..][i], xs[1..][j])
        {
          assert xs[1..][i] == xs[i + 1] && xs[1..][j] == xs[j + 1];
        }
      }
      SubsequencePairwise(sub, xs[1..], rel);
    }
  }

  /** A concatenation is pairwise related when both halves are and every cross pair is. */
  lemma PairwiseAppend<T>(xs: seq<T>, ys: seq<T>, rel: (T, T) -> bool)
    requires Pairwise(xs, rel) && Pairwise(ys, rel)
    requires forall i, j | 0 <= i < |xs| && 0 <= j < |ys| :: rel(xs[i], ys[j])
    ensures Pairwise(xs + ys, rel)
  {
    var zs := xs + ys;
    forall i, j | 0 <= i < j < |zs|
      ensures rel(zs[i], zs[j])
    {
      if j < |xs| {
        assert zs[i] == xs[i] && zs[j] == xs[j];
      } else if i < |xs| {
        assert zs[i] == xs[i] && zs[j] == ys[j - |xs|];
      } else {
        assert zs[i] == ys[i - |xs|] && zs[j] == ys[j - |xs|];
      }
    }
  }

  /**
   * Replacing one element keeps a pairwise relation when the newcomer is
   * related to everything before it and everything after it.
   */
  lemma PairwiseReplace<T>(xs: seq<T>, j: nat, x: T, rel: (T, T) -> bool)
    requires j < |xs| && Pairwise(xs, rel)
    requires forall i | 0 <= i < j :: rel(xs[i], x)
    requires forall i | j < i < |xs| :: rel(x, xs[i])
    ensures Pairwise(xs[j := x], rel)
  {
    var ys := xs[j := x];
    forall a, b | 0 <= a < b < |ys|
      ensures rel(ys[a], ys[b])
    {
      if a != j && b != j {
        assert ys[a] == xs[a] && ys[b] == xs[b];
      }
    }
  }

  /** Filters that agree on every element of the list keep the same elements. */
  lemma {:induction false} FilterExtensional<T(!new)>(xs: seq<T>, keep: T -> bool, keep': T -> bool)
    requires forall i | 0 <= i < |xs| :: keep(xs[i]) == keep'(xs[i])
    ensures Filter(xs, keep) == Filter(xs, keep')
  {
    if |xs| > 0 {
      FilterExtensional(xs[1..], keep, keep');
    }
  }
}

=== FILE: sorting.dfy ===
/**
 * `Array.prototype.sort` with a three-way comparator, modelled as a stable
 * insertion sort: the result is a permutation of the input, ordered by the
 * comparator whenever the comparator is a total preorder on the elements.
 */
module Sorting {

  /** Every earlier element compares at most equal to every later one. */
  predicate SortedBy<T>(xs: seq<T>, cmp: (T, T) -> int) {
    forall i, j | 0 <= i < j < |xs| :: cmp(xs[i], xs[j]) <= 0
  }

  /** Any two elements of `pool` are comparable one way or the other. */
  ghost predicate TotalOn<T>(pool: seq<T>, cmp: (T, T) -> int) {
    forall a, b {:trigger cmp(a, b)} | a in pool && b in pool :: cmp(a, b) <= 0 || cmp(b, a) <= 0
  }

  /** "At most" chains through elements of `pool`. */
  ghost predicate TransitiveOn<T>(pool: seq<T>, cmp: (T, T) -> int) {
    forall a, b, c {:trigger cmp(a, b), cmp(b, c)} | a in pool && b in pool && c in pool ::
      cmp(a, b) <= 0 && cmp(b, c) <= 0 ==> cmp(a, c) <= 0
  }

  /** Insert `x` before the first element it does not compare above. */
  function Insert<T>(cmp: (T, T) -> int, x: T, ys: seq<T>): (r: seq<T>)
    ensures |r| == |ys| + 1
    ensures multiset(r) == multiset(ys) + multiset{x}
  {
    if |ys| == 0 then [x]
    else if cmp(x, ys[0]) <= 0 then [x] + ys
    else
      var rest := Insert(cmp, x, ys[1..]);
      assert ys == [ys[0]] + ys[1..];
      [ys[0]] + rest
  }

  /** Insertion sort: the head is inserted into the sorted tail. */
  function Sort<T>(cmp: (T, T) -> int, xs: seq<T>): (r: seq<T>)
    ensures |r| == |xs|
    ensures multiset(r) == multiset(xs)
  {
    if |xs| == 0 then []
    else
      assert xs == [xs[0]] + xs[1..];
      Insert(cmp, xs[0], Sort(cmp, xs[1..]))
  }

  /** `b` compares at most equal to every element of `ys`. */
  ghost predicate Below<T>(b: T, ys: seq<T>, cmp: (T, T) -> int) {
    forall y | y in ys :: cmp(b, y) <= 0
  }

  /** A sorted list stays sorted behind a new head that is below all of it. */
  lemma ConsSorted<T>(cmp: (T, T) -> int, b: T, ys: seq<T>)
    requires SortedBy(ys, cmp) && Below(b, ys, cmp)
    ensures SortedBy([b] + ys, cmp)
  {
    var r := [b] + ys;
    forall i, j | 0 <= i < j < |r|
      ensures cmp(r[i], r[j]) <= 0
    {
      assert r[j] == ys[j - 1] && ys[j - 1] in ys;
      if i > 0 {
        assert r[i] == ys[i - 1];
      }
    }
  }

  /** Everything inserted into stays above a bound that is below the list and the newcomer. */
  lemma InsertBelow<T>(cmp: (T, T) -> int, b: T, x: T, ys: seq<T>)
    requires Below(b, ys, cmp) && cmp(b, x) <= 0
    ensures Below(b, Insert(cmp, x, ys), cmp)
  {
    forall y | y in Insert(cmp, x, ys)
      ensures cmp(b, y) <= 0
    {
      assert y in multiset(Insert(cmp, x, ys));
    }
  }

  /** Inserting into a sorted list keeps it sorted when the comparator is a total preorder there. */
  lemma {:induction false} InsertSorted<T>(cmp: (T, T) -> int, x: T, ys: seq<T>, pool: seq<T>)
    requires TotalOn(pool, cmp) && TransitiveOn(pool, cmp)
    requires x in pool && forall y | y in ys :: y in pool
    requires SortedBy(ys, cmp)
    ensures SortedBy(Insert(cmp, x, ys), cmp)
    decreases |ys|
  {
    if |ys| > 0 {
      var head := ys[0];
      var tail := ys[1..];
      assert head in ys && head in pool;
      assert ys == [head] + tail;
      assert Below(head, tail, cmp) by {
        forall y | y in tail
          ensures cmp(head, y) <= 0
        {
          var k :| 0 <= k < |tail| && tail[k] == y;
          assert ys[k + 1] == y;
        }
      }
      assert SortedBy(tail, cmp) by {
        forall i, j | 0 <= i < j < |tail|
          ensures cmp(tail[i], tail[j]) <= 0
        {
          assert tail[i] == ys[i + 1] && tail[j] == ys[j + 1];
        }
      }
      if cmp(x, head) <= 0 {
        assert Below(x, ys, cmp) by {
          forall y | y in ys
            ensures cmp(x, y) <= 0
          {
            assert y in pool;
            if y == head {
            } else {
              assert y in tail;
              assert cmp(head, y) <= 0;
            }
          }
        }
        ConsSorted(cmp, x, ys);
      } else {
        assert forall y | y in tail :: y in ys;
        InsertSorted(cmp, x, tail, pool);
        assert cmp(head, x) <= 0;
        InsertBelow(cmp, head, x, tail);
        ConsSorted(cmp, head, Insert(cmp, x, tail));
      }
    }
  }

  /** With a total preorder on the elements, the sort's result is ordered by the comparator. */
  lemma {:induction false} SortSorted<T>(cmp: (T, T) -> int, xs: seq<T>)
    requires TotalOn(xs, cmp) && TransitiveOn(xs, cmp)
    ensures SortedBy(Sort(cmp, xs), cmp)
    decreases |xs|
  {
    if |xs| > 0 {
      var tail := xs[1..];
      assert forall y | y in tail :: y in xs;
      SortSorted(cmp, tail);
      var sorted := Sort(cmp, tail);
      assert forall y | y in sorted :: y in multiset(tail);
      InsertSorted(cmp, xs[0], sorted, xs);
    }
  }
}

=== FILE: text.dfy ===
/**
 * The string operations the patch engine leans on: trimming tests, ASCII
 * lower-casing, substring search, decimal rendering and parsing of numbers,
 * and a total order on strings standing in for `localeCompare`.
 */
module Text {

  /** The characters `String.prototype.trim` removes (ECMAScript WhiteSpace and LineTerminator). */
  predicate IsWhitespace(c: char) {
    c == ' ' || c == '\t' || c == '\n' || c == '\r' || c == '\U{000B}' || c == '\U{000C}'
    || c == '\U{00A0}' || c == '\U{1680}' || ('\U{2000}' <= c <= '\U{200A}')
    || c == '\U{2028}' || c == '\U{2029}' || c == '\U{202F}' || c == '\U{205F}'
    || c == '\U{3000}' || c == '\U{FEFF}'
  }

  /** `!s.trim()`: the string is empty once surrounding whitespace is removed. */
  predicate IsBlank(s: string) {
    forall i | 0 <= i < |s| :: IsWhitespace(s[i])
  }

  /** `toLowerCase` restricted to the ASCII letters. */
  function LowerChar(c: char): (r: char)
    ensures 'A' <= c <= 'Z' ==> r as int == c as int + 32
    ensures !('A' <= c <= 'Z') ==> r == c
  {
    if 'A' <= c <= 'Z' then (c as int + 32) as char else c
  }

  function Lower(s: string): (r: string)
    ensures |r| == |s|
    ensures forall i | 0 <= i < |s| :: r[i] == LowerChar(s[i])
  {
    seq(|s|, i requires 0 <= i < |s| => LowerChar(s[i]))
  }

  predicate IsPrefix(p: string, s: string) {
    |p| <= |s| && s[..|p|] == p
  }

  /** `s.includes(sub)`: `sub` occurs somewhere in `s` (the empty string occurs everywhere). */
  predicate Contains(s: string, sub: string)
    decreases |s|
  {
    IsPrefix(sub, s) || (|s| > 0 && Contains(s[1..], sub))
  }

  lemma {:induction false} ContainsAt(s: string, sub: string, i: nat)
    requires i + |sub| <= |s| && s[i..i + |sub|] == sub
    ensures Contains(s, sub)
    decreases i
  {
    if i > 0 {
      assert s[1..][i - 1..i - 1 + |sub|] == s[i..i + |sub|];
      ContainsAt(s[1..], sub, i - 1);
    }
  }

  predicate IsDigit(c: char) {
    '0' <= c <= '9'
  }

  predicate AllDigits(s: string) {
    forall i | 0 <= i < |s| :: IsDigit(s[i])
  }

  function DigitChar(d: nat): (c: char)
    requires d < 10
    ensures IsDigit(c) && c as int - '0' as int == d
  {
    ('0' as int + d) as char
  }

  /** `parseInt` of a run of decimal digits (leading zeros allowed). */
  function ParseDigits(s: string): nat
    requires AllDigits(s)
    decreases |s|
  {
    if |s| == 0 then 0
    else ParseDigits(s[..|s| - 1]) * 10 + (s[|s| - 1] as int - '0' as int)
  }

  /** `n.toString()` for a non-negative integer. */
  function NatToString(n: nat): (r: string)
    ensures |r| >= 1 && AllDigits(r)
    ensures n > 0 ==> r[0] != '0'
    decreases n
  {
    if n < 10 then [DigitChar(n)] else NatToString(n / 10) + [DigitChar(n % 10)]
  }

  /** `n.toString()` for any integer. */
  function IntToString(n: int): (r: string)
    ensures |r| >= 1
    ensures n < 0 <==> r[0] == '-'
  {
    if n < 0 then "-" + NatToString(-n) else NatToString(n)
  }

  /** Parsing the decimal rendering of `n` gives `n` back. */
  lemma {:induction false} ParseNatToString(n: nat)
    ensures ParseDigits(NatToString(n)) == n
    decreases n
  {
    var s := NatToString(n);
    if n < 10 {
      assert s[..|s| - 1] == [];
    } else {
      var front := NatToString(n / 10);
      assert s == front + [DigitChar(n % 10)];
      assert s[..|s| - 1] == front;
      ParseNatToString(n / 10);
    }
  }

  /** Distinct numbers render as distinct strings. */
  lemma NatToStringInjective(m: nat, n: nat)
    requires NatToString(m) == NatToString(n)
    ensures m == n
  {
    ParseNatToString(m);
    ParseNatToString(n);
  }

  /**
   * Three-way comparison by character code, the deterministic stand-in for
   * `localeCompare`: negative, zero or positive.
   */
  function StrCompare(a: string, b: string): (r: int)
    ensures -1 <= r <= 1
    decreases |a|
  {
    if |a| == 0 && |b| == 0 then 0
    else if |a| == 0 then -1
    else if |b| == 0 then 1
    else if a[0] < b[0] then -1
    else if a[0] > b[0] then 1
    else StrCompare(a[1..], b[1..])
  }

  lemma {:induction false} StrCompareAntisymmetric(a: string, b: string)
    ensures StrCompare(a, b) == -StrCompare(b, a)
    decreases |a|
  {
    if |a| > 0 && |b| > 0 && a[0] == b[0] {
      StrCompareAntisymmetric(a[1..], b[1..]);
    }
  }

  lemma {:induction false} StrCompareZeroIffEqual(a: string, b: string)
    ensures StrCompare(a, b) == 0 <==> a == b
    decreases |a|
  {
    if |a| > 0 && |b| > 0 && a[0] == b[0] {
      StrCompareZeroIffEqual(a[1..], b[1..]);
      if a[1..] == b[1..] {
        assert a == [a[0]] + a[1..] && b == [b[0]] + b[1..];
      }
    }
  }

  lemma {:induction false} StrCompareTransitive(a: string, b: string, c: string)
    requires StrCompare(a, b) <= 0 && StrCompare(b, c) <= 0
    ensures StrCompare(a, c) <= 0
    decreases |a|
  {
    if |a| > 0 && |b| > 0 && |c| > 0 && a[0] == b[0] && b[0] == c[0] {
      StrCompareTransitive(a[1..], b[1..], c[1..]);
    }
  }
}

=== FILE: wrappers.dfy ===
/** Option and Result, the two failure-carrying datatypes the model uses. */
module Wrappers {

  datatype Option<+T> = None | Some(value: T) {

    /** The wrapped value, or `default` when there is none. */
    function GetOr(default: T): T {
      match this
      case Some(v) => v
      case None => default
    }
  }

  /** Either a committed value or the error that stopped the command. */
  datatype Result<+R, +E> = Success(value: R) | Failure(error: E)
}
